=== FILE: README.md ===
# Zendesk importer model

A Dafny model of askbot's Zendesk import command and of the staging models it
fills. The import runs in two phases:

1. **Extraction.** Each exported XML file is read into a staging table.
   - Every matching element becomes one record.
   - Every listed child is coerced by `get_val`: `None`, a strict boolean, an integer for types ending in `integer`, a timezone-shifted datetime, or the raw text.
   - A `-` in a field name becomes `_`.
   - A truthy value is cut to the field's declared `max_length`.
   - The extra mappings (`id` to `user_id`, `entry_id`, ...) are copied last, untruncated.
2. **Reconciliation.**
   - Every staged user is bridged to a target user (`import_users`). The bridge is found by unmasked email, or created with a collision-free username and the masked email, or with email `''` when the staged user has no address.
   - Every entry of a chosen, viewable forum whose author resolves, whose tags compute and whose create call succeeds becomes a question thread; the forum's thread count is the number of such entries (`import_forum`, `import_entry`, `post_question`). The other entries are left as they were.
   - Every post of such an entry becomes an answer, in creation order (`import_posts`, `post_answer`). Each informative answer re-marks the thread's accepted answer.
   - Authors resolve through the `askbot_user_id` bridge. Tags are the forum-name tag (kept in the `TAGS` cache) followed by the entry's tags.

Modules, in dependency order:

| file | module | models |
|---|---|---|
| `basics.dfy` | `Basics` | `Option`, `Result`, and `Indices`, the positions a table query returns |
| `text.dfy` | `Text` | `str`/`int` on integers, `strip`, `lower`, `replace`, `endswith`, `split(c)[0]`, `re.sub(r'\s+', '-', s)` |
| `timestamps.dfy` | `Timestamps` | `strptime` for `%Y-%m-%dT%H:%M:%S` and `%H:%M`; datetimes as seconds since 0001-01-01 |
| `coerce.dfy` | `Coerce` | `get_val` |
| `schema.dfy` | `Schema` | the `max_length` tables of models.py and the field lists of the four readers |
| `extract.dfy` | `Extract` | the `read_xml_file` loop |
| `staging.dfy` | `Staging` | staged records, both `get_author`, `get_body_text`, `get_tag_names` with `TAGS` |
| `identity.dfy` | `Identity` | `get_unique_username`, `create_askbot_user`, `import_users` |
| `content.dfy` | `Content` | `post_question`, `post_answer`, `import_posts`, `import_entry`, `import_forum` |

Everything outside the importer is a parameter:
- The target site's create calls are an oracle that says whether a call raises.
- `unescape` is a function parameter.
- The forum visibility test is a predicate parameter.
- The admin user is an id parameter.
- The database's refusal to save a user is an oracle on the user.
- The target store numbers posts by position: the post at position `p` has id `p + 1`.

The model follows the code in these places:
- **A user whose creation raises.** `create_askbot_user`'s docstring (import_zendesk.py:58) promises `None` on error, but the function has no path that returns `None`: an exception from `save` (import_zendesk.py:86) propagates. So the `None` checks in `import_users` (import_zendesk.py:383, 395) never skip a user. The pass stops at the first failure, and so does `Identity.ImportUsersFrom`.
- **Username of a created user.** The username search starts from the original address, not the masked one (import_zendesk.py:75).
- **Several target users per address.** Users are looked up by the original address (import_zendesk.py:391) but stored with the masked one (import_zendesk.py:73-74), so an ordinary address never matches a created user. Two staged users with the same ordinary address get two target users (`Identity.MaskedEmailDuplicates`). Only addresses at the kept domain merge (`Identity.KeptEmailMerges`).
- **Offset direction.** The offset is subtracted for the sign `-` and added for every other sign (import_zendesk.py:166-169), so `+01:00` moves the time one hour later (`Timestamps.ExamplePlusOneHour`).

## Model

| member | source | states |
|---|---|---|
| Text.NatToStringRoundTrip | askbot/importers/zendesk/management/commands/import_zendesk.py:40 | the decimal digits `str(n)` prints read back as `n` |
| Text.ParseIntegerRoundTrip | askbot/importers/zendesk/management/commands/import_zendesk.py:154-155 | `int(str(i)) == i` for every integer, negative ones included |
| Text.ParseInteger | askbot/importers/zendesk/management/commands/import_zendesk.py:154-155 | a number is read only from text that contains a digit, and a negative number only from text that contains `-`; text with no whitespace at either end is read as it stands, so stripping is the only thing the surrounding whitespace changes |
| Text.ParseIntegerShape | askbot/importers/zendesk/management/commands/import_zendesk.py:154-155 | text is accepted exactly when, stripped, it is an optional sign, whitespace only after a sign, then at least one digit, and it then reads as the signed digits' value; so `1.5`, `1 5` and `--1` raise |
| Text.ParseNegative | askbot/importers/zendesk/management/commands/import_zendesk.py:154-155 | text that is `-`, then any run of whitespace, then digits of value `v` reads as `-v`: Python 2's `int` skips whitespace after the sign (`int('- 5') == -5`) |
| Text.BeforeFirst | askbot/importers/zendesk/management/commands/import_zendesk.py:74 | `split('@')[0]` is the longest prefix without `@`; when it is shorter than the text, an `@` follows it |
| Text.CollapseSpacesRun | askbot/importers/zendesk/models.py:49 | one maximal whitespace run between two pieces of text becomes exactly one `-`, and the pieces are rewritten independently |
| Text.CollapseSpacesIdempotent | askbot/importers/zendesk/models.py:49 | applying the whitespace substitution to its own output changes nothing |
| Timestamps.FromToSeconds | askbot/importers/zendesk/management/commands/import_zendesk.py:162 | the seconds count is a faithful representation of a valid datetime: it lies in `datetime`'s range and converts back to the same date and time |
| Timestamps.ParseNaive | askbot/importers/zendesk/management/commands/import_zendesk.py:162 | a result is a valid calendar date and time that the text spells field by field: a four-digit year, two-digit month, day, hour, minute and second with `-`, `T` (or `t`) and `:` between them, a one-digit day optionally padded by a space; every text spelling a valid datetime so reads as it, so `2009-02-30T00:00:00` raises |
| Timestamps.ParseFormatNaive | askbot/importers/zendesk/management/commands/import_zendesk.py:162 | `strptime` reads the ISO form of any valid datetime back as that datetime |
| Timestamps.ParseOffset | askbot/importers/zendesk/management/commands/import_zendesk.py:163-164 | an offset is a whole number of minutes between `00:00` and `23:59`, read only from one or two digits, `:`, one or two digits, as hours and minutes; every such text with hours at most 23 and minutes at most 59 is accepted; so `01:00:00` and `1:2:3` raise |
| Timestamps.ParseFormatOffset | askbot/importers/zendesk/management/commands/import_zendesk.py:163-164 | `HH:MM` minus `ZERO_TIME` is `HH` hours and `MM` minutes |
| Timestamps.ParseZoned | askbot/importers/zendesk/management/commands/import_zendesk.py:156-169 | text shorter than 20 characters raises; a result requires both halves to parse and lies in `datetime`'s range |
| Timestamps.ParseZonedFormat | askbot/importers/zendesk/management/commands/import_zendesk.py:159-169 | a time, a sign and an `HH:MM` offset read back as the time minus the offset for `-`, plus the offset for every other sign, or as an overflow error outside `datetime`'s range |
| Timestamps.ZeroOffsetInRange | askbot/importers/zendesk/management/commands/import_zendesk.py:165-169 | a zero offset with either sign reads back as the naive time itself |
| Timestamps.ExamplePlusOneHour | askbot/importers/zendesk/management/commands/import_zendesk.py:166-169 | `2009-04-03T16:15:27+01:00` reads as 17:15:27 on the same day |
| Coerce.Find | askbot/importers/zendesk/management/commands/import_zendesk.py:136-138 | `find` returns the first child with the tag, and `None` exactly when no child has it |
| Coerce.CoerceText | askbot/importers/zendesk/management/commands/import_zendesk.py:147-173 | a boolean comes only from type `boolean`, an integer only from a type ending in `integer`, a time only from `datetime`, and every time lies in range |
| Coerce.GetVal | askbot/importers/zendesk/management/commands/import_zendesk.py:135-173 | an error needs a present child with present text; every typed result names a child whose type attribute produced it |
| Coerce.GetValAbsent | askbot/importers/zendesk/management/commands/import_zendesk.py:136-145 | a missing child or missing text is `None` whatever its type, so an empty boolean field is not an error |
| Coerce.GetValBoolean | askbot/importers/zendesk/management/commands/import_zendesk.py:147-153 | a boolean field succeeds exactly for `"true"` and `"false"`, with the matching value |
| Coerce.MaybeIsNotBoolean | askbot/importers/zendesk/management/commands/import_zendesk.py:147-153 | `"maybe"` in a boolean field raises |
| Coerce.GetValIntegerNeedsDigits | askbot/importers/zendesk/management/commands/import_zendesk.py:154-155 | a field whose type ends in `integer` raises on text with no digit |
| Coerce.GetValUntyped | askbot/importers/zendesk/management/commands/import_zendesk.py:139-173 | a missing type attribute, or any type other than the three known kinds, gives the raw text unchanged |
| Coerce.GetValExport | askbot/importers/zendesk/management/commands/import_zendesk.py:135-173 | every value the exporter writes (null, boolean, integer, time with a `+00:00` offset, text) reads back as itself, wherever the child sits after children with other tags |
| Schema.ModelFieldName | askbot/importers/zendesk/management/commands/import_zendesk.py:256 | the model field name has the same length as the exported name, each `-` replaced by `_` and every other character kept; it contains no `-` |
| Schema.ModelFieldNameIsReplace | askbot/importers/zendesk/management/commands/import_zendesk.py:256 | the renaming agrees with Python's `replace('-', '_')` on every name |
| Schema.ModelFieldNameRoundTrip | askbot/importers/zendesk/management/commands/import_zendesk.py:256 | an exported name without `_` is recovered from its model field name by turning `_` back into `-`, so distinct such names never share a model field |
| Extract.Truncate | askbot/importers/zendesk/management/commands/import_zendesk.py:257-259 | a falsy value or a field without a length is untouched; a string is unchanged when it already fits and is otherwise cut to exactly its first `max_length` characters; slicing a truthy non-string raises |
| Extract.AssignFields | askbot/importers/zendesk/management/commands/import_zendesk.py:254-260 | it succeeds exactly when every listed field coerces and exists in the table; it adds exactly the renamed fields, leaves other names alone, and the last field stored under a name wins |
| Extract.ApplyExtras | askbot/importers/zendesk/management/commands/import_zendesk.py:261-264 | it succeeds exactly when every source coerces; it adds exactly the targets with their coerced values, untruncated, and leaves other names alone |
| Extract.BuildRecord | askbot/importers/zendesk/management/commands/import_zendesk.py:253-264 | building a record fails exactly when some listed field or some extra source raises |
| Extract.BuildRecordContents | askbot/importers/zendesk/management/commands/import_zendesk.py:253-264 | a record holds exactly the renamed listed fields and the extra targets; extras override listed fields; a listed field keeps its truncated value otherwise |
| Extract.BuildRecordWithinLength | askbot/importers/zendesk/management/commands/import_zendesk.py:257-260 | a stored string never exceeds its field's declared length unless an extra mapping wrote it |
| Extract.Matching | askbot/importers/zendesk/management/commands/import_zendesk.py:252 | `findall` gives one element per node with the entry tag, in document order: the k-th element is the children of the k-th such node |
| Extract.ExtractElements | askbot/importers/zendesk/management/commands/import_zendesk.py:252-285 | records are saved in element order, one per element, until the first element that raises; the records before it stay saved and its error is reported |
| Extract.ReadXml | askbot/importers/zendesk/management/commands/import_zendesk.py:250-285 | exactly one saved record per element with the entry tag when nothing raises; otherwise the saved records are those of the elements before the first failing one |
| Extract.EntryIdFromIdElement | askbot/importers/zendesk/management/commands/import_zendesk.py:309-317 | an entry's `entry_id` comes from the generic `id` child, not from `entry-id`, because the extra mapping is applied last |
| Staging.ResolveAuthor | askbot/importers/zendesk/models.py:33-36 | resolution succeeds exactly when one staged user has the id, it is bridged and one target user has the bridged id; the result is that id; no staged user is its own error (`Post.get_author`, models.py:70-73, is the same code) |
| Staging.ResolveAuthorAfterNewTarget | askbot/importers/zendesk/models.py:33-36 | adding a target user with another id does not change a resolved author |
| Staging.GetBodyText | askbot/importers/zendesk/models.py:38-43 | the first call unescapes the body and keeps it; a later call returns the kept text and does not unescape |
| Staging.BodyTextMemoised | askbot/importers/zendesk/models.py:38-43 | however often a fresh object is asked, every call returns the first unescaped text and `unescape` runs once |
| Staging.ForumTag | askbot/importers/zendesk/models.py:49 | the forum tag contains no whitespace and is no longer than the name |
| Staging.ForumTagOfWord | askbot/importers/zendesk/models.py:49 | a forum name that is one lower-case word is its own tag |
| Staging.WithEntryTagsSplit | askbot/importers/zendesk/models.py:51-54 | the forum tag is everything before the first space of the tag string; the entry's non-empty tags are everything after it; without them the string is the forum tag alone |
| Staging.GetTagNames | askbot/importers/zendesk/models.py:45-54 | a hit always succeeds and leaves the cache as it was; a miss succeeds exactly when one forum has the id and caches that forum's tag; no cached tag is ever replaced |
| Staging.GetTagNamesHit | askbot/importers/zendesk/models.py:47-51 | a cache hit does not depend on the forum table |
| Staging.GetTagNamesSound | askbot/importers/zendesk/models.py:45-54 | a cache holding only true forum tags stays so, and gives the same result as an empty cache |
| Staging.GetTagNamesKeepsSound | askbot/importers/zendesk/models.py:47-51 | every call keeps the cache holding only true forum tags |
| Identity.CandidateInjective | askbot/importers/zendesk/management/commands/import_zendesk.py:40 | different attempt numbers give different candidate names |
| Identity.FirstFreeAttempt | askbot/importers/zendesk/management/commands/import_zendesk.py:37-43 | the loop ends at an attempt whose name is free, and every earlier attempt was taken |
| Identity.GetUniqueUsername | askbot/importers/zendesk/management/commands/import_zendesk.py:30-43 | the result is never taken; it is the seed when the seed is free, otherwise the seed followed by `k >= 1` with every smaller attempt taken |
| Identity.UniqueUsernameMinimal | askbot/importers/zendesk/management/commands/import_zendesk.py:35-43 | the smallest free attempt is the result |
| Identity.MaskEmail | askbot/importers/zendesk/management/commands/import_zendesk.py:71-74 | an address at the kept domain is kept; any other becomes all of its text before the first `@` (all of it when there is no `@`) followed by `@example.com` |
| Identity.MaskEmailChanges | askbot/importers/zendesk/management/commands/import_zendesk.py:73-74 | a masked address differs from the original unless the original already had the masked form |
| Identity.FreshUserId | askbot/importers/zendesk/management/commands/import_zendesk.py:86 | a saved user gets an id above every id in use |
| Identity.UsernameSeed | askbot/importers/zendesk/management/commands/import_zendesk.py:67-75 | the search starts from the address when there is one; otherwise from the name, same length, each space turned into `_`, no upper-case ASCII letter left, and every other character kept |
| Identity.NewTargetUser | askbot/importers/zendesk/management/commands/import_zendesk.py:67-85 | the username is the unique-username search started from the seed, so it is free; the id is fresh; `''` for a missing address, otherwise the masked one; verification, activity and both dates copied from the staged user |
| Identity.CreateAskbotUser | askbot/importers/zendesk/management/commands/import_zendesk.py:56-87 | the result is the built user exactly when the database accepts it, otherwise the save error naming its username |
| Identity.AppendCreatedValid | askbot/importers/zendesk/management/commands/import_zendesk.py:76-86 | adding a created user keeps usernames and ids unique |
| Identity.LookupByEmail | askbot/importers/zendesk/management/commands/import_zendesk.py:391-393 | `get(email=...)` finds nothing exactly when no target user has the address; it finds the only user with it, or raises for several |
| Identity.ImportByEmail | askbot/importers/zendesk/management/commands/import_zendesk.py:386-398 | a failure (several users with the address, or a failed save) leaves the state as it was; `added_users` grows by exactly the number of users the branch creates |
| Identity.ImportByEmailCreates | askbot/importers/zendesk/management/commands/import_zendesk.py:387-400 | the email branch adds at most the user it creates, keeps the table valid, and bridges to a user that exists |
| Identity.ExistingEmailBridges | askbot/importers/zendesk/management/commands/import_zendesk.py:386-400 | a staged user whose non-empty address exactly one target user has is bridged to that user; nothing is created or counted |
| Identity.SeveralEmailsAbort | askbot/importers/zendesk/management/commands/import_zendesk.py:391-393 | when several target users have the address, `get` raises `MultipleObjectsReturned`, which is not caught: the pass ends and the row changes nothing |
| Identity.ImportUserAsWritten | askbot/importers/zendesk/management/commands/import_zendesk.py:381-385 | as written, a staged user with the address `''` always ends the pass with a failure and leaves every bridge as it was |
| Identity.ImportUser | askbot/importers/zendesk/management/commands/import_zendesk.py:375-400 | one staged user: only its bridge changes; a failure changes nothing; otherwise it is bridged to an existing target user; at most one user is added; `added_users` counts only a user created in the email branch |
| Identity.ImportUsersFrom | askbot/importers/zendesk/management/commands/import_zendesk.py:375-400 | the loop only adds target users, keeps them unique, rewrites only bridges, bridges every user it reaches when nothing raises, and counts at most the users added |
| Identity.ImportUsers | askbot/importers/zendesk/management/commands/import_zendesk.py:373-400 | when nothing raises every staged user is bridged to an existing target user; target users are only added and stay unique; `added_users` counts at most the users created |
| Identity.ImportUsersMakesAuthors | askbot/importers/zendesk/management/commands/import_zendesk.py:399-400 | after a pass that raised nothing, every staged user with a unique Zendesk id resolves as an author |
| Identity.NoneMembershipAborts | askbot/importers/zendesk/management/commands/import_zendesk.py:381-385 | for an address of `''` the code as written saves a user, leaves it unbridged and ends the pass, while the intended step bridges it and carries on |
| Identity.AsWrittenAgreesOtherwise | askbot/importers/zendesk/management/commands/import_zendesk.py:381-400 | for any other address the written and the intended step agree |
| Identity.UnknownEmailCreates | askbot/importers/zendesk/management/commands/import_zendesk.py:387-398 | a staged user without an address, or whose non-empty address no target user has, is created, counted and bridged to the new user; without an address the new user's email is `''` (import_zendesk.py:67-68) |
| Identity.MaskedEmailDuplicates | askbot/importers/zendesk/management/commands/import_zendesk.py:391-398 | two staged users with the same ordinary address get two target users, both with the masked address, with different usernames, both counted |
| Identity.KeptEmailMerges | askbot/importers/zendesk/management/commands/import_zendesk.py:387-400 | a second staged user with the same kept-domain address is bridged to the user the first one created, and nothing new is created |
| Content.PrepareQuestion | askbot/importers/zendesk/management/commands/import_zendesk.py:92-97 | the author, the body and then the tags are computed; a failure leaves the tag cache as it was; otherwise only the entry's forum can enter the cache and no cached tag changes |
| Content.PostQuestion | askbot/importers/zendesk/management/commands/import_zendesk.py:89-114 | a dropped entry leaves the store unchanged; a posted one appends one thread and one question post in it and keeps everything before; the tag cache only grows |
| Content.PostQuestionEffect | askbot/importers/zendesk/management/commands/import_zendesk.py:92-110 | a question is posted exactly when the author resolves, the tags compute and the create call succeeds; its thread has the entry's title and tags, the hits as views, and is closed by the admin with reason 5 exactly when the entry is locked; its post has the author and the unescaped body |
| Content.PostAnswer | askbot/importers/zendesk/management/commands/import_zendesk.py:116-133 | an answer is posted exactly when the author resolves and the create call succeeds; it is appended to the question's thread with the author, body and time; an informative answer becomes the accepted answer; nothing else changes |
| Content.SortByCreation | askbot/importers/zendesk/management/commands/import_zendesk.py:422-424 | the result lists the same posts, each created before the next |
| Content.PostOrder | askbot/importers/zendesk/management/commands/import_zendesk.py:422-424 | the result lists exactly the entry's posts, in creation order |
| Content.OrderedUnique | askbot/importers/zendesk/management/commands/import_zendesk.py:424 | two creation-ordered lists of the same posts are equal, so the order is determined |
| Content.AnswerStep | askbot/importers/zendesk/management/commands/import_zendesk.py:426-430 | one turn keeps the question in the same thread and keeps the number of threads and staged posts |
| Content.AnswerStepEffect | askbot/importers/zendesk/management/commands/import_zendesk.py:426-430 | one turn rewrites at most that post's `ab_id`, appends at most its answer, and of the threads changes only the question's accepted answer |
| Content.ImportPostsIn | askbot/importers/zendesk/management/commands/import_zendesk.py:422-430 | the loop over the ordered posts keeps the question in the same thread and keeps the number of threads and staged posts |
| Content.ImportPostsThreads | askbot/importers/zendesk/management/commands/import_zendesk.py:422-430 | of the threads, the loop changes only the question's accepted answer |
| Content.ImportPostsRows | askbot/importers/zendesk/management/commands/import_zendesk.py:422-430 | the loop only appends posts to the store and rewrites only the `ab_id` of listed staged posts |
| Content.ImportPostsCount | askbot/importers/zendesk/management/commands/import_zendesk.py:422-430 | the store gains exactly one post per answer that succeeds |
| Content.ImportPostsAnswers | askbot/importers/zendesk/management/commands/import_zendesk.py:426-430 | a listed post that succeeds is recorded under a new answer with its author, body and time, and a failed one is left alone without stopping the others |
| Content.ImportPostsAnswerOrder | askbot/importers/zendesk/management/commands/import_zendesk.py:422-430 | answers get increasing ids in the order the posts are listed |
| Content.ImportPostsKeepsAccepted | askbot/importers/zendesk/management/commands/import_zendesk.py:127-129 | when no listed post is informative and posted, the accepted answer stays as it was |
| Content.ImportPostsLastAccepted | askbot/importers/zendesk/management/commands/import_zendesk.py:124-129 | the thread ends with the answer of the last listed informative post that is posted |
| Content.ImportPosts | askbot/importers/zendesk/management/commands/import_zendesk.py:419-430 | of the threads only the question's accepted answer changes; store posts are only appended; only `ab_id` of the entry's staged posts is rewritten |
| Content.ImportPostsRecorded | askbot/importers/zendesk/management/commands/import_zendesk.py:419-430 | every post of the entry is recorded as an answer in the question's thread or left alone, and earlier-created posts get smaller answer ids |
| Content.ImportPostsAccepted | askbot/importers/zendesk/management/commands/import_zendesk.py:124-129 | the question ends with the answer of the entry's latest-created informative post that is posted, or keeps its accepted answer when there is none |
| Content.ImportEntry | askbot/importers/zendesk/management/commands/import_zendesk.py:432-442 | a dropped question changes nothing but the tag cache; an imported entry adds one thread, records a question in it and touches only its own posts and row |
| Content.ImportEntryAnswers | askbot/importers/zendesk/management/commands/import_zendesk.py:432-442 | once the entry's question is posted, each of the entry's posts whose answer succeeds is recorded as an answer in the new thread, numbered after the question, and the rest are left alone; the thread ends with the answer of the latest-created informative post that is posted |
| Content.ImportEntryPostsQuestion | askbot/importers/zendesk/management/commands/import_zendesk.py:435-437 | an entry counts as imported exactly when its author resolves, its tags compute and the create call succeeds |
| Content.ImportEntriesFrom | askbot/importers/zendesk/management/commands/import_zendesk.py:456-458 | the thread count is the number of new threads; only the forum's entries and their posts change; every changed entry records a posted question |
| Content.ImportEntryPosts | askbot/importers/zendesk/management/commands/import_zendesk.py:432-442 | with a tag cache holding only true forum tags, an entry is imported exactly when its author resolves, its forum's tags compute from an empty cache and the create call succeeds, whatever else the store holds |
| Content.EntriesFromCount | askbot/importers/zendesk/management/commands/import_zendesk.py:456-458 | the thread count of the loop over a forum's entries is the number of that forum's entries that post a question |
| Content.EntriesFromPosted | askbot/importers/zendesk/management/commands/import_zendesk.py:456-458 | every entry of the forum that posts a question ends up recording a question created by this loop |
| Content.EntriesFromKeeps | askbot/importers/zendesk/management/commands/import_zendesk.py:456-458 | an entry that does not post a question is left as it was |
| Content.ForumStep | askbot/importers/zendesk/management/commands/import_zendesk.py:451-455 | a forum that is not chosen and viewable changes nothing and counts no thread; the count is the number of new threads |
| Content.ForumStepCount | askbot/importers/zendesk/management/commands/import_zendesk.py:447-458 | a chosen, viewable forum counts exactly its entries that post a question |
| Content.ForumStepPosted | askbot/importers/zendesk/management/commands/import_zendesk.py:456-458 | every entry of a chosen, viewable forum that posts a question ends up recording a question created for it |
| Content.ForumStepKeeps | askbot/importers/zendesk/management/commands/import_zendesk.py:456-458 | an entry that does not post a question is left as it was |
| Content.ImportForumsFrom | askbot/importers/zendesk/management/commands/import_zendesk.py:444-460 | one count per forum row, zero for a skipped forum; the new threads number the sum of the counts; the store is only appended to; the tag cache only grows |
| Content.ForumsFromCounts | askbot/importers/zendesk/management/commands/import_zendesk.py:446-460 | the count of each chosen, viewable forum is the number of its entries that post a question, whatever the forums before it did |
| Content.ForumsFromCountAt | askbot/importers/zendesk/management/commands/import_zendesk.py:446-460 | the count at one position, for a chosen, viewable forum there, is the number of its entries that post a question |
| Content.ForumsFromPosted | askbot/importers/zendesk/management/commands/import_zendesk.py:446-458 | every entry of an imported forum that posts a question ends up recording a question created by the loop |
| Content.ForumsFromKeeps | askbot/importers/zendesk/management/commands/import_zendesk.py:446-458 | an entry that does not post a question is left as it was |
| Content.ImportForumEffects | askbot/importers/zendesk/management/commands/import_zendesk.py:444-460 | from a sound tag cache, the whole loop counts, posts and keeps entries as the three lemmas before it say |
| Content.ImportForumsFrames | askbot/importers/zendesk/management/commands/import_zendesk.py:445-458 | only entries of imported forums change, each into a posted question, and only posts of such entries change |
| Content.ImportForum | askbot/importers/zendesk/management/commands/import_zendesk.py:444-460 | forums that are not chosen or not viewable create no thread and leave their entries and posts untouched; the store is only appended to; a tag cache holding only true forum tags keeps doing so; from such a cache (the empty `TAGS` the command starts with is one), each chosen, viewable forum counts exactly its entries whose author resolves, whose tags compute and whose create call succeeds, each of those entries records a question created by the import, and every other entry is left as it was |

## Left out

- Archive and XML plumbing are not modelled: `tarfile`, `get_file`'s path lookup (import_zendesk.py:212-220) and lxml parsing are I/O. A parsed document is a list of elements, each a list of children (tag, type attribute, text).
- The ORM is replaced by sequences and lookups over them.
  - `save` always succeeds for staged rows.
  - Field validation at save time is not modelled.
  - Django's default `max_length` of `EmailField` and `URLField` are parameters of `Schema.UserTable`.
- `Identity.ImportUsers` uses the corrected step `Identity.ImportUser` (`is None`) for an address of `''`, not the step as written. Extraction never stores `''`, so over extracted rows the two agree (`Identity.AsWrittenAgreesOtherwise`). The behaviour as written is stated by `Identity.NoneMembershipAborts`.
- `Identity.ImportUser`: its own contract states frames, the bridge and the count, not which branch runs. Which staged users are bridged to an existing user, created or make the pass end is stated by `Identity.ExistingEmailBridges`, `Identity.UnknownEmailCreates` (also for a user without an address) and `Identity.SeveralEmailsAbort`.
- `Content.ImportEntry`: its own contract states only frames on the staged posts. That the entry's posts become answers to its new question (import_zendesk.py:440) is stated by `Content.ImportEntryAnswers`.
- `Identity.ImportUsers`: the OpenID association (import_zendesk.py:402-415) is left out. It depends on installed settings and swallows every exception, so it cannot change what the pass leaves in the tables the model covers.
- `handle`'s forum selection (import_zendesk.py:201-210) is left out because it asks an operator. `Content.ImportForum` takes the chosen ids as a parameter.
- `viewable_to_public` is not defined in models.py, so it is a predicate parameter.
- `Content.PostQuestionEffect` takes the admin as a user id parameter. `ADMIN_USER` (import_zendesk.py:28) is a queryset slice, not a user, and Django would plausibly refuse it as `closed_by` (import_zendesk.py:105-109) with a `ValueError`. As written, a locked entry's question would then be created and the entry dropped. `set_closed_status` is not part of this model, so this is not claimed as a finding.
- `closed_at = datetime.now()` (import_zendesk.py:108) is a clock reading and is left out.
- `Content.PostQuestion` and `Content.PostAnswer`: `increase_view_count`, `set_closed_status` and `thread.save()` (import_zendesk.py:99-110, and import_zendesk.py:129 for an answer) are assumed to succeed. Only the create calls are oracles. So a failure after a create call, which in the code drops the entry or post with the question or answer already created, is not modelled.
- `unescape` is an opaque function parameter.
- Text handling covers only ASCII letters: Unicode `lower()` is not modelled. Python 2's `\s` without `re.UNICODE` matches exactly the six ASCII whitespace characters of `Text.IsSpace`.
- `Text.ParseInteger`: its own contract states only digit and sign facts and the effect of stripping; which texts it accepts, and what they read as, is stated for every input by `Text.ParseIntegerShape`. It models Python 2's `int()` on ASCII text: surrounding whitespace, an optional sign, whitespace after the sign, and ASCII digits. Non-ASCII digits and non-ASCII whitespace in unicode text are left out.
- `Timestamps.ParseNaive` reads exactly nineteen characters, which forces two-digit fields. `strptime` details that cannot arise at that width are left out.
- Console output, `added_users` printing and the per-forum thread counts (import_zendesk.py:417, 459-460) are printed, not returned. The model returns the counts so that they can be stated.
- `read_tickets` (import_zendesk.py:352-370) is dead: there is no `Ticket` model and its call is commented out. The commented-out `import_content` and `clean_username` are also dead.
- The rule that every listed field exists in its model's table is not proved for the literal field lists. `Extract.AssignFields` returns an `UnknownField` error instead, so a missing field is an error path rather than an assumption.
- `Post.ab_id` is declared non-null (models.py:68) but extraction never sets it, so saving a staged post would fail in the database. The model keeps the column optional, and that failure is not modelled.
- `Identity.LookupByEmail`, `Staging.ResolveAuthor` and `Staging.GetTagNames` model `.get()` raising for several rows. The username search models only "taken or not", because usernames are unique in the target table.
- `Content.PostOrder`: Django leaves the order of posts with the same `created_at` unspecified. The model breaks ties by table position.
- `Content.ImportPostsIn` states only light frame conditions in its own contract. What it records per post is stated by the lemmas after it (`Content.ImportPostsAnswers`, `Content.ImportPostsLastAccepted`).
- `Content.ImportEntriesFrom` states frames and the thread count in its own contract. Which entries it imports and what the count equals are stated by `Content.EntriesFromCount`, `Content.EntriesFromPosted` and `Content.EntriesFromKeeps`.
- `Content.ForumStep` states the skipped case in its own contract. The imported case is stated by `Content.ForumStepCount`, `Content.ForumStepPosted` and `Content.ForumStepKeeps`.
- `Content.ImportForumsFrom` states frames and the counts' sum in its own contract. Which entries it imports and what each count equals are stated by `Content.ForumsFromCounts`, `Content.ForumsFromPosted` and `Content.ForumsFromKeeps`, and for the whole loop by `Content.ImportForum`.
- Row order: `User.objects.all()` (import_zendesk.py:375), `Forum.objects.filter` (import_zendesk.py:445) and `Entry.objects.filter` (import_zendesk.py:456) have no `order_by`, so the database may return rows in any order. The model visits rows in table order. Username suffixes and answer ids depend on that order.
- Re-running an import is not modelled. The code does not check whether a row is already bridged, so a re-run would post everything again.

## Findings

| source | as written | input that shows it | evidently intended | confidence | as-written member | corrected member |
|---|---|---|---|---|---|---|
| askbot/importers/zendesk/management/commands/import_zendesk.py:383 | `if ab_user in None:` is evaluated after the user for an address of `''` has been created and saved. Membership in `None` raises `TypeError`, so the pass stops with that user unbridged. | a staged user whose `email` is `''` and whose save succeeds | `if ab_user is None:` skips a user that could not be created; otherwise the staged user is bridged to the new user and the pass continues | not executed; extraction never stores `''` (an empty element has no text and reads as `None`), so the path is reachable only through staged rows written by other means | Identity.NoneMembershipAborts | Identity.ImportUser |

=== FILE: basics.dfy ===
/** Option and Result values shared by every module of the importer model, and the
    table query every module uses. A Python `None` becomes `None`, a raised exception
    becomes `Err`. */
module Basics {

  datatype Option<+T> = None | Some(value: T)

  datatype Result<+T, +E> = Ok(value: T) | Err(error: E)

  /** The positions of the rows of `s` that satisfy `p`, in table order: a
      `filter(...)` query over a table read in primary-key order. */
  function Indices<T>(s: seq<T>, p: T -> bool): (r: seq<nat>)
    ensures forall k :: 0 <= k < |r| ==> r[k] < |s| && p(s[r[k]])
    ensures forall i :: 0 <= i < |s| && p(s[i]) ==> i in r
    ensures forall a, b :: 0 <= a < b < |r| ==> r[a] < r[b]
    decreases |s|
  {
    if |s| == 0 then []
    else
      var rest := Indices(s[..|s| - 1], p);
      if p(s[|s| - 1]) then rest + [|s| - 1] else rest
  }
}

=== FILE: coerce.dfy ===
/** The field coercer `get_val`: a child element of an exported record carries an
    optional `type` attribute and optional text, and the attribute alone decides
    how the text is read. An lxml element is modelled as the list of its children. */
module Coerce {
  import opened Basics
  import opened Text
  import opened Timestamps

  /** A typed field value: Python's `None`, `bool`, `int`, naive `datetime` (as seconds)
      or `unicode`. */
  datatype FieldValue = Null | Bool(b: bool) | Int(i: int) | Time(t: int) | Str(s: string)

  /** One child element: its tag, its `type` attribute if any, its text if any. */
  datatype XmlChild = XmlChild(tag: string, typeAttr: Option<string>, text: Option<string>)

  /** The children of one exported record element. */
  type XmlElement = seq<XmlChild>

  datatype CoerceError =
    | NotBoolean(raw: string)
    | NotInteger(raw: string)
    | NotDateTime(raw: string, why: TimeError)

  /** Values `get_val` can produce: a time lies within the range of `datetime`. */
  predicate WellFormed(v: FieldValue) {
    v.Time? ==> 0 <= v.t <= MaxSeconds
  }

  /** `elem.find(tag)`: the first child with that tag. */
  function Find(elem: XmlElement, tag: string): (r: Option<nat>)
    ensures r.Some? ==> r.value < |elem| && elem[r.value].tag == tag
    ensures r.Some? ==> forall j :: 0 <= j < r.value ==> elem[j].tag != tag
    ensures r.None? ==> forall j :: 0 <= j < |elem| ==> elem[j].tag != tag
    decreases |elem|
  {
    if |elem| == 0 then None
    else if elem[0].tag == tag then Some(0)
    else match Find(elem[1..], tag)
      case None => None
      case Some(i) => Some(i + 1)
  }

  /** `field.attrib['type']`, or `''` when the attribute is missing. */
  function TypeOf(c: XmlChild): string {
    match c.typeAttr
    case Some(t) => t
    case None => ""
  }

  /** Reads present text according to the declared type. */
  function CoerceText(typ: string, raw: string): (r: Result<FieldValue, CoerceError>)
    ensures r.Ok? ==> WellFormed(r.value)
    ensures r.Ok? && r.value.Bool? ==> typ == "boolean"
    ensures r.Ok? && r.value.Int? ==> EndsWith(typ, "integer")
    ensures r.Ok? && r.value.Time? ==> typ == "datetime"
  {
    if typ == "boolean" then
      if raw == "true" then Ok(Bool(true))
      else if raw == "false" then Ok(Bool(false))
      else Err(NotBoolean(raw))
    else if EndsWith(typ, "integer") then
      match ParseInteger(raw)
      case Some(i) => Ok(Int(i))
      case None => Err(NotInteger(raw))
    else if typ == "datetime" then
      match ParseZoned(raw)
      case Ok(t) => Ok(Time(t))
      case Err(e) => Err(NotDateTime(raw, e))
    else Ok(Str(raw))
  }

  /** `get_val(elem, name)`. A missing child or missing text is `None` before the type
      is looked at; an error can only come from text that is present. */
  function GetVal(elem: XmlElement, name: string): (r: Result<FieldValue, CoerceError>)
    ensures r.Ok? ==> WellFormed(r.value)
    ensures r.Err? ==> Find(elem, name).Some? && elem[Find(elem, name).value].text.Some?
    ensures r.Ok? && !r.value.Null? && !r.value.Str? ==> Find(elem, name).Some?
    ensures r.Ok? && r.value.Bool? ==> Find(elem, name).Some? && TypeOf(elem[Find(elem, name).value]) == "boolean"
    ensures r.Ok? && r.value.Int? ==> Find(elem, name).Some? && EndsWith(TypeOf(elem[Find(elem, name).value]), "integer")
    ensures r.Ok? && r.value.Time? ==> Find(elem, name).Some? && TypeOf(elem[Find(elem, name).value]) == "datetime"
  {
    match Find(elem, name)
    case None => Ok(Null)
    case Some(i) =>
      match elem[i].text
      case None => Ok(Null)
      case Some(raw) => CoerceText(TypeOf(elem[i]), raw)
  }

  /** A missing element, or an element without text, is `None` whatever its type;
      an empty boolean field is not an error. */
  lemma GetValAbsent(elem: XmlElement, name: string)
    requires Find(elem, name).None? || elem[Find(elem, name).value].text.None?
    ensures GetVal(elem, name) == Ok(Null)
  {
  }

  /** Booleans are exactly `"true"` and `"false"`; every other text raises. */
  lemma GetValBoolean(elem: XmlElement, name: string, raw: string)
    requires Find(elem, name).Some?
    requires elem[Find(elem, name).value].typeAttr == Some("boolean")
    requires elem[Find(elem, name).value].text == Some(raw)
    ensures GetVal(elem, name).Ok? <==> raw == "true" || raw == "false"
    ensures GetVal(elem, name).Ok? ==> GetVal(elem, name) == Ok(Bool(raw == "true"))
  {
  }

  /** `"maybe"` in a boolean field is an error. */
  lemma MaybeIsNotBoolean()
    ensures GetVal([XmlChild("is-public", Some("boolean"), Some("maybe"))], "is-public")
            == Err(NotBoolean("maybe"))
  {
  }

  /** Untyped text, and text of any type other than boolean, `...integer` and datetime,
      comes back unchanged. */
  lemma GetValUntyped(elem: XmlElement, name: string, raw: string)
    requires Find(elem, name).Some?
    requires elem[Find(elem, name).value].text == Some(raw)
    requires var t := TypeOf(elem[Find(elem, name).value]);
             t != "boolean" && !EndsWith(t, "integer") && t != "datetime"
    ensures GetVal(elem, name) == Ok(Str(raw))
  {
  }

  /** Text without a digit in a field whose type ends in `integer` raises. */
  lemma GetValIntegerNeedsDigits(elem: XmlElement, name: string, raw: string)
    requires Find(elem, name).Some?
    requires EndsWith(TypeOf(elem[Find(elem, name).value]), "integer")
    requires elem[Find(elem, name).value].text == Some(raw)
    requires forall i :: 0 <= i < |raw| ==> !IsDigit(raw[i])
    ensures GetVal(elem, name) == Err(NotInteger(raw))
  {
  }

  /** How the exporter writes a value: the partner of `GetVal`. A time is written as its
      naive form with a `+00:00` offset. */
  function Export(tag: string, v: FieldValue): XmlChild
    requires WellFormed(v)
  {
    match v
    case Null => XmlChild(tag, None, None)
    case Bool(b) => XmlChild(tag, Some("boolean"), Some(if b then "true" else "false"))
    case Int(i) => XmlChild(tag, Some("integer"), Some(IntToString(i)))
    case Time(t) => XmlChild(tag, Some("datetime"), Some(FormatNaive(FromSeconds(t)) + "+" + FormatOffset(0, 0)))
    case Str(s) => XmlChild(tag, None, Some(s))
  }

  /** Reading back an exported value gives the value, wherever the child sits
      after children with other tags. */
  lemma GetValExport(others: XmlElement, tag: string, v: FieldValue, rest: XmlElement)
    requires WellFormed(v)
    requires forall j :: 0 <= j < |others| ==> others[j].tag != tag
    ensures GetVal(others + [Export(tag, v)] + rest, tag) == Ok(v)
  {
    var elem := others + [Export(tag, v)] + rest;
    FindAfterOthers(others, Export(tag, v), rest);
    match v
    case Null =>
    case Bool(b) =>
    case Int(i) =>
      assert EndsWith("integer", "integer");
      assert "integer" != "boolean";
      ParseIntegerRoundTrip(i);
    case Time(t) =>
      var dt := FromSeconds(t);
      assert FormatNaive(dt) + "+" + FormatOffset(0, 0) == FormatNaive(dt) + ['+'] + FormatOffset(0, 0);
      FromToSeconds(dt);
      ZeroOffsetInRange(dt, '+');
      assert "datetime" != "boolean";
      assert !EndsWith("datetime", "integer") by {
        assert "datetime"[1..] != "integer";
      }
    case Str(x) =>
  }

  lemma {:induction false} FindAfterOthers(others: XmlElement, c: XmlChild, rest: XmlElement)
    requires forall j :: 0 <= j < |others| ==> others[j].tag != c.tag
    ensures Find(others + [c] + rest, c.tag) == Some(|others|)
    decreases |others|
  {
    if |others| > 0 {
      assert (others + [c] + rest)[1..] == others[1..] + [c] + rest;
      FindAfterOthers(others[1..], c, rest);
    }
  }
}

=== FILE: content.dfy ===
/** Content reconciliation: each staged entry of a chosen forum becomes a question
    thread (`post_question`, `import_entry`), each of its staged posts an answer in
    creation order (`post_answer`, `import_posts`), forum by forum (`import_forum`).
    The target site is a store of threads and posts; whether one of its create calls
    raises is an oracle, as are `unescape`, the admin user and the forum visibility
    test. */
module Content {
  import opened Basics
  import opened Text
  import opened Staging

  // ---------------------------------------------------------------------------
  // The target content store
  // ---------------------------------------------------------------------------

  /** A question thread as the importer leaves it. */
  datatype Thread = Thread(
    title: string,
    tags: string,
    viewCount: int,
    closed: bool,
    closedBy: Option<int>,
    closeReason: Option<int>,
    acceptedAnswer: Option<int>)

  /** A question or answer post of the thread at position `thread`. */
  datatype ContentPost = ContentPost(thread: nat, authorId: int, text: string, timestamp: int, isAnswer: bool)

  /** Threads by position; the post at position `p` has id `p + 1`. */
  datatype Store = Store(threads: seq<Thread>, posts: seq<ContentPost>)

  /** The close reason "question answered". */
  const QuestionAnswered: int := 5

  /** What the importer asks the target site to create; the oracle decides from it
      whether the call raises. */
  datatype CreateCall =
    | Ask(entryId: int, authorId: int, title: string, body: string, tags: string, timestamp: int)
    | Reply(postId: int, questionId: int, authorId: int, body: string, timestamp: int)

  /** The parts of the environment the importer does not define. */
  datatype Env = Env(
    unescape: string -> string,
    createFails: CreateCall -> bool,
    adminId: int,
    viewable: StagedForum -> bool)

  /** The tables the content pass reads but never writes. */
  datatype Ctx = Ctx(users: seq<StagedUser>, targets: seq<TargetUser>, forums: seq<StagedForum>)

  /** Post `id` exists and every post belongs to an existing thread. */
  predicate PostIn(store: Store, id: int) {
    1 <= id <= |store.posts| && store.posts[id - 1].thread < |store.threads|
  }

  /** Post `q` exists and is a question. */
  predicate QuestionIn(store: Store, q: int) {
    PostIn(store, q) && !store.posts[q - 1].isAnswer
  }

  /** Appending posts and threads keeps every question where it was. */
  lemma QuestionInGrows(s: Store, t: Store, q: int)
    requires QuestionIn(t, q) && Extends(s.posts, t.posts) && |t.threads| <= |s.threads|
    ensures QuestionIn(s, q) && ThreadOf(s, q) == ThreadOf(t, q)
  {
    assert s.posts[q - 1] == s.posts[..|t.posts|][q - 1];
  }

  /** `s` is `t` with rows appended. */
  predicate Extends<T(==)>(s: seq<T>, t: seq<T>) {
    |t| <= |s| && s[..|t|] == t
  }

  lemma ExtendsTrans<T>(a: seq<T>, b: seq<T>, c: seq<T>)
    requires Extends(a, b) && Extends(b, c)
    ensures Extends(a, c)
  {
    assert a[..|c|] == a[..|b|][..|c|];
  }

  // ---------------------------------------------------------------------------
  // Questions (`post_question`)
  // ---------------------------------------------------------------------------

  /** `thread.increase_view_count(increment = hits)`. */
  function IncreaseViewCount(t: Thread, increment: int): Thread {
    t.(viewCount := t.viewCount + increment)
  }

  /** `thread.set_closed_status(closed = True, closed_by = ..., close_reason = ...)`. */
  function SetClosed(t: Thread, closer: int, reason: int): Thread {
    t.(closed := true, closedBy := Some(closer), closeReason := Some(reason))
  }

  /** The question a staged entry asks, if the author resolves and the tags can be
      computed: its author, body text and tag string, and the cache as left. */
  datatype Asked = Asked(call: CreateCall, cache: TagCache)

  /** What `post_question` evaluates before the call: the author first, then the body,
      then the tags (which may fill the cache). */
  function PrepareQuestion(env: Env, ctx: Ctx, cache: TagCache, e: StagedEntry): (r: Result<Asked, TagCache>)
    ensures r.Ok? ==> r.value.call.Ask?
    ensures r.Err? ==> r.error == cache
    ensures r.Ok? ==> r.value.cache.Keys == cache.Keys + {e.forumId}
    ensures r.Ok? ==> forall k :: k in cache ==> r.value.cache[k] == cache[k]
    ensures r.Ok? && CacheSound(cache, ctx.forums) ==> CacheSound(r.value.cache, ctx.forums)
  {
    match ResolveAuthor(ctx.users, ctx.targets, e.submitterId)
    case Err(_) => Err(cache)
    case Ok(author) =>
      var body := GetBodyText(e.body, FreshMemo, env.unescape).0;
      GetTagNamesKeepsSound(cache, ctx.forums, e.forumId, e.tags);
      match GetTagNames(cache, ctx.forums, e.forumId, e.tags)
      case Err(_) => Err(cache)
      case Ok((tags, cache')) => Ok(Asked(Ask(e.entryId, author, e.title, body, tags, e.createdAt), cache'))
  }

  /** The outcome of `post_question`: the question post id, or `None` when the entry
      was dropped; the store and tag cache as left. */
  datatype QuestionOutcome = QuestionOutcome(question: Option<int>, store: Store, cache: TagCache)

  /** `post_question`: any exception drops the entry and leaves the store as it was;
      a tag computed before the failing create call stays cached. */
  function PostQuestion(env: Env, ctx: Ctx, store: Store, cache: TagCache, e: StagedEntry): (r: QuestionOutcome)
    ensures r.question.None? ==> r.store == store
    ensures r.question.Some? ==> (
      && r.question.value == |store.posts| + 1
      && Extends(r.store.threads, store.threads) && |r.store.threads| == |store.threads| + 1
      && Extends(r.store.posts, store.posts) && |r.store.posts| == |store.posts| + 1
      && QuestionIn(r.store, r.question.value) && ThreadOf(r.store, r.question.value) == |store.threads|)
    ensures r.cache.Keys <= cache.Keys + {e.forumId}
    ensures forall k :: k in cache ==> k in r.cache && r.cache[k] == cache[k]
    ensures CacheSound(cache, ctx.forums) ==> CacheSound(r.cache, ctx.forums)
  {
    match PrepareQuestion(env, ctx, cache, e)
    case Err(cache') => QuestionOutcome(None, store, cache')
    case Ok(Asked(call, cache')) =>
      if env.createFails(call) then QuestionOutcome(None, store, cache')
      else
        var created := Thread(e.title, call.tags, 0, false, None, None, None);
        var viewed := IncreaseViewCount(created, e.hits);
        var thread := if e.isLocked then SetClosed(viewed, env.adminId, QuestionAnswered) else viewed;
        var post := ContentPost(|store.threads|, call.authorId, call.body, e.createdAt, false);
        assert (store.threads + [thread])[..|store.threads|] == store.threads;
        assert (store.posts + [post])[..|store.posts|] == store.posts;
        QuestionOutcome(Some(|store.posts| + 1), Store(store.threads + [thread], store.posts + [post]), cache')
  }

  /** A posted question opens a new thread titled and tagged from the entry, with the
      entry's hits as views, closed by the admin as answered exactly when the entry
      is locked; its post carries the resolved author and the unescaped body. It is
      posted exactly when the author resolves, the tags can be computed and the
      create call does not raise. */
  lemma PostQuestionEffect(env: Env, ctx: Ctx, store: Store, cache: TagCache, e: StagedEntry)
    ensures var r := PostQuestion(env, ctx, store, cache, e);
      var author := ResolveAuthor(ctx.users, ctx.targets, e.submitterId);
      var tags := GetTagNames(cache, ctx.forums, e.forumId, e.tags);
      && (r.question.Some? <==>
            && author.Ok? && tags.Ok?
            && !env.createFails(Ask(e.entryId, author.value, e.title, env.unescape(e.body), tags.value.0, e.createdAt)))
      && (author.Err? ==> r.cache == cache)
      && (author.Ok? && tags.Ok? ==> r.cache == tags.value.1)
      && (r.question.Some? ==>
            && r.store.threads[|store.threads|] == Thread(e.title, tags.value.0, e.hits, e.isLocked,
                 if e.isLocked then Some(env.adminId) else None,
                 if e.isLocked then Some(QuestionAnswered) else None, None)
            && r.store.posts[|store.posts|] ==
                 ContentPost(|store.threads|, author.value, env.unescape(e.body), e.createdAt, false))
  {
  }

  // ---------------------------------------------------------------------------
  // Answers (`post_answer`)
  // ---------------------------------------------------------------------------

  /** The create call `post_answer` makes for staged post `p` under question `q`, when
      the post's author resolves. */
  function ReplyCall(env: Env, ctx: Ctx, p: StagedPost, q: int): Option<CreateCall> {
    match ResolveAuthor(ctx.users, ctx.targets, p.userId)
    case Err(_) => None
    case Ok(author) => Some(Reply(p.postId, q, author, GetBodyText(p.body, FreshMemo, env.unescape).0, p.createdAt))
  }

  /** `post_answer` does not raise for this post: its author resolves and the create
      call succeeds. This does not depend on the store. */
  predicate AnswerSucceeds(env: Env, ctx: Ctx, p: StagedPost, q: int) {
    ReplyCall(env, ctx, p, q).Some? && !env.createFails(ReplyCall(env, ctx, p, q).value)
  }

  /** Post `id` is an answer in thread `th` with these contents. */
  predicate AnswerAt(store: Store, id: int, th: nat, author: int, text: string, timestamp: int) {
    1 <= id <= |store.posts| && store.posts[id - 1] == ContentPost(th, author, text, timestamp, true)
  }

  /** The thread of question `q`. */
  function ThreadOf(store: Store, q: int): nat
    requires PostIn(store, q)
  {
    store.posts[q - 1].thread
  }

  datatype AnswerOutcome = AnswerOutcome(answer: Option<int>, store: Store)

  /** `post_answer`: appends an answer to the question's thread; an informative post
      becomes the thread's accepted answer, replacing any earlier one. Any exception
      drops the post and leaves the store as it was. */
  function PostAnswer(env: Env, ctx: Ctx, store: Store, p: StagedPost, q: int): (r: AnswerOutcome)
    requires PostIn(store, q)
    ensures r.answer.Some? <==> AnswerSucceeds(env, ctx, p, q)
    ensures r.answer.None? ==> r.store == store
    ensures r.answer.Some? ==>
      && r.answer.value == |store.posts| + 1
      && Extends(r.store.posts, store.posts) && |r.store.posts| == |store.posts| + 1
      && AnswerAt(r.store, r.answer.value, ThreadOf(store, q), ReplyCall(env, ctx, p, q).value.authorId,
                  env.unescape(p.body), p.createdAt)
    ensures |r.store.threads| == |store.threads|
    ensures forall t :: 0 <= t < |store.threads| && t != ThreadOf(store, q) ==> r.store.threads[t] == store.threads[t]
    ensures var th := ThreadOf(store, q);
      r.store.threads[th] == store.threads[th].(acceptedAnswer := r.store.threads[th].acceptedAnswer)
    ensures var th := ThreadOf(store, q);
      r.store.threads[th].acceptedAnswer ==
        if r.answer.Some? && p.isInformative then r.answer else store.threads[th].acceptedAnswer
    ensures PostIn(r.store, q) && ThreadOf(r.store, q) == ThreadOf(store, q)
  {
    match ReplyCall(env, ctx, p, q)
    case None => AnswerOutcome(None, store)
    case Some(call) =>
      if env.createFails(call) then AnswerOutcome(None, store)
      else
        var th := ThreadOf(store, q);
        var id := |store.posts| + 1;
        var posts := store.posts + [ContentPost(th, call.authorId, call.body, call.timestamp, true)];
        assert posts[..|store.posts|] == store.posts;
        var threads := if p.isInformative then store.threads[th := store.threads[th].(acceptedAnswer := Some(id))]
                       else store.threads;
        AnswerOutcome(Some(id), Store(threads, posts))
  }

  // ---------------------------------------------------------------------------
  // Answer order (`order_by('created_at')`)
  // ---------------------------------------------------------------------------

  /** Post `a` comes before post `b`: created earlier, or at the same time and earlier
      in the staging table. */
  predicate Before(posts: seq<StagedPost>, a: nat, b: nat)
    requires a < |posts| && b < |posts|
  {
    posts[a].createdAt < posts[b].createdAt || (posts[a].createdAt == posts[b].createdAt && a < b)
  }

  /** `s` lists staged posts, each strictly before the next. */
  predicate Ordered(posts: seq<StagedPost>, s: seq<nat>) {
    && (forall k :: 0 <= k < |s| ==> s[k] < |posts|)
    && (forall x, y :: 0 <= x < y < |s| ==> Before(posts, s[x], s[y]))
  }

  /** Inserting one more post into an ordered list. */
  function InsertByCreation(posts: seq<StagedPost>, k: nat, s: seq<nat>): (r: seq<nat>)
    requires k < |posts| && Ordered(posts, s) && k !in s
    ensures Ordered(posts, r)
    ensures |r| == |s| + 1
    ensures forall x :: x in r <==> x == k || x in s
    decreases |s|
  {
    if |s| == 0 then [k]
    else if Before(posts, k, s[0]) then
      assert forall y :: 0 < y < |s| ==> Before(posts, s[0], s[y]);
      [k] + s
    else
      var rest := InsertByCreation(posts, k, s[1..]);
      assert forall x :: x in s[1..] ==> x in s;
      assert Ordered(posts, s[1..]) by {
        forall x, y | 0 <= x < y < |s| - 1 ensures Before(posts, s[1..][x], s[1..][y]) {
          assert s[1..][x] == s[x + 1] && s[1..][y] == s[y + 1];
        }
      }
      assert forall y :: 0 <= y < |rest| ==> Before(posts, s[0], rest[y]) by {
        forall y | 0 <= y < |rest| ensures Before(posts, s[0], rest[y]) {
          assert rest[y] in rest;
          if rest[y] != k {
            var z :| 0 <= z < |s[1..]| && s[1..][z] == rest[y];
            assert s[z + 1] == rest[y];
          }
        }
      }
      [s[0]] + rest
  }

  /** Sorting distinct staged posts by creation. */
  function SortByCreation(posts: seq<StagedPost>, s: seq<nat>): (r: seq<nat>)
    requires forall k :: 0 <= k < |s| ==> s[k] < |posts|
    requires forall a, b :: 0 <= a < b < |s| ==> s[a] != s[b]
    ensures Ordered(posts, r)
    ensures |r| == |s|
    ensures forall x :: x in r <==> x in s
    decreases |s|
  {
    if |s| == 0 then []
    else
      var init := s[..|s| - 1];
      assert forall x :: x in init ==> x in s;
      var sorted := SortByCreation(posts, init);
      assert s[|s| - 1] !in init;
      assert s == init + [s[|s| - 1]];
      InsertByCreation(posts, s[|s| - 1], sorted)
  }

  /** `Post.objects.filter(entry_id = ...).order_by('created_at')`: the entry's posts
      in creation order. */
  function PostOrder(posts: seq<StagedPost>, entryId: int): (r: seq<nat>)
    ensures Ordered(posts, r)
    ensures forall k :: k in r <==> 0 <= k < |posts| && posts[k].entryId == entryId
  {
    var matching := Indices(posts, (p: StagedPost) => p.entryId == entryId);
    SortByCreation(posts, matching)
  }

  /** The creation order is the only ordering of a set of posts: two ordered lists of
      the same posts are equal. */
  lemma {:induction false} OrderedUnique(posts: seq<StagedPost>, s: seq<nat>, t: seq<nat>)
    requires Ordered(posts, s) && Ordered(posts, t)
    requires forall x :: x in s <==> x in t
    ensures s == t
    decreases |s|
  {
    HeadIn(s);
    HeadIn(t);
    if |s| > 0 && |t| > 0 {
      OrderedHeadFirst(posts, s, t[0]);
      OrderedHeadFirst(posts, t, s[0]);
      assert s[0] == t[0];
      assert Ordered(posts, s[1..]) by {
        forall x, y | 0 <= x < y < |s| - 1 ensures Before(posts, s[1..][x], s[1..][y]) {
          assert s[1..][x] == s[x + 1];
        }
      }
      assert Ordered(posts, t[1..]) by {
        forall x, y | 0 <= x < y < |t| - 1 ensures Before(posts, t[1..][x], t[1..][y]) {
          assert t[1..][x] == t[x + 1];
        }
      }
      forall x ensures x in s[1..] <==> x in t[1..] {
        OrderedTail(posts, s, x);
        OrderedTail(posts, t, x);
      }
      OrderedUnique(posts, s[1..], t[1..]);
      assert s == [s[0]] + s[1..] && t == [t[0]] + t[1..];
    }
  }

  lemma HeadIn(s: seq<nat>)
    ensures |s| > 0 ==> s[0] in s
  {
  }

  /** Every other post of an ordered list comes after its head. */
  lemma OrderedHeadFirst(posts: seq<StagedPost>, s: seq<nat>, x: nat)
    requires Ordered(posts, s) && x in s
    ensures x == s[0] || Before(posts, s[0], x)
  {
    var i :| 0 <= i < |s| && s[i] == x;
    if i > 0 {
      assert Before(posts, s[0], s[i]);
    }
  }

  /** In an ordered list the head does not occur again. */
  lemma OrderedTail(posts: seq<StagedPost>, s: seq<nat>, x: nat)
    requires Ordered(posts, s) && |s| > 0
    ensures x in s[1..] <==> x in s && x != s[0]
  {
    if x in s[1..] {
      var i :| 0 <= i < |s[1..]| && s[1..][i] == x;
      assert Before(posts, s[0], s[i + 1]);
    }
    if x in s && x != s[0] {
      var i :| 0 <= i < |s| && s[i] == x;
      assert s[1..][i - 1] == x;
    }
  }

  // ---------------------------------------------------------------------------
  // Answers of one question (`import_posts`)
  // ---------------------------------------------------------------------------

  /** `s` lists positions below `n`. */
  predicate InRange(s: seq<nat>, n: nat) {
    forall k :: 0 <= k < |s| ==> s[k] < n
  }

  /** No position is listed twice. */
  predicate Distinct(s: seq<nat>) {
    forall a, b :: 0 <= a < b < |s| ==> s[a] != s[b]
  }

  /** `a` is `b` with at most the `ab_id` column rewritten. */
  predicate SamePosts(a: seq<StagedPost>, b: seq<StagedPost>) {
    |a| == |b| && forall k :: 0 <= k < |a| ==> a[k] == b[k].(abId := a[k].abId)
  }

  predicate SameEntries(a: seq<StagedEntry>, b: seq<StagedEntry>) {
    |a| == |b| && forall k :: 0 <= k < |a| ==> a[k] == b[k].(abId := a[k].abId)
  }

  /** The store and the staged posts as `import_posts` leaves them. */
  datatype PostsOutcome = PostsOutcome(store: Store, posts: seq<StagedPost>)

  /** The loop of `import_posts` over the listed staged posts: each is posted as an
      answer to question `q`; one that is posted has the answer's id written back,
      one that is dropped is left alone. What the loop does to the store and the rows
      is stated by the lemmas after it. */
  function ImportPostsIn(env: Env, ctx: Ctx, store: Store, posts: seq<StagedPost>, q: int, order: seq<nat>): (r: PostsOutcome)
    requires PostIn(store, q) && InRange(order, |posts|) && Distinct(order)
    ensures PostIn(r.store, q) && ThreadOf(r.store, q) == ThreadOf(store, q)
    ensures |r.posts| == |posts| && |r.store.threads| == |store.threads|
    decreases |order|
  {
    if |order| == 0 then PostsOutcome(store, posts)
    else
      var s := AnswerStep(env, ctx, store, posts, q, order[0]);
      assert InRange(order[1..], |s.posts|) && Distinct(order[1..]);
      ImportPostsIn(env, ctx, s.store, s.posts, q, order[1..])
  }

  /** One turn of the `import_posts` loop: staged post `k` is posted as an answer and,
      when that succeeds, its row records the answer's id. */
  function AnswerStep(env: Env, ctx: Ctx, store: Store, posts: seq<StagedPost>, q: int, k: nat): (r: PostsOutcome)
    requires PostIn(store, q) && k < |posts|
    ensures PostIn(r.store, q) && ThreadOf(r.store, q) == ThreadOf(store, q)
    ensures |r.posts| == |posts| && |r.store.threads| == |store.threads|
  {
    var a := PostAnswer(env, ctx, store, posts[k], q);
    PostsOutcome(a.store, if a.answer.Some? then posts[k := posts[k].(abId := a.answer)] else posts)
  }

  /** Staged post `p`, written back as `written`, as `import_posts` leaves it: when its
      answer is posted it is answer `id` in thread `th` with the post's author,
      unescaped body and creation time, and `id` is written back; otherwise the row is
      untouched. */
  predicate AnswerRecorded(env: Env, ctx: Ctx, q: int, th: nat, p: StagedPost, id: int, written: StagedPost, store: Store) {
    if AnswerSucceeds(env, ctx, p, q) then
      && written == p.(abId := Some(id))
      && AnswerAt(store, id, th, ReplyCall(env, ctx, p, q).value.authorId, env.unescape(p.body), p.createdAt)
    else
      written == p
  }

  /** Staged post `k` is informative and its answer is posted. */
  predicate Accepts(env: Env, ctx: Ctx, posts: seq<StagedPost>, q: int, k: nat)
    requires k < |posts|
  {
    posts[k].isInformative && AnswerSucceeds(env, ctx, posts[k], q)
  }

  /** One turn writes back at most row `k`, appends at most the one answer, and of the
      threads changes only the question's accepted answer. */
  lemma AnswerStepEffect(env: Env, ctx: Ctx, store: Store, posts: seq<StagedPost>, q: int, k: nat)
    requires PostIn(store, q) && k < |posts|
    ensures var r := AnswerStep(env, ctx, store, posts, q, k);
      var th := ThreadOf(store, q);
      && (forall j :: 0 <= j < |posts| && j != k ==> r.posts[j] == posts[j])
      && r.posts[k] == posts[k].(abId := r.posts[k].abId)
      && (forall t :: 0 <= t < |store.threads| && t != th ==> r.store.threads[t] == store.threads[t])
      && r.store.threads[th] == store.threads[th].(acceptedAnswer := r.store.threads[th].acceptedAnswer)
      && r.store.threads[th].acceptedAnswer ==
           (if Accepts(env, ctx, posts, q, k) then Some(|store.posts| + 1) else store.threads[th].acceptedAnswer)
      && Extends(r.store.posts, store.posts)
      && |r.store.posts| == |store.posts| + (if AnswerSucceeds(env, ctx, posts[k], q) then 1 else 0)
      && AnswerRecorded(env, ctx, q, th, posts[k], |store.posts| + 1, r.posts[k], r.store)
  {
  }

  /** The loop unrolled once: the first turn, then the rest of the list, whose rows
      the first turn leaves alone. */
  lemma ImportPostsInCons(env: Env, ctx: Ctx, store: Store, posts: seq<StagedPost>, q: int, order: seq<nat>)
    requires PostIn(store, q) && InRange(order, |posts|) && Distinct(order) && |order| > 0
    ensures var s := AnswerStep(env, ctx, store, posts, q, order[0]);
      && InRange(order[1..], |s.posts|) && Distinct(order[1..])
      && ImportPostsIn(env, ctx, store, posts, q, order) == ImportPostsIn(env, ctx, s.store, s.posts, q, order[1..])
      && order[0] !in order[1..]
      && forall j :: 0 <= j < |order| - 1 ==> order[1..][j] == order[j + 1] && s.posts[order[1..][j]] == posts[order[1..][j]]
  {
    AnswerStepEffect(env, ctx, store, posts, q, order[0]);
  }

  /** Of the threads, the loop changes only the question's accepted answer. */
  lemma {:induction false} ImportPostsThreads(env: Env, ctx: Ctx, store: Store, posts: seq<StagedPost>, q: int, order: seq<nat>)
    requires PostIn(store, q) && InRange(order, |posts|) && Distinct(order)
    ensures var r := ImportPostsIn(env, ctx, store, posts, q, order);
      var th := ThreadOf(store, q);
      && (forall t :: 0 <= t < |store.threads| && t != th ==> r.store.threads[t] == store.threads[t])
      && r.store.threads[th] == store.threads[th].(acceptedAnswer := r.store.threads[th].acceptedAnswer)
    decreases |order|
  {
    if |order| > 0 {
      var s := AnswerStep(env, ctx, store, posts, q, order[0]);
      ImportPostsInCons(env, ctx, store, posts, q, order);
      AnswerStepEffect(env, ctx, store, posts, q, order[0]);
      ImportPostsThreads(env, ctx, s.store, s.posts, q, order[1..]);
    }
  }

  /** The loop only appends to the store's posts, and of the staged rows it rewrites
      only the `ab_id` of listed ones. */
  lemma {:induction false} ImportPostsRows(env: Env, ctx: Ctx, store: Store, posts: seq<StagedPost>, q: int, order: seq<nat>)
    requires PostIn(store, q) && InRange(order, |posts|) && Distinct(order)
    ensures var r := ImportPostsIn(env, ctx, store, posts, q, order);
      && Extends(r.store.posts, store.posts)
      && SamePosts(r.posts, posts)
      && forall k :: 0 <= k < |posts| && k !in order ==> r.posts[k] == posts[k]
    decreases |order|
  {
    if |order| > 0 {
      var s := AnswerStep(env, ctx, store, posts, q, order[0]);
      ImportPostsInCons(env, ctx, store, posts, q, order);
      AnswerStepEffect(env, ctx, store, posts, q, order[0]);
      ImportPostsRows(env, ctx, s.store, s.posts, q, order[1..]);
      var r := ImportPostsIn(env, ctx, s.store, s.posts, q, order[1..]);
      ExtendsTrans(r.store.posts, s.store.posts, store.posts);
    }
  }

  /** How many of the listed staged posts are posted as answers to `q`. */
  function Answered(env: Env, ctx: Ctx, posts: seq<StagedPost>, q: int, order: seq<nat>): (r: nat)
    requires InRange(order, |posts|)
    ensures r <= |order|
    decreases |order|
  {
    if |order| == 0 then 0
    else (if AnswerSucceeds(env, ctx, posts[order[0]], q) then 1 else 0) + Answered(env, ctx, posts, q, order[1..])
  }

  /** The count depends only on the listed posts. */
  lemma {:induction false} AnsweredFrame(env: Env, ctx: Ctx, posts: seq<StagedPost>, posts': seq<StagedPost>, q: int, order: seq<nat>)
    requires InRange(order, |posts|) && InRange(order, |posts'|)
    requires forall j :: 0 <= j < |order| ==> posts'[order[j]] == posts[order[j]]
    ensures Answered(env, ctx, posts', q, order) == Answered(env, ctx, posts, q, order)
    decreases |order|
  {
    if |order| > 0 {
      AnsweredFrame(env, ctx, posts, posts', q, order[1..]);
    }
  }

  /** The store gains exactly one post per posted answer. */
  lemma {:induction false} ImportPostsCount(env: Env, ctx: Ctx, store: Store, posts: seq<StagedPost>, q: int, order: seq<nat>)
    requires PostIn(store, q) && InRange(order, |posts|) && Distinct(order)
    ensures |ImportPostsIn(env, ctx, store, posts, q, order).store.posts| == |store.posts| + Answered(env, ctx, posts, q, order)
    decreases |order|
  {
    if |order| > 0 {
      var s := AnswerStep(env, ctx, store, posts, q, order[0]);
      ImportPostsInCons(env, ctx, store, posts, q, order);
      AnswerStepEffect(env, ctx, store, posts, q, order[0]);
      ImportPostsCount(env, ctx, s.store, s.posts, q, order[1..]);
      AnsweredFrame(env, ctx, posts, s.posts, q, order[1..]);
    }
  }

  /** Staged post `p` as `import_posts` leaves it when the answers it posted are
      numbered after `base`: a posted answer has an id in that range and is recorded
      under it, a dropped post is untouched. */
  predicate Recorded(env: Env, ctx: Ctx, q: int, th: nat, base: int, p: StagedPost, written: StagedPost, store: Store) {
    if AnswerSucceeds(env, ctx, p, q) then
      && written.abId.Some? && base < written.abId.value <= |store.posts|
      && AnswerRecorded(env, ctx, q, th, p, written.abId.value, written, store)
    else
      written == p
  }

  /** Every listed post is posted in turn: a posted one is recorded as an answer in
      the question's thread, numbered after the posts the store already had, and a
      dropped one is left alone. */
  lemma {:induction false} ImportPostsAnswers(env: Env, ctx: Ctx, store: Store, posts: seq<StagedPost>, q: int, order: seq<nat>)
    requires PostIn(store, q) && InRange(order, |posts|) && Distinct(order)
    ensures var r := ImportPostsIn(env, ctx, store, posts, q, order);
      forall x :: 0 <= x < |order| ==>
        Recorded(env, ctx, q, ThreadOf(store, q), |store.posts|, posts[order[x]], r.posts[order[x]], r.store)
    decreases |order|
  {
    if |order| > 0 {
      var s := AnswerStep(env, ctx, store, posts, q, order[0]);
      ImportPostsInCons(env, ctx, store, posts, q, order);
      AnswerStepEffect(env, ctx, store, posts, q, order[0]);
      ImportPostsAnswers(env, ctx, s.store, s.posts, q, order[1..]);
      ImportPostsRows(env, ctx, s.store, s.posts, q, order[1..]);
      var r := ImportPostsIn(env, ctx, s.store, s.posts, q, order[1..]);
      var th := ThreadOf(store, q);
      forall x | 0 <= x < |order|
        ensures Recorded(env, ctx, q, th, |store.posts|, posts[order[x]], r.posts[order[x]], r.store)
      {
        if x == 0 {
          AnswerRecordedGrows(env, ctx, q, th, posts[order[0]], |store.posts| + 1, r.posts[order[0]], r.store, s.store);
        } else {
          assert Recorded(env, ctx, q, th, |s.store.posts|, s.posts[order[1..][x - 1]], r.posts[order[1..][x - 1]], r.store);
        }
      }
    }
  }

  /** Answers are numbered in the order the posts are listed. */
  lemma {:induction false} ImportPostsAnswerOrder(env: Env, ctx: Ctx, store: Store, posts: seq<StagedPost>, q: int, order: seq<nat>)
    requires PostIn(store, q) && InRange(order, |posts|) && Distinct(order)
    ensures var r := ImportPostsIn(env, ctx, store, posts, q, order);
      forall x, y :: (
        && 0 <= x < y < |order| && r.posts[order[x]].abId.Some? && r.posts[order[y]].abId.Some?
        && AnswerSucceeds(env, ctx, posts[order[x]], q) && AnswerSucceeds(env, ctx, posts[order[y]], q)) ==>
        r.posts[order[x]].abId.value < r.posts[order[y]].abId.value
    decreases |order|
  {
    if |order| > 0 {
      var s := AnswerStep(env, ctx, store, posts, q, order[0]);
      ImportPostsInCons(env, ctx, store, posts, q, order);
      AnswerStepEffect(env, ctx, store, posts, q, order[0]);
      ImportPostsAnswerOrder(env, ctx, s.store, s.posts, q, order[1..]);
      ImportPostsAnswers(env, ctx, s.store, s.posts, q, order[1..]);
      ImportPostsRows(env, ctx, s.store, s.posts, q, order[1..]);
      var r := ImportPostsIn(env, ctx, s.store, s.posts, q, order[1..]);
      var th := ThreadOf(store, q);
      forall x, y | 0 <= x < y < |order| && r.posts[order[x]].abId.Some? && r.posts[order[y]].abId.Some?
        && AnswerSucceeds(env, ctx, posts[order[x]], q) && AnswerSucceeds(env, ctx, posts[order[y]], q)
        ensures r.posts[order[x]].abId.value < r.posts[order[y]].abId.value
      {
        assert Recorded(env, ctx, q, th, |s.store.posts|, s.posts[order[1..][y - 1]], r.posts[order[1..][y - 1]], r.store);
        if x > 0 {
          assert order[1..][x - 1] == order[x];
        }
      }
    }
  }

  lemma AnswerRecordedGrows(env: Env, ctx: Ctx, q: int, th: nat, p: StagedPost, id: int, written: StagedPost, s: Store, t: Store)
    requires AnswerRecorded(env, ctx, q, th, p, id, written, t) && Extends(s.posts, t.posts)
    ensures AnswerRecorded(env, ctx, q, th, p, id, written, s)
  {
    if AnswerSucceeds(env, ctx, p, q) {
      assert s.posts[id - 1] == s.posts[..|t.posts|][id - 1];
    }
  }

  /** `order[m]` is the last listed post that is accepted. */
  predicate LastAccepting(env: Env, ctx: Ctx, posts: seq<StagedPost>, q: int, order: seq<nat>, m: nat)
    requires InRange(order, |posts|)
  {
    && m < |order| && Accepts(env, ctx, posts, q, order[m])
    && forall y :: m < y < |order| ==> !Accepts(env, ctx, posts, q, order[y])
  }

  predicate NoneAccepting(env: Env, ctx: Ctx, posts: seq<StagedPost>, q: int, order: seq<nat>)
    requires InRange(order, |posts|)
  {
    forall y :: 0 <= y < |order| ==> !Accepts(env, ctx, posts, q, order[y])
  }

  /** When none of the listed posts is accepted the thread keeps the accepted answer
      it had. */
  lemma {:induction false} ImportPostsKeepsAccepted(env: Env, ctx: Ctx, store: Store, posts: seq<StagedPost>, q: int, order: seq<nat>)
    requires PostIn(store, q) && InRange(order, |posts|) && Distinct(order)
    requires NoneAccepting(env, ctx, posts, q, order)
    ensures var r := ImportPostsIn(env, ctx, store, posts, q, order);
      var th := ThreadOf(store, q);
      r.store.threads[th].acceptedAnswer == store.threads[th].acceptedAnswer
    decreases |order|
  {
    if |order| > 0 {
      var s := AnswerStep(env, ctx, store, posts, q, order[0]);
      ImportPostsInCons(env, ctx, store, posts, q, order);
      AnswerStepEffect(env, ctx, store, posts, q, order[0]);
      assert NoneAccepting(env, ctx, s.posts, q, order[1..]);
      ImportPostsKeepsAccepted(env, ctx, s.store, s.posts, q, order[1..]);
    }
  }

  /** Each informative answer re-marks the thread's accepted answer, so the thread
      ends with the answer of the last informative post that is posted. */
  lemma {:induction false} ImportPostsLastAccepted(env: Env, ctx: Ctx, store: Store, posts: seq<StagedPost>, q: int, order: seq<nat>, m: nat)
    requires PostIn(store, q) && InRange(order, |posts|) && Distinct(order)
    requires LastAccepting(env, ctx, posts, q, order, m)
    ensures var r := ImportPostsIn(env, ctx, store, posts, q, order);
      var th := ThreadOf(store, q);
      r.store.threads[th].acceptedAnswer == r.posts[order[m]].abId
    decreases |order|
  {
    if m == 0 {
      AcceptedAtHead(env, ctx, store, posts, q, order);
    } else {
      var s := AnswerStep(env, ctx, store, posts, q, order[0]);
      LastAcceptingStep(env, ctx, store, posts, q, order, m);
      ImportPostsLastAccepted(env, ctx, s.store, s.posts, q, order[1..], m - 1);
      assert ImportPostsIn(env, ctx, store, posts, q, order) == ImportPostsIn(env, ctx, s.store, s.posts, q, order[1..]);
    }
  }

  /** Posting the head of the list leaves the acceptance of the later posts as it was. */
  lemma LastAcceptingStep(env: Env, ctx: Ctx, store: Store, posts: seq<StagedPost>, q: int, order: seq<nat>, m: nat)
    requires PostIn(store, q) && InRange(order, |posts|) && Distinct(order)
    requires LastAccepting(env, ctx, posts, q, order, m) && 0 < m
    ensures var s := AnswerStep(env, ctx, store, posts, q, order[0]);
      && InRange(order[1..], |s.posts|) && Distinct(order[1..]) && order[1..][m - 1] == order[m]
      && LastAccepting(env, ctx, s.posts, q, order[1..], m - 1)
  {
    AnswerStepEffect(env, ctx, store, posts, q, order[0]);
    ImportPostsInCons(env, ctx, store, posts, q, order);
  }

  /** The first listed post is accepted and no later one is. */
  lemma AcceptedAtHead(env: Env, ctx: Ctx, store: Store, posts: seq<StagedPost>, q: int, order: seq<nat>)
    requires PostIn(store, q) && InRange(order, |posts|) && Distinct(order)
    requires LastAccepting(env, ctx, posts, q, order, 0)
    ensures var r := ImportPostsIn(env, ctx, store, posts, q, order);
      var th := ThreadOf(store, q);
      r.store.threads[th].acceptedAnswer == r.posts[order[0]].abId
  {
    var s := AnswerStep(env, ctx, store, posts, q, order[0]);
    ImportPostsInCons(env, ctx, store, posts, q, order);
    AnswerStepEffect(env, ctx, store, posts, q, order[0]);
    assert NoneAccepting(env, ctx, s.posts, q, order[1..]);
    ImportPostsKeepsAccepted(env, ctx, s.store, s.posts, q, order[1..]);
    ImportPostsRows(env, ctx, s.store, s.posts, q, order[1..]);
  }

  /** An ordered list never repeats a post. */
  lemma OrderedDistinct(posts: seq<StagedPost>, s: seq<nat>)
    requires Ordered(posts, s)
    ensures InRange(s, |posts|) && Distinct(s)
  {
  }

  /** `import_posts`: the staged posts of entry `entryId`, in creation order, become
      answers to question `q`; posts of other entries are left alone. */
  function ImportPosts(env: Env, ctx: Ctx, store: Store, posts: seq<StagedPost>, q: int, entryId: int): (r: PostsOutcome)
    requires PostIn(store, q)
    ensures PostIn(r.store, q) && ThreadOf(r.store, q) == ThreadOf(store, q)
    ensures |r.store.threads| == |store.threads|
    ensures forall t :: 0 <= t < |store.threads| && t != ThreadOf(store, q) ==> r.store.threads[t] == store.threads[t]
    ensures var th := ThreadOf(store, q);
      r.store.threads[th] == store.threads[th].(acceptedAnswer := r.store.threads[th].acceptedAnswer)
    ensures Extends(r.store.posts, store.posts)
    ensures SamePosts(r.posts, posts)
    ensures forall k :: 0 <= k < |posts| && posts[k].entryId != entryId ==> r.posts[k] == posts[k]
  {
    var order := PostOrder(posts, entryId);
    OrderedDistinct(posts, order);
    ImportPostsThreads(env, ctx, store, posts, q, order);
    ImportPostsRows(env, ctx, store, posts, q, order);
    ImportPostsIn(env, ctx, store, posts, q, order)
  }

  /** Every staged post of the entry is posted as an answer to the question and
      recorded, or dropped and left alone; answers are numbered in creation order. */
  lemma ImportPostsRecorded(env: Env, ctx: Ctx, store: Store, posts: seq<StagedPost>, q: int, entryId: int)
    requires PostIn(store, q)
    ensures var r := ImportPosts(env, ctx, store, posts, q, entryId);
      forall k :: 0 <= k < |posts| && posts[k].entryId == entryId ==>
        Recorded(env, ctx, q, ThreadOf(store, q), |store.posts|, posts[k], r.posts[k], r.store)
    ensures var r := ImportPosts(env, ctx, store, posts, q, entryId);
      forall a, b :: (
        && 0 <= a < |posts| && 0 <= b < |posts| && posts[a].entryId == entryId && posts[b].entryId == entryId
        && Before(posts, a, b) && r.posts[a].abId.Some? && r.posts[b].abId.Some?
        && AnswerSucceeds(env, ctx, posts[a], q) && AnswerSucceeds(env, ctx, posts[b], q)) ==>
        r.posts[a].abId.value < r.posts[b].abId.value
  {
    var order := PostOrder(posts, entryId);
    OrderedDistinct(posts, order);
    ImportPostsAnswers(env, ctx, store, posts, q, order);
    ImportPostsAnswerOrder(env, ctx, store, posts, q, order);
    var r := ImportPosts(env, ctx, store, posts, q, entryId);
    assert r == ImportPostsIn(env, ctx, store, posts, q, order);
    forall k | 0 <= k < |posts| && posts[k].entryId == entryId
      ensures Recorded(env, ctx, q, ThreadOf(store, q), |store.posts|, posts[k], r.posts[k], r.store)
    {
      var x :| 0 <= x < |order| && order[x] == k;
    }
    forall a, b | (
        && 0 <= a < |posts| && 0 <= b < |posts| && posts[a].entryId == entryId && posts[b].entryId == entryId
        && Before(posts, a, b) && r.posts[a].abId.Some? && r.posts[b].abId.Some?
        && AnswerSucceeds(env, ctx, posts[a], q) && AnswerSucceeds(env, ctx, posts[b], q))
      ensures r.posts[a].abId.value < r.posts[b].abId.value
    {
      var x :| 0 <= x < |order| && order[x] == a;
      var y :| 0 <= y < |order| && order[y] == b;
      OrderedPositions(posts, order, x, y);
    }
  }

  /** In an ordered list a post that comes before another is listed before it. */
  lemma OrderedPositions(posts: seq<StagedPost>, s: seq<nat>, x: nat, y: nat)
    requires Ordered(posts, s) && x < |s| && y < |s| && Before(posts, s[x], s[y])
    ensures x < y
  {
  }

  /** The question ends with the answer of the entry's latest informative post that
      is posted as its accepted answer, or keeps the one it had when there is none. */
  lemma ImportPostsAccepted(env: Env, ctx: Ctx, store: Store, posts: seq<StagedPost>, q: int, entryId: int)
    requires PostIn(store, q)
    ensures var r := ImportPosts(env, ctx, store, posts, q, entryId);
      var th := ThreadOf(store, q);
      (forall k :: 0 <= k < |posts| && posts[k].entryId == entryId ==> !Accepts(env, ctx, posts, q, k)) ==>
        r.store.threads[th].acceptedAnswer == store.threads[th].acceptedAnswer
    ensures var r := ImportPosts(env, ctx, store, posts, q, entryId);
      var th := ThreadOf(store, q);
      forall k :: LatestAccepted(env, ctx, posts, q, entryId, k) ==> r.store.threads[th].acceptedAnswer == r.posts[k].abId
  {
    var order := PostOrder(posts, entryId);
    OrderedDistinct(posts, order);
    var r := ImportPosts(env, ctx, store, posts, q, entryId);
    assert r == ImportPostsIn(env, ctx, store, posts, q, order);
    if forall k :: 0 <= k < |posts| && posts[k].entryId == entryId ==> !Accepts(env, ctx, posts, q, k) {
      assert NoneAccepting(env, ctx, posts, q, order);
      ImportPostsKeepsAccepted(env, ctx, store, posts, q, order);
    }
    forall k | LatestAccepted(env, ctx, posts, q, entryId, k)
      ensures r.store.threads[ThreadOf(store, q)].acceptedAnswer == r.posts[k].abId
    {
      var m := LatestPosition(env, ctx, posts, q, entryId, k);
      ImportPostsLastAccepted(env, ctx, store, posts, q, order, m);
    }
  }

  /** The latest accepted post of the entry is the last accepted one in creation order. */
  lemma LatestPosition(env: Env, ctx: Ctx, posts: seq<StagedPost>, q: int, entryId: int, k: int) returns (m: nat)
    requires LatestAccepted(env, ctx, posts, q, entryId, k)
    ensures var order := PostOrder(posts, entryId);
      InRange(order, |posts|) && m < |order| && order[m] == k && LastAccepting(env, ctx, posts, q, order, m)
  {
    var order := PostOrder(posts, entryId);
    OrderedDistinct(posts, order);
    m :| 0 <= m < |order| && order[m] == k;
    forall y | m < y < |order| ensures !Accepts(env, ctx, posts, q, order[y]) {
      assert Before(posts, k, order[y]);
      assert !Before(posts, order[y], k) && order[y] != k;
      assert order[y] in order && posts[order[y]].entryId == entryId;
    }
  }

  /** Staged post `k` is the entry's latest accepted post: every other accepted post
      of the entry comes before it. */
  predicate LatestAccepted(env: Env, ctx: Ctx, posts: seq<StagedPost>, q: int, entryId: int, k: int) {
    && 0 <= k < |posts| && posts[k].entryId == entryId && Accepts(env, ctx, posts, q, k)
    && forall j :: 0 <= j < |posts| && j != k && posts[j].entryId == entryId && Accepts(env, ctx, posts, q, j) ==> Before(posts, j, k)
  }

  // ---------------------------------------------------------------------------
  // Entries (`import_entry`) and forums (`import_forum`)
  // ---------------------------------------------------------------------------

  /** Everything the content pass writes: the target store, the tag cache and the
      `ab_id` columns of the staged entries and posts. */
  datatype ContentState = ContentState(store: Store, cache: TagCache, entries: seq<StagedEntry>, posts: seq<StagedPost>)

  /** Entry `e` records a question of the store. */
  predicate Posted(store: Store, e: StagedEntry) {
    e.abId.Some? && QuestionIn(store, e.abId.value)
  }

  /** Whether `import_entry` returned true, and the state it left. */
  datatype EntryOutcome = EntryOutcome(imported: bool, state: ContentState)

  /** `import_entry`: staged entry `i` becomes a question whose id is written back,
      followed by its posts as answers; when the question is dropped nothing but the
      tag cache changes. */
  function ImportEntry(env: Env, ctx: Ctx, st: ContentState, i: nat): (r: EntryOutcome)
    requires i < |st.entries|
    ensures Extends(r.state.store.threads, st.store.threads)
    ensures |r.state.store.threads| == |st.store.threads| + (if r.imported then 1 else 0)
    ensures Extends(r.state.store.posts, st.store.posts)
    ensures !r.imported ==> r.state == st.(cache := r.state.cache)
    ensures SameEntries(r.state.entries, st.entries)
    ensures r.imported ==>
      && Posted(r.state.store, r.state.entries[i])
      && ThreadOf(r.state.store, r.state.entries[i].abId.value) == |st.store.threads|
      && r.state.entries[i] == st.entries[i].(abId := Some(|st.store.posts| + 1))
    ensures forall j :: 0 <= j < |st.entries| && j != i ==> r.state.entries[j] == st.entries[j]
    ensures SamePosts(r.state.posts, st.posts)
    ensures forall k :: 0 <= k < |st.posts| && st.posts[k].entryId != st.entries[i].entryId ==> r.state.posts[k] == st.posts[k]
    ensures r.state.cache.Keys <= st.cache.Keys + {st.entries[i].forumId}
    ensures forall f :: f in st.cache ==> f in r.state.cache && r.state.cache[f] == st.cache[f]
    ensures CacheSound(st.cache, ctx.forums) ==> CacheSound(r.state.cache, ctx.forums)
  {
    var e := st.entries[i];
    var qo := PostQuestion(env, ctx, st.store, st.cache, e);
    if qo.question.None? then EntryOutcome(false, st.(cache := qo.cache))
    else
      var q := qo.question.value;
      var po := ImportPosts(env, ctx, qo.store, st.posts, q, e.entryId);
      QuestionInGrows(po.store, qo.store, q);
      ExtendsTrans(po.store.posts, qo.store.posts, st.store.posts);
      UntouchedPrefix(po.store.threads, qo.store.threads, st.store.threads);
      EntryOutcome(true, ContentState(po.store, qo.cache, st.entries[i := e.(abId := Some(q))], po.posts))
  }

  /** The posts of an imported entry become answers to its new question: each one whose
      answer succeeds is recorded in the new thread, numbered after the question, and
      the thread ends with the answer of the latest-created informative one. */
  lemma ImportEntryAnswers(env: Env, ctx: Ctx, st: ContentState, i: nat)
    requires i < |st.entries|
    ensures var r := ImportEntry(env, ctx, st, i);
      var q := |st.store.posts| + 1;
      r.imported ==>
        forall k :: 0 <= k < |st.posts| && st.posts[k].entryId == st.entries[i].entryId ==>
          Recorded(env, ctx, q, |st.store.threads|, q, st.posts[k], r.state.posts[k], r.state.store)
    ensures var r := ImportEntry(env, ctx, st, i);
      var q := |st.store.posts| + 1;
      r.imported ==>
        forall k :: LatestAccepted(env, ctx, st.posts, q, st.entries[i].entryId, k) ==>
          r.state.store.threads[|st.store.threads|].acceptedAnswer == r.state.posts[k].abId
  {
    var e := st.entries[i];
    var qo := PostQuestion(env, ctx, st.store, st.cache, e);
    if qo.question.Some? {
      ImportPostsRecorded(env, ctx, qo.store, st.posts, qo.question.value, e.entryId);
      ImportPostsAccepted(env, ctx, qo.store, st.posts, qo.question.value, e.entryId);
    }
  }

  /** A sequence that agrees with `b` everywhere but at and after position `|c|`
      extends `c` when `b` does. */
  lemma UntouchedPrefix<T>(a: seq<T>, b: seq<T>, c: seq<T>)
    requires |a| == |b| && Extends(b, c)
    requires forall t :: 0 <= t < |c| ==> a[t] == b[t]
    ensures Extends(a, c)
  {
    assert forall t :: 0 <= t < |c| ==> a[..|c|][t] == b[..|c|][t];
  }

  /** A question is posted for the entry exactly when `post_question` succeeds for it:
      its author resolves, its tags can be computed and the create call does not
      raise. */
  lemma ImportEntryPostsQuestion(env: Env, ctx: Ctx, st: ContentState, i: nat)
    requires i < |st.entries|
    ensures var e := st.entries[i];
      var author := ResolveAuthor(ctx.users, ctx.targets, e.submitterId);
      var tags := GetTagNames(st.cache, ctx.forums, e.forumId, e.tags);
      ImportEntry(env, ctx, st, i).imported <==>
        && author.Ok? && tags.Ok?
        && !env.createFails(Ask(e.entryId, author.value, e.title, env.unescape(e.body), tags.value.0, e.createdAt))
  {
    PostQuestionEffect(env, ctx, st.store, st.cache, st.entries[i]);
  }

  /** Whether `post_question` succeeds for entry `e`, judged against an empty tag
      cache: its author resolves, its forum's tags can be computed and the create
      call does not raise. Only the fields `import_entry` reads matter, so writing
      back `abId` does not change the answer. */
  predicate EntryPosts(env: Env, ctx: Ctx, e: StagedEntry) {
    var author := ResolveAuthor(ctx.users, ctx.targets, e.submitterId);
    var tags := GetTagNames(map[], ctx.forums, e.forumId, e.tags);
    && author.Ok? && tags.Ok?
    && !env.createFails(Ask(e.entryId, author.value, e.title, env.unescape(e.body), tags.value.0, e.createdAt))
  }

  /** With a sound tag cache, whether entry `i` is imported does not depend on the
      cache or on the store: it is `EntryPosts` of the entry. */
  lemma ImportEntryPosts(env: Env, ctx: Ctx, st: ContentState, i: nat)
    requires i < |st.entries| && CacheSound(st.cache, ctx.forums)
    ensures ImportEntry(env, ctx, st, i).imported <==> EntryPosts(env, ctx, st.entries[i])
  {
    var e := st.entries[i];
    ImportEntryPostsQuestion(env, ctx, st, i);
    GetTagNamesSound(st.cache, ctx.forums, e.forumId, e.tags);
  }

  /** The entries of forum `forumId` from position `i` on include one with this
      `entry_id`. */
  predicate FedFrom(entries: seq<StagedEntry>, forumId: int, i: nat, entryId: int) {
    exists j :: i <= j < |entries| && entries[j].forumId == forumId && entries[j].entryId == entryId
  }

  /** How many threads `import_forum` counted, and the state it left. */
  datatype Imported = Imported(count: nat, state: ContentState)

  /** The inner loop of `import_forum`: every staged entry of forum `forumId` from
      position `i` on, in table order, is imported; `count` is the number of threads
      created. */
  function ImportEntriesFrom(env: Env, ctx: Ctx, st: ContentState, forumId: int, i: nat): (r: Imported)
    requires i <= |st.entries|
    ensures Extends(r.state.store.threads, st.store.threads)
    ensures |r.state.store.threads| == |st.store.threads| + r.count
    ensures Extends(r.state.store.posts, st.store.posts)
    ensures SameEntries(r.state.entries, st.entries) && SamePosts(r.state.posts, st.posts)
    ensures forall j :: 0 <= j < |st.entries| && (j < i || st.entries[j].forumId != forumId) ==>
      r.state.entries[j] == st.entries[j]
    ensures forall j :: 0 <= j < |st.entries| && r.state.entries[j] != st.entries[j] ==> Posted(r.state.store, r.state.entries[j])
    ensures forall k :: 0 <= k < |st.posts| && !FedFrom(st.entries, forumId, i, st.posts[k].entryId) ==>
      r.state.posts[k] == st.posts[k]
    ensures r.state.cache.Keys <= st.cache.Keys + {forumId}
    ensures forall f :: f in st.cache ==> f in r.state.cache && r.state.cache[f] == st.cache[f]
    ensures CacheSound(st.cache, ctx.forums) ==> CacheSound(r.state.cache, ctx.forums)
    decreases |st.entries| - i
  {
    if i == |st.entries| then Imported(0, st)
    else if st.entries[i].forumId != forumId then ImportEntriesFrom(env, ctx, st, forumId, i + 1)
    else
      var step := ImportEntry(env, ctx, st, i);
      var rest := ImportEntriesFrom(env, ctx, step.state, forumId, i + 1);
      ExtendsTrans(rest.state.store.threads, step.state.store.threads, st.store.threads);
      ExtendsTrans(rest.state.store.posts, step.state.store.posts, st.store.posts);
      EntriesFromStep(env, ctx, st, forumId, i, step, rest.state);
      Imported(rest.count + (if step.imported then 1 else 0), rest.state)
  }

  /** One imported entry followed by the rest of the forum's entries. */
  lemma EntriesFromStep(env: Env, ctx: Ctx, st: ContentState, forumId: int, i: nat, step: EntryOutcome, last: ContentState)
    requires i < |st.entries| && st.entries[i].forumId == forumId
    requires step == ImportEntry(env, ctx, st, i)
    requires Extends(last.store.posts, step.state.store.posts) && |step.state.store.threads| <= |last.store.threads|
    requires SameEntries(last.entries, step.state.entries) && SamePosts(last.posts, step.state.posts)
    requires forall j :: 0 <= j < |step.state.entries| && (j < i + 1 || step.state.entries[j].forumId != forumId) ==>
      last.entries[j] == step.state.entries[j]
    requires forall j :: 0 <= j < |step.state.entries| && last.entries[j] != step.state.entries[j] ==>
      Posted(last.store, last.entries[j])
    requires forall k :: 0 <= k < |step.state.posts| && !FedFrom(step.state.entries, forumId, i + 1, step.state.posts[k].entryId) ==>
      last.posts[k] == step.state.posts[k]
    ensures SameEntries(last.entries, st.entries) && SamePosts(last.posts, st.posts)
    ensures forall j :: 0 <= j < |st.entries| && (j < i || st.entries[j].forumId != forumId) ==>
      last.entries[j] == st.entries[j]
    ensures forall j :: 0 <= j < |st.entries| && last.entries[j] != st.entries[j] ==> Posted(last.store, last.entries[j])
    ensures forall k :: 0 <= k < |st.posts| && !FedFrom(st.entries, forumId, i, st.posts[k].entryId) ==>
      last.posts[k] == st.posts[k]
  {
    var mid := step.state;
    forall j | 0 <= j < |st.entries| && last.entries[j] != st.entries[j]
      ensures Posted(last.store, last.entries[j])
    {
      if last.entries[j] == mid.entries[j] {
        QuestionInGrows(last.store, mid.store, mid.entries[j].abId.value);
      }
    }
    forall k | 0 <= k < |st.posts| && !FedFrom(st.entries, forumId, i, st.posts[k].entryId)
      ensures last.posts[k] == st.posts[k]
    {
      var id := st.posts[k].entryId;
      forall j | i + 1 <= j < |mid.entries|
        ensures !(mid.entries[j].forumId == forumId && mid.entries[j].entryId == id)
      {
        assert mid.entries[j].forumId == st.entries[j].forumId && mid.entries[j].entryId == st.entries[j].entryId;
      }
      assert st.entries[i].entryId != id;
    }
  }

  /** The positions from `i` on of the staged entries of forum `forumId` for which a
      question is posted. */
  function PostingIn(env: Env, ctx: Ctx, entries: seq<StagedEntry>, forumId: int, i: nat): set<nat> {
    set j: nat | i <= j < |entries| && entries[j].forumId == forumId && EntryPosts(env, ctx, entries[j])
  }

  /** Entry `k` of `after` records a question that did not exist in `before`. */
  predicate NewlyPosted(before: ContentState, after: ContentState, k: nat)
    requires k < |after.entries|
  {
    Posted(after.store, after.entries[k]) && after.entries[k].abId.value > |before.store.posts|
  }

  /** Position `i` either joins the positions after it or is left out. */
  lemma PostingStep(env: Env, ctx: Ctx, entries: seq<StagedEntry>, forumId: int, i: nat)
    requires i < |entries|
    ensures |PostingIn(env, ctx, entries, forumId, i)| ==
      |PostingIn(env, ctx, entries, forumId, i + 1)| + (if entries[i].forumId == forumId && EntryPosts(env, ctx, entries[i]) then 1 else 0)
  {
    var here := entries[i].forumId == forumId && EntryPosts(env, ctx, entries[i]);
    PostingSplit(env, ctx, entries, forumId, i, here);
    AddOne(PostingIn(env, ctx, entries, forumId, i + 1), i, here);
  }

  lemma PostingSplit(env: Env, ctx: Ctx, entries: seq<StagedEntry>, forumId: int, i: nat, here: bool)
    requires i < |entries| && here == (entries[i].forumId == forumId && EntryPosts(env, ctx, entries[i]))
    ensures PostingIn(env, ctx, entries, forumId, i) == PostingIn(env, ctx, entries, forumId, i + 1) + (if here then {i} else {})
  {
  }

  lemma AddOne(s: set<nat>, i: nat, here: bool)
    requires i !in s
    ensures |s + (if here then {i} else {})| == |s| + (if here then 1 else 0)
  {
  }

  /** Writing back ids changes no entry's forum and no entry's outcome. */
  lemma PostingSame(env: Env, ctx: Ctx, a: seq<StagedEntry>, b: seq<StagedEntry>, i: nat)
    requires SameEntries(a, b)
    ensures forall forumId :: PostingIn(env, ctx, a, forumId, i) == PostingIn(env, ctx, b, forumId, i)
  {
    forall forumId ensures PostingIn(env, ctx, a, forumId, i) == PostingIn(env, ctx, b, forumId, i) {
      forall j | i <= j < |a| ensures a[j].forumId == b[j].forumId && (EntryPosts(env, ctx, a[j]) <==> EntryPosts(env, ctx, b[j])) {
        assert a[j] == b[j].(abId := a[j].abId);
      }
    }
  }

  /** The inner loop counts exactly the entries of the forum, from position `i` on,
      whose question is posted. */
  lemma {:induction false} EntriesFromCount(env: Env, ctx: Ctx, st: ContentState, forumId: int, i: nat)
    requires i <= |st.entries| && CacheSound(st.cache, ctx.forums)
    ensures ImportEntriesFrom(env, ctx, st, forumId, i).count == |PostingIn(env, ctx, st.entries, forumId, i)|
    decreases |st.entries| - i, 1
  {
    if i < |st.entries| {
      if st.entries[i].forumId != forumId {
        PostingStep(env, ctx, st.entries, forumId, i);
        EntriesFromCount(env, ctx, st, forumId, i + 1);
      } else {
        CountTakenEntry(env, ctx, st, forumId, i);
      }
    }
  }

  /** The inner loop's count from an entry of the forum on. */
  lemma {:induction false} CountTakenEntry(env: Env, ctx: Ctx, st: ContentState, forumId: int, i: nat)
    requires i < |st.entries| && st.entries[i].forumId == forumId && CacheSound(st.cache, ctx.forums)
    ensures ImportEntriesFrom(env, ctx, st, forumId, i).count == |PostingIn(env, ctx, st.entries, forumId, i)|
    decreases |st.entries| - i, 0
  {
    var step := ImportEntry(env, ctx, st, i);
    EntriesFromCount(env, ctx, step.state, forumId, i + 1);
    CountAfterEntry(env, ctx, st, forumId, i, step, ImportEntriesFrom(env, ctx, step.state, forumId, i + 1).count);
  }

  /** The inner loop's count over an imported entry and the entries after it. */
  lemma CountAfterEntry(env: Env, ctx: Ctx, st: ContentState, forumId: int, i: nat, step: EntryOutcome, later: nat)
    requires i < |st.entries| && st.entries[i].forumId == forumId && CacheSound(st.cache, ctx.forums)
    requires step == ImportEntry(env, ctx, st, i)
    requires later == |PostingIn(env, ctx, step.state.entries, forumId, i + 1)|
    ensures later + (if step.imported then 1 else 0) == |PostingIn(env, ctx, st.entries, forumId, i)|
  {
    ImportEntryPosts(env, ctx, st, i);
    PostingSame(env, ctx, step.state.entries, st.entries, i + 1);
    PostingStep(env, ctx, st.entries, forumId, i);
  }

  /** Every entry of the forum from position `i` on whose question is posted ends up
      recording a question created by this loop. */
  lemma {:induction false} EntriesFromPosted(env: Env, ctx: Ctx, st: ContentState, forumId: int, i: nat)
    requires i <= |st.entries| && CacheSound(st.cache, ctx.forums)
    ensures var r := ImportEntriesFrom(env, ctx, st, forumId, i);
      forall j :: i <= j < |st.entries| && st.entries[j].forumId == forumId && EntryPosts(env, ctx, st.entries[j]) ==>
        NewlyPosted(st, r.state, j)
    decreases |st.entries| - i
  {
    if i < |st.entries| {
      if st.entries[i].forumId != forumId {
        EntriesFromPosted(env, ctx, st, forumId, i + 1);
      } else {
        var step := ImportEntry(env, ctx, st, i);
        EntriesFromPosted(env, ctx, step.state, forumId, i + 1);
        PostedAfterEntry(env, ctx, st, forumId, i, step, ImportEntriesFrom(env, ctx, step.state, forumId, i + 1).state);
      }
    }
  }

  /** Entry `i` and the entries after it, through one imported entry and the rest of
      the loop. */
  lemma PostedAfterEntry(env: Env, ctx: Ctx, st: ContentState, forumId: int, i: nat, step: EntryOutcome, last: ContentState)
    requires i < |st.entries| && st.entries[i].forumId == forumId && CacheSound(st.cache, ctx.forums)
    requires step == ImportEntry(env, ctx, st, i)
    requires Extends(last.store.posts, step.state.store.posts) && |step.state.store.threads| <= |last.store.threads|
    requires |last.entries| == |st.entries| && last.entries[i] == step.state.entries[i]
    requires forall j :: i + 1 <= j < |st.entries| && step.state.entries[j].forumId == forumId && EntryPosts(env, ctx, step.state.entries[j]) ==>
      NewlyPosted(step.state, last, j)
    ensures forall j :: i <= j < |st.entries| && st.entries[j].forumId == forumId && EntryPosts(env, ctx, st.entries[j]) ==>
      NewlyPosted(st, last, j)
  {
    ImportEntryPosts(env, ctx, st, i);
    if step.imported {
      QuestionInGrows(last.store, step.state.store, step.state.entries[i].abId.value);
    }
  }

  /** An entry whose question is not posted is left exactly as it was. */
  lemma {:induction false} EntriesFromKeeps(env: Env, ctx: Ctx, st: ContentState, forumId: int, i: nat)
    requires i <= |st.entries| && CacheSound(st.cache, ctx.forums)
    ensures var r := ImportEntriesFrom(env, ctx, st, forumId, i);
      forall j :: 0 <= j < |st.entries| && !EntryPosts(env, ctx, st.entries[j]) ==> r.state.entries[j] == st.entries[j]
    decreases |st.entries| - i
  {
    if i < |st.entries| {
      if st.entries[i].forumId != forumId {
        EntriesFromKeeps(env, ctx, st, forumId, i + 1);
      } else {
        var step := ImportEntry(env, ctx, st, i);
        ImportEntryPosts(env, ctx, st, i);
        EntriesFromKeeps(env, ctx, step.state, forumId, i + 1);
        PostingSame(env, ctx, step.state.entries, st.entries, 0);
        forall j | 0 <= j < |st.entries| ensures EntryPosts(env, ctx, st.entries[j]) == EntryPosts(env, ctx, step.state.entries[j]) {
          assert step.state.entries[j] == st.entries[j].(abId := step.state.entries[j].abId);
        }
      }
    }
  }

  /** Forum `f` is chosen by id and passes the visibility test. */
  predicate Imports(env: Env, forumIds: seq<int>, f: StagedForum) {
    f.forumId in forumIds && env.viewable(f)
  }

  /** Some imported forum row from position `n` on has id `forumId`. */
  predicate ImportedFrom(env: Env, forums: seq<StagedForum>, forumIds: seq<int>, n: nat, forumId: int) {
    exists j :: n <= j < |forums| && Imports(env, forumIds, forums[j]) && forums[j].forumId == forumId
  }

  /** Some entry of an imported forum (from row `n` on) has `entry_id` `entryId`. */
  predicate FedByImported(env: Env, forums: seq<StagedForum>, forumIds: seq<int>, n: nat, entries: seq<StagedEntry>, entryId: int) {
    exists j :: 0 <= j < |entries| && entries[j].entryId == entryId && ImportedFrom(env, forums, forumIds, n, entries[j].forumId)
  }

  function Sum(s: seq<nat>): nat {
    if |s| == 0 then 0 else s[0] + Sum(s[1..])
  }

  /** One count per forum row, and a row that is not imported counts no thread. */
  predicate SkippedCountNothing(env: Env, forumIds: seq<int>, forums: seq<StagedForum>, counts: seq<nat>) {
    |counts| == |forums| && forall j :: 0 <= j < |counts| && !Imports(env, forumIds, forums[j]) ==> counts[j] == 0
  }

  lemma SkippedCountNothingCons(env: Env, forumIds: seq<int>, forums: seq<StagedForum>, c: nat, counts: seq<nat>)
    requires |forums| > 0 && (!Imports(env, forumIds, forums[0]) ==> c == 0)
    requires SkippedCountNothing(env, forumIds, forums[1..], counts)
    ensures SkippedCountNothing(env, forumIds, forums, [c] + counts)
  {
    forall j | 0 < j < |forums| ensures forums[j] == forums[1..][j - 1] && ([c] + counts)[j] == counts[j - 1] {
    }
  }

  /** The thread count `import_forum` reports per forum row, and the state it left. */
  datatype ForumsOutcome = ForumsOutcome(counts: seq<nat>, state: ContentState)

  /** The outer loop of `import_forum` from forum row `n` on: a forum that is chosen
      and viewable has its entries imported; any other counts no thread. */
  function ImportForumsFrom(env: Env, ctx: Ctx, st: ContentState, forumIds: seq<int>, n: nat): (r: ForumsOutcome)
    requires n <= |ctx.forums|
    ensures SkippedCountNothing(env, forumIds, ctx.forums[n..], r.counts)
    ensures Extends(r.state.store.threads, st.store.threads)
    ensures |r.state.store.threads| == |st.store.threads| + Sum(r.counts)
    ensures Extends(r.state.store.posts, st.store.posts)
    ensures SameEntries(r.state.entries, st.entries) && SamePosts(r.state.posts, st.posts)
    ensures forall f :: f in st.cache ==> f in r.state.cache && r.state.cache[f] == st.cache[f]
    ensures CacheSound(st.cache, ctx.forums) ==> CacheSound(r.state.cache, ctx.forums)
    decreases |ctx.forums| - n
  {
    if n == |ctx.forums| then ForumsOutcome([], st)
    else
      var step := ForumStep(env, ctx, st, forumIds, n);
      var rest := ImportForumsFrom(env, ctx, step.state, forumIds, n + 1);
      ExtendsTrans(rest.state.store.threads, step.state.store.threads, st.store.threads);
      ExtendsTrans(rest.state.store.posts, step.state.store.posts, st.store.posts);
      SkippedCountNothingCons(env, forumIds, ctx.forums[n..], step.count, rest.counts);
      assert ctx.forums[n..][1..] == ctx.forums[n + 1..];
      ForumsOutcome([step.count] + rest.counts, rest.state)
  }

  /** What the outer loop leaves of the staged rows: only entries of imported forums
      change, each into a posted question, and only posts of those entries change. */
  lemma {:induction false} ImportForumsFrames(env: Env, ctx: Ctx, st: ContentState, forumIds: seq<int>, n: nat)
    requires n <= |ctx.forums|
    ensures var r := ImportForumsFrom(env, ctx, st, forumIds, n);
      && (forall k :: 0 <= k < |st.entries| && !ImportedFrom(env, ctx.forums, forumIds, n, st.entries[k].forumId) ==>
            r.state.entries[k] == st.entries[k])
      && (forall k :: 0 <= k < |st.entries| && r.state.entries[k] != st.entries[k] ==> Posted(r.state.store, r.state.entries[k]))
      && (forall k :: 0 <= k < |st.posts| && !FedByImported(env, ctx.forums, forumIds, n, st.entries, st.posts[k].entryId) ==>
            r.state.posts[k] == st.posts[k])
    decreases |ctx.forums| - n
  {
    if n < |ctx.forums| {
      var step := ForumStep(env, ctx, st, forumIds, n);
      var rest := ImportForumsFrom(env, ctx, step.state, forumIds, n + 1);
      ImportForumsFrames(env, ctx, step.state, forumIds, n + 1);
      ForumsFromStep(env, ctx, st, forumIds, n, step, rest.state);
      assert ImportForumsFrom(env, ctx, st, forumIds, n).state == rest.state;
    }
  }

  /** One forum row: its entries imported when it is chosen and viewable. */
  function ForumStep(env: Env, ctx: Ctx, st: ContentState, forumIds: seq<int>, n: nat): (r: Imported)
    requires n < |ctx.forums|
    ensures !Imports(env, forumIds, ctx.forums[n]) ==> r == Imported(0, st)
    ensures Extends(r.state.store.threads, st.store.threads)
    ensures |r.state.store.threads| == |st.store.threads| + r.count
    ensures Extends(r.state.store.posts, st.store.posts)
    ensures SameEntries(r.state.entries, st.entries) && SamePosts(r.state.posts, st.posts)
    ensures forall f :: f in st.cache ==> f in r.state.cache && r.state.cache[f] == st.cache[f]
    ensures CacheSound(st.cache, ctx.forums) ==> CacheSound(r.state.cache, ctx.forums)
  {
    if Imports(env, forumIds, ctx.forums[n]) then ImportEntriesFrom(env, ctx, st, ctx.forums[n].forumId, 0)
    else Imported(0, st)
  }

  /** A chosen, viewable forum row counts exactly the entries of its forum whose
      question is posted. */
  lemma ForumStepCount(env: Env, ctx: Ctx, st: ContentState, forumIds: seq<int>, n: nat)
    requires n < |ctx.forums| && CacheSound(st.cache, ctx.forums)
    ensures Imports(env, forumIds, ctx.forums[n]) ==>
      ForumStep(env, ctx, st, forumIds, n).count == |PostingIn(env, ctx, st.entries, ctx.forums[n].forumId, 0)|
  {
    if Imports(env, forumIds, ctx.forums[n]) {
      EntriesFromCount(env, ctx, st, ctx.forums[n].forumId, 0);
    }
  }

  /** A chosen, viewable forum row imports every entry of its forum whose question is
      posted. */
  lemma ForumStepPosted(env: Env, ctx: Ctx, st: ContentState, forumIds: seq<int>, n: nat)
    requires n < |ctx.forums| && Imports(env, forumIds, ctx.forums[n]) && CacheSound(st.cache, ctx.forums)
    ensures var r := ForumStep(env, ctx, st, forumIds, n);
      forall j :: 0 <= j < |st.entries| && st.entries[j].forumId == ctx.forums[n].forumId && EntryPosts(env, ctx, st.entries[j]) ==>
        NewlyPosted(st, r.state, j)
  {
    EntriesFromPosted(env, ctx, st, ctx.forums[n].forumId, 0);
  }

  /** A forum row leaves every entry whose question is not posted as it was. */
  lemma ForumStepKeeps(env: Env, ctx: Ctx, st: ContentState, forumIds: seq<int>, n: nat)
    requires n < |ctx.forums| && CacheSound(st.cache, ctx.forums)
    ensures var r := ForumStep(env, ctx, st, forumIds, n);
      forall j :: 0 <= j < |st.entries| && !EntryPosts(env, ctx, st.entries[j]) ==> r.state.entries[j] == st.entries[j]
  {
    if Imports(env, forumIds, ctx.forums[n]) {
      EntriesFromKeeps(env, ctx, st, ctx.forums[n].forumId, 0);
    }
  }

  /** One forum row followed by the rest of the rows. */
  lemma ForumsFromStep(env: Env, ctx: Ctx, st: ContentState, forumIds: seq<int>, n: nat, step: Imported, last: ContentState)
    requires n < |ctx.forums|
    requires step == ForumStep(env, ctx, st, forumIds, n)
    requires Extends(last.store.posts, step.state.store.posts) && |step.state.store.threads| <= |last.store.threads|
    requires SameEntries(last.entries, step.state.entries) && SamePosts(last.posts, step.state.posts)
    requires forall k :: 0 <= k < |step.state.entries| && !ImportedFrom(env, ctx.forums, forumIds, n + 1, step.state.entries[k].forumId) ==>
      last.entries[k] == step.state.entries[k]
    requires forall k :: 0 <= k < |step.state.entries| && last.entries[k] != step.state.entries[k] ==>
      Posted(last.store, last.entries[k])
    requires forall k :: 0 <= k < |step.state.posts| && !FedByImported(env, ctx.forums, forumIds, n + 1, step.state.entries, step.state.posts[k].entryId) ==>
      last.posts[k] == step.state.posts[k]
    ensures SameEntries(last.entries, st.entries) && SamePosts(last.posts, st.posts)
    ensures forall k :: 0 <= k < |st.entries| && !ImportedFrom(env, ctx.forums, forumIds, n, st.entries[k].forumId) ==>
      last.entries[k] == st.entries[k]
    ensures forall k :: 0 <= k < |st.entries| && last.entries[k] != st.entries[k] ==> Posted(last.store, last.entries[k])
    ensures forall k :: 0 <= k < |st.posts| && !FedByImported(env, ctx.forums, forumIds, n, st.entries, st.posts[k].entryId) ==>
      last.posts[k] == st.posts[k]
  {
    var mid := step.state;
    var f := ctx.forums[n];
    forall k | 0 <= k < |st.entries| && last.entries[k] != st.entries[k]
      ensures Posted(last.store, last.entries[k])
    {
      if last.entries[k] == mid.entries[k] {
        QuestionInGrows(last.store, mid.store, mid.entries[k].abId.value);
      }
    }
    forall k | 0 <= k < |st.entries| && !ImportedFrom(env, ctx.forums, forumIds, n, st.entries[k].forumId)
      ensures last.entries[k] == st.entries[k]
    {
      assert !(Imports(env, forumIds, f) && f.forumId == st.entries[k].forumId);
      assert mid.entries[k] == st.entries[k];
    }
    forall k | 0 <= k < |st.posts| && !FedByImported(env, ctx.forums, forumIds, n, st.entries, st.posts[k].entryId)
      ensures last.posts[k] == st.posts[k]
    {
      var id := st.posts[k].entryId;
      if Imports(env, forumIds, f) {
        forall j | 0 <= j < |st.entries|
          ensures !(st.entries[j].forumId == f.forumId && st.entries[j].entryId == id)
        {
          if st.entries[j].entryId == id {
            assert !ImportedFrom(env, ctx.forums, forumIds, n, st.entries[j].forumId);
          }
        }
      }
      assert mid.posts[k] == st.posts[k];
      forall j | 0 <= j < |mid.entries| && mid.entries[j].entryId == id
        ensures !ImportedFrom(env, ctx.forums, forumIds, n + 1, mid.entries[j].forumId)
      {
        assert mid.entries[j].forumId == st.entries[j].forumId && st.entries[j].entryId == id;
        assert !ImportedFrom(env, ctx.forums, forumIds, n, st.entries[j].forumId);
      }
    }
  }

  /** Each chosen, viewable forum row from `n` on counts the entries of its forum whose
      question is posted. */
  lemma ForumsFromCounts(env: Env, ctx: Ctx, st: ContentState, forumIds: seq<int>, n: nat)
    requires n <= |ctx.forums| && CacheSound(st.cache, ctx.forums)
    ensures var r := ImportForumsFrom(env, ctx, st, forumIds, n);
      forall k: nat :: n + k < |ctx.forums| && Imports(env, forumIds, ctx.forums[n + k]) ==>
        r.counts[k] == |PostingIn(env, ctx, st.entries, ctx.forums[n + k].forumId, 0)|
  {
    forall k: nat | n + k < |ctx.forums| && Imports(env, forumIds, ctx.forums[n + k])
      ensures ImportForumsFrom(env, ctx, st, forumIds, n).counts[k] == |PostingIn(env, ctx, st.entries, ctx.forums[n + k].forumId, 0)|
    {
      ForumsFromCountAt(env, ctx, st, forumIds, n, k, ctx.forums[n + k].forumId);
    }
  }

  /** The count of the chosen, viewable row `k` places after row `n`. */
  lemma {:induction false} ForumsFromCountAt(env: Env, ctx: Ctx, st: ContentState, forumIds: seq<int>, n: nat, k: nat, forumId: int)
    requires n + k < |ctx.forums| && Imports(env, forumIds, ctx.forums[n + k]) && ctx.forums[n + k].forumId == forumId
    requires CacheSound(st.cache, ctx.forums)
    ensures ImportForumsFrom(env, ctx, st, forumIds, n).counts[k] == |PostingIn(env, ctx, st.entries, forumId, 0)|
    decreases k
  {
    if k == 0 {
      CountAtHere(env, ctx, st, forumIds, n);
    } else {
      var step := ForumStep(env, ctx, st, forumIds, n);
      ForumsFromCountAt(env, ctx, step.state, forumIds, n + 1, k - 1, forumId);
      CountAtLater(env, ctx, st, forumIds, n, k, forumId, step);
    }
  }

  /** Row `n` itself: its count is the one its forum step reports. */
  lemma CountAtHere(env: Env, ctx: Ctx, st: ContentState, forumIds: seq<int>, n: nat)
    requires n < |ctx.forums| && Imports(env, forumIds, ctx.forums[n]) && CacheSound(st.cache, ctx.forums)
    ensures ImportForumsFrom(env, ctx, st, forumIds, n).counts[0] == |PostingIn(env, ctx, st.entries, ctx.forums[n].forumId, 0)|
  {
    ForumsFromUnfold(env, ctx, st, forumIds, n);
    ForumStepCount(env, ctx, st, forumIds, n);
  }

  /** A later row: its count is the one the rows from `n + 1` on report. */
  lemma CountAtLater(env: Env, ctx: Ctx, st: ContentState, forumIds: seq<int>, n: nat, k: nat, forumId: int, step: Imported)
    requires 0 < k && n + k < |ctx.forums| && step == ForumStep(env, ctx, st, forumIds, n)
    requires ImportForumsFrom(env, ctx, step.state, forumIds, n + 1).counts[k - 1] == |PostingIn(env, ctx, step.state.entries, forumId, 0)|
    ensures ImportForumsFrom(env, ctx, st, forumIds, n).counts[k] == |PostingIn(env, ctx, st.entries, forumId, 0)|
  {
    var rest := ImportForumsFrom(env, ctx, step.state, forumIds, n + 1);
    ForumsFromUnfold(env, ctx, st, forumIds, n);
    PostingSameAt(env, ctx, step.state.entries, st.entries, forumId);
    LaterCount([step.count] + rest.counts, step.count, rest.counts, k);
  }

  lemma PostingSameAt(env: Env, ctx: Ctx, a: seq<StagedEntry>, b: seq<StagedEntry>, forumId: int)
    requires SameEntries(a, b)
    ensures PostingIn(env, ctx, a, forumId, 0) == PostingIn(env, ctx, b, forumId, 0)
  {
    PostingSame(env, ctx, a, b, 0);
  }

  lemma LaterCount(counts: seq<nat>, c: nat, later: seq<nat>, k: nat)
    requires counts == [c] + later && 0 < k < |counts|
    ensures counts[k] == later[k - 1]
  {
  }

  /** One forum row, then the rest of the rows. */
  lemma ForumsFromUnfold(env: Env, ctx: Ctx, st: ContentState, forumIds: seq<int>, n: nat)
    requires n < |ctx.forums|
    ensures var step := ForumStep(env, ctx, st, forumIds, n);
      var rest := ImportForumsFrom(env, ctx, step.state, forumIds, n + 1);
      ImportForumsFrom(env, ctx, st, forumIds, n) == ForumsOutcome([step.count] + rest.counts, rest.state)
  {
  }

  /** Every entry of an imported forum (from row `n` on) whose question is posted ends
      up recording a question created by the loop. */
  lemma {:induction false} ForumsFromPosted(env: Env, ctx: Ctx, st: ContentState, forumIds: seq<int>, n: nat)
    requires n <= |ctx.forums| && CacheSound(st.cache, ctx.forums)
    ensures var r := ImportForumsFrom(env, ctx, st, forumIds, n);
      forall k :: 0 <= k < |st.entries| && ImportedFrom(env, ctx.forums, forumIds, n, st.entries[k].forumId) && EntryPosts(env, ctx, st.entries[k]) ==>
        NewlyPosted(st, r.state, k)
    decreases |ctx.forums| - n
  {
    if n < |ctx.forums| {
      var step := ForumStep(env, ctx, st, forumIds, n);
      var rest := ImportForumsFrom(env, ctx, step.state, forumIds, n + 1);
      assert ImportForumsFrom(env, ctx, st, forumIds, n).state == rest.state;
      ForumsFromPosted(env, ctx, step.state, forumIds, n + 1);
      ImportForumsFrames(env, ctx, step.state, forumIds, n + 1);
      if Imports(env, forumIds, ctx.forums[n]) {
        ForumStepPosted(env, ctx, st, forumIds, n);
      }
      forall k | 0 <= k < |st.entries| && ImportedFrom(env, ctx.forums, forumIds, n, st.entries[k].forumId) && EntryPosts(env, ctx, st.entries[k])
        ensures NewlyPosted(st, rest.state, k)
      {
        PostedLater(env, ctx, st, forumIds, n, step, rest.state, k);
      }
    }
  }

  /** One entry through one forum row and the rows after it. */
  lemma PostedLater(env: Env, ctx: Ctx, st: ContentState, forumIds: seq<int>, n: nat, step: Imported, last: ContentState, k: nat)
    requires n < |ctx.forums| && k < |st.entries| && CacheSound(st.cache, ctx.forums)
    requires step == ForumStep(env, ctx, st, forumIds, n)
    requires ImportedFrom(env, ctx.forums, forumIds, n, st.entries[k].forumId) && EntryPosts(env, ctx, st.entries[k])
    requires Imports(env, forumIds, ctx.forums[n]) && ctx.forums[n].forumId == st.entries[k].forumId ==> NewlyPosted(st, step.state, k)
    requires Extends(last.store.posts, step.state.store.posts) && |step.state.store.threads| <= |last.store.threads|
    requires |last.entries| == |step.state.entries|
    requires !ImportedFrom(env, ctx.forums, forumIds, n + 1, step.state.entries[k].forumId) ==> last.entries[k] == step.state.entries[k]
    requires ImportedFrom(env, ctx.forums, forumIds, n + 1, step.state.entries[k].forumId) && EntryPosts(env, ctx, step.state.entries[k]) ==>
      NewlyPosted(step.state, last, k)
    ensures NewlyPosted(st, last, k)
  {
    var e := step.state.entries[k];
    assert e == st.entries[k].(abId := e.abId);
    if !ImportedFrom(env, ctx.forums, forumIds, n + 1, e.forumId) {
      var j :| n <= j < |ctx.forums| && Imports(env, forumIds, ctx.forums[j]) && ctx.forums[j].forumId == st.entries[k].forumId;
      assert j == n;
      QuestionInGrows(last.store, step.state.store, e.abId.value);
    }
  }

  /** The outer loop leaves every entry whose question is not posted as it was. */
  lemma {:induction false} ForumsFromKeeps(env: Env, ctx: Ctx, st: ContentState, forumIds: seq<int>, n: nat)
    requires n <= |ctx.forums| && CacheSound(st.cache, ctx.forums)
    ensures var r := ImportForumsFrom(env, ctx, st, forumIds, n);
      forall k :: 0 <= k < |st.entries| && !EntryPosts(env, ctx, st.entries[k]) ==> r.state.entries[k] == st.entries[k]
    decreases |ctx.forums| - n
  {
    if n < |ctx.forums| {
      var step := ForumStep(env, ctx, st, forumIds, n);
      assert ImportForumsFrom(env, ctx, st, forumIds, n).state == ImportForumsFrom(env, ctx, step.state, forumIds, n + 1).state;
      ForumStepKeeps(env, ctx, st, forumIds, n);
      ForumsFromKeeps(env, ctx, step.state, forumIds, n + 1);
    }
  }

  /** What the whole of `import_forum` imports and counts, from a sound tag cache. */
  lemma ImportForumEffects(env: Env, ctx: Ctx, st: ContentState, forumIds: seq<int>)
    ensures var r := ImportForumsFrom(env, ctx, st, forumIds, 0);
      CacheSound(st.cache, ctx.forums) ==>
        && (forall m :: 0 <= m < |ctx.forums| && Imports(env, forumIds, ctx.forums[m]) ==>
              r.counts[m] == |PostingIn(env, ctx, st.entries, ctx.forums[m].forumId, 0)|)
        && (forall k :: 0 <= k < |st.entries| && ImportedFrom(env, ctx.forums, forumIds, 0, st.entries[k].forumId) && EntryPosts(env, ctx, st.entries[k]) ==>
              NewlyPosted(st, r.state, k))
        && (forall k :: 0 <= k < |st.entries| && !EntryPosts(env, ctx, st.entries[k]) ==> r.state.entries[k] == st.entries[k])
  {
    if CacheSound(st.cache, ctx.forums) {
      ForumsFromCounts(env, ctx, st, forumIds, 0);
      ForumsFromPosted(env, ctx, st, forumIds, 0);
      ForumsFromKeeps(env, ctx, st, forumIds, 0);
    }
  }

  /** `import_forum`: the forum rows whose `forum_id` is among the chosen ids, in table
      order, each imported when viewable to the public. */
  function ImportForum(env: Env, ctx: Ctx, st: ContentState, forumIds: seq<int>): (r: ForumsOutcome)
    ensures |r.counts| == |ctx.forums|
    ensures forall j :: 0 <= j < |ctx.forums| && !Imports(env, forumIds, ctx.forums[j]) ==> r.counts[j] == 0
    ensures Extends(r.state.store.threads, st.store.threads)
    ensures |r.state.store.threads| == |st.store.threads| + Sum(r.counts)
    ensures Extends(r.state.store.posts, st.store.posts)
    ensures SameEntries(r.state.entries, st.entries) && SamePosts(r.state.posts, st.posts)
    ensures forall k :: 0 <= k < |st.entries| && !ImportedFrom(env, ctx.forums, forumIds, 0, st.entries[k].forumId) ==>
      r.state.entries[k] == st.entries[k]
    ensures forall k :: 0 <= k < |st.entries| && r.state.entries[k] != st.entries[k] ==> Posted(r.state.store, r.state.entries[k])
    ensures forall k :: 0 <= k < |st.posts| && !FedByImported(env, ctx.forums, forumIds, 0, st.entries, st.posts[k].entryId) ==>
      r.state.posts[k] == st.posts[k]
    ensures CacheSound(st.cache, ctx.forums) ==> CacheSound(r.state.cache, ctx.forums)
    ensures CacheSound(st.cache, ctx.forums) ==>
      forall m :: 0 <= m < |ctx.forums| && Imports(env, forumIds, ctx.forums[m]) ==>
        r.counts[m] == |PostingIn(env, ctx, st.entries, ctx.forums[m].forumId, 0)|
    ensures CacheSound(st.cache, ctx.forums) ==>
      forall k :: 0 <= k < |st.entries| && ImportedFrom(env, ctx.forums, forumIds, 0, st.entries[k].forumId) && EntryPosts(env, ctx, st.entries[k]) ==>
        NewlyPosted(st, r.state, k)
    ensures CacheSound(st.cache, ctx.forums) ==>
      forall k :: 0 <= k < |st.entries| && !EntryPosts(env, ctx, st.entries[k]) ==> r.state.entries[k] == st.entries[k]
  {
    ImportForumsFrames(env, ctx, st, forumIds, 0);
    ImportForumEffects(env, ctx, st, forumIds);
    assert ctx.forums[0..] == ctx.forums;
    ImportForumsFrom(env, ctx, st, forumIds, 0)
  }
}

=== FILE: extract.dfy ===
/** The generic extractor, the per-entry loop of `read_xml_file`: one staged record per
    element with the entry tag, each listed field coerced, renamed (`-` becomes `_`)
    and truncated to its declared length, then the extra mappings copied over
    untruncated. A record is a map from model field name to value; the framework's
    model instance and its `save` are not modelled beyond keeping the records saved
    before a failure. */
module Extract {
  import opened Basics
  import opened Text
  import opened Coerce
  import opened Schema

  type Record = map<string, FieldValue>

  /** One element of the exported document's root: its tag and its children. */
  datatype Node = Node(tag: string, children: XmlElement)

  datatype ExtractError =
    | Coercion(field: string, cause: CoerceError)
    | UnknownField(name: string)
    | NotSliceable(name: string)

  /** Python truthiness of a field value; a `datetime` is always true. */
  predicate Truthy(v: FieldValue) {
    match v
    case Null => false
    case Bool(b) => b
    case Int(i) => i != 0
    case Time(_) => true
    case Str(s) => |s| > 0
  }

  /** `if value and max_length: value = value[:max_length]`. Slicing a `bool`, `int` or
      `datetime` raises `TypeError`. */
  function Truncate(name: string, v: FieldValue, maxLen: Option<nat>): (r: Result<FieldValue, ExtractError>)
    ensures !(Truthy(v) && maxLen.Some? && maxLen.value > 0) ==> r == Ok(v)
    ensures r.Ok? && maxLen.Some? && maxLen.value > 0 && r.value.Str? ==> |r.value.s| <= maxLen.value
    ensures r.Ok? ==> (v.Str? <==> r.value.Str?)
    ensures r.Ok? && v.Str? ==> |r.value.s| <= |v.s| && r.value.s == v.s[..|r.value.s|]
    ensures r.Ok? && v.Str? && (maxLen.None? || |v.s| <= maxLen.value) ==> r.value == v
    ensures r.Ok? && v.Str? && maxLen.Some? && 0 < maxLen.value < |v.s| ==> r.value == Str(v.s[..maxLen.value])
    ensures r.Err? <==> Truthy(v) && maxLen.Some? && maxLen.value > 0 && !v.Str?
  {
    if Truthy(v) && maxLen.Some? && maxLen.value > 0 then
      match v
      case Str(s) => Ok(Str(if |s| <= maxLen.value then s else s[..maxLen.value]))
      case _ => Err(NotSliceable(name))
    else Ok(v)
  }

  /** One listed field: coerce, look up the model field, truncate. */
  function FieldStep(elem: XmlElement, f: string, table: FieldTable): Result<FieldValue, ExtractError> {
    match GetVal(elem, f)
    case Err(e) => Err(Coercion(f, e))
    case Ok(v) =>
      var name := ModelFieldName(f);
      if name !in table then Err(UnknownField(name))
      else Truncate(name, v, table[name])
  }

  ghost function FieldNames(fields: seq<string>): set<string> {
    set i | 0 <= i < |fields| :: ModelFieldName(fields[i])
  }

  ghost function ExtraTargets(extras: seq<ExtraMapping>): set<string> {
    set i | 0 <= i < |extras| :: extras[i].1
  }

  /** No later field is stored under the same model field name. */
  ghost predicate LastField(fields: seq<string>, i: int)
    requires 0 <= i < |fields|
  {
    forall j :: i < j < |fields| ==> ModelFieldName(fields[j]) != ModelFieldName(fields[i])
  }

  ghost predicate LastExtra(extras: seq<ExtraMapping>, i: int)
    requires 0 <= i < |extras|
  {
    forall j :: i < j < |extras| ==> extras[j].1 != extras[i].1
  }

  /** What assigning `fields` over `rec` yields: it succeeds exactly when every field
      step does, it adds exactly the renamed fields, it leaves other names alone, and
      the last field stored under a name wins. */
  ghost predicate FieldsAssigned(elem: XmlElement, fields: seq<string>, table: FieldTable, rec: Record, r: Result<Record, ExtractError>) {
    && (r.Ok? <==> forall i :: 0 <= i < |fields| ==> FieldStep(elem, fields[i], table).Ok?)
    && (r.Ok? ==> r.value.Keys == rec.Keys + FieldNames(fields))
    && (r.Ok? ==> forall k :: k in rec && k !in FieldNames(fields) ==> r.value[k] == rec[k])
    && (r.Ok? ==> forall i :: 0 <= i < |fields| && LastField(fields, i) ==>
                    r.value[ModelFieldName(fields[i])] == FieldStep(elem, fields[i], table).value)
  }

  /** The `for field in fields` loop: each field's value is assigned in turn. */
  function AssignFields(elem: XmlElement, fields: seq<string>, table: FieldTable, rec: Record): (r: Result<Record, ExtractError>)
    ensures FieldsAssigned(elem, fields, table, rec, r)
    decreases |fields|
  {
    if |fields| == 0 then Ok(rec)
    else
      match FieldStep(elem, fields[0], table)
      case Err(e) =>
        assert !FieldStep(elem, fields[0], table).Ok?;
        Err(e)
      case Ok(v) =>
        var r := AssignFields(elem, fields[1..], table, rec[ModelFieldName(fields[0]) := v]);
        AssignFieldsStep(elem, fields, table, rec, v, r);
        r
  }

  lemma FieldNamesCons(fields: seq<string>)
    requires |fields| > 0
    ensures FieldNames(fields) == {ModelFieldName(fields[0])} + FieldNames(fields[1..])
  {
    forall k | k in FieldNames(fields) ensures k == ModelFieldName(fields[0]) || k in FieldNames(fields[1..]) {
      var i :| 0 <= i < |fields| && k == ModelFieldName(fields[i]);
      if i > 0 {
        assert fields[1..][i - 1] == fields[i];
      }
    }
  }

  lemma AssignFieldsStep(elem: XmlElement, fields: seq<string>, table: FieldTable, rec: Record, v: FieldValue, r: Result<Record, ExtractError>)
    requires |fields| > 0 && FieldStep(elem, fields[0], table) == Ok(v)
    requires FieldsAssigned(elem, fields[1..], table, rec[ModelFieldName(fields[0]) := v], r)
    ensures FieldsAssigned(elem, fields, table, rec, r)
  {
    var n0 := ModelFieldName(fields[0]);
    FieldNamesCons(fields);
    if r.Ok? {
      forall i | 0 <= i < |fields| ensures FieldStep(elem, fields[i], table).Ok? {
        if i > 0 {
          assert fields[1..][i - 1] == fields[i];
        }
      }
      forall i | 0 <= i < |fields| && LastField(fields, i)
        ensures r.value[ModelFieldName(fields[i])] == FieldStep(elem, fields[i], table).value
      {
        if i > 0 {
          assert fields[1..][i - 1] == fields[i];
          assert LastField(fields[1..], i - 1) by {
            forall j | i - 1 < j < |fields| - 1
              ensures ModelFieldName(fields[1..][j]) != ModelFieldName(fields[1..][i - 1])
            {
              assert fields[1..][j] == fields[j + 1];
            }
          }
        } else {
          assert n0 !in FieldNames(fields[1..]);
        }
      }
    } else {
      var i :| 0 <= i < |fields| - 1 && !FieldStep(elem, fields[1..][i], table).Ok?;
      assert fields[1..][i] == fields[i + 1];
    }
  }

  /** What copying `extras` over `rec` yields: it succeeds exactly when every source
      coerces, it adds exactly the targets, it leaves other names alone, and the last
      mapping to a target wins, untruncated. */
  ghost predicate ExtrasApplied(elem: XmlElement, extras: seq<ExtraMapping>, rec: Record, r: Result<Record, ExtractError>) {
    && (r.Ok? <==> forall i :: 0 <= i < |extras| ==> GetVal(elem, extras[i].0).Ok?)
    && (r.Ok? ==> r.value.Keys == rec.Keys + ExtraTargets(extras))
    && (r.Ok? ==> forall k :: k in rec && k !in ExtraTargets(extras) ==> r.value[k] == rec[k])
    && (r.Ok? ==> forall i :: 0 <= i < |extras| && LastExtra(extras, i) ==>
                    r.value[extras[i].1] == GetVal(elem, extras[i].0).value)
  }

  /** The `extra_field_mappings` loop: values are copied as coerced, over whatever the
      listed fields stored. */
  function ApplyExtras(elem: XmlElement, extras: seq<ExtraMapping>, rec: Record): (r: Result<Record, ExtractError>)
    ensures ExtrasApplied(elem, extras, rec, r)
    decreases |extras|
  {
    if |extras| == 0 then Ok(rec)
    else
      match GetVal(elem, extras[0].0)
      case Err(e) =>
        assert !GetVal(elem, extras[0].0).Ok?;
        Err(Coercion(extras[0].0, e))
      case Ok(v) =>
        var r := ApplyExtras(elem, extras[1..], rec[extras[0].1 := v]);
        ApplyExtrasStep(elem, extras, rec, v, r);
        r
  }

  lemma ExtraTargetsCons(extras: seq<ExtraMapping>)
    requires |extras| > 0
    ensures ExtraTargets(extras) == {extras[0].1} + ExtraTargets(extras[1..])
  {
    forall k | k in ExtraTargets(extras) ensures k == extras[0].1 || k in ExtraTargets(extras[1..]) {
      var i :| 0 <= i < |extras| && k == extras[i].1;
      if i > 0 {
        assert extras[1..][i - 1] == extras[i];
      }
    }
  }

  lemma ApplyExtrasStep(elem: XmlElement, extras: seq<ExtraMapping>, rec: Record, v: FieldValue, r: Result<Record, ExtractError>)
    requires |extras| > 0 && GetVal(elem, extras[0].0) == Ok(v)
    requires ExtrasApplied(elem, extras[1..], rec[extras[0].1 := v], r)
    ensures ExtrasApplied(elem, extras, rec, r)
  {
    ExtraTargetsCons(extras);
    if r.Ok? {
      forall i | 0 <= i < |extras| ensures GetVal(elem, extras[i].0).Ok? {
        if i > 0 {
          assert extras[1..][i - 1] == extras[i];
        }
      }
      forall i | 0 <= i < |extras| && LastExtra(extras, i)
        ensures r.value[extras[i].1] == GetVal(elem, extras[i].0).value
      {
        if i > 0 {
          assert extras[1..][i - 1] == extras[i];
          assert LastExtra(extras[1..], i - 1) by {
            forall j | i - 1 < j < |extras| - 1
              ensures extras[1..][j].1 != extras[1..][i - 1].1
            {
              assert extras[1..][j] == extras[j + 1];
            }
          }
        } else {
          assert extras[0].1 !in ExtraTargets(extras[1..]);
        }
      }
    } else {
      var i :| 0 <= i < |extras| - 1 && !GetVal(elem, extras[1..][i].0).Ok?;
      assert extras[1..][i] == extras[i + 1];
    }
  }

  /** The record built from one entry element, starting from an empty model instance.
      It fails exactly when some listed field or some extra source raises. */
  function BuildRecord(elem: XmlElement, fields: seq<string>, extras: seq<ExtraMapping>, table: FieldTable): (r: Result<Record, ExtractError>)
    ensures r.Ok? <==> && (forall i :: 0 <= i < |fields| ==> FieldStep(elem, fields[i], table).Ok?)
                       && (forall i :: 0 <= i < |extras| ==> GetVal(elem, extras[i].0).Ok?)
  {
    match AssignFields(elem, fields, table, map[])
    case Err(e) => Err(e)
    case Ok(rec) => ApplyExtras(elem, extras, rec)
  }

  /** What one record holds: exactly the renamed listed fields and the extra targets;
      an extra target holds its coerced value untruncated; a listed field that no extra
      overwrites holds its coerced value cut to its declared length. */
  lemma BuildRecordContents(elem: XmlElement, fields: seq<string>, extras: seq<ExtraMapping>, table: FieldTable)
    requires BuildRecord(elem, fields, extras, table).Ok?
    ensures var rec := BuildRecord(elem, fields, extras, table).value;
      && rec.Keys == FieldNames(fields) + ExtraTargets(extras)
      && (forall i :: 0 <= i < |extras| && LastExtra(extras, i) ==>
            GetVal(elem, extras[i].0).Ok? && rec[extras[i].1] == GetVal(elem, extras[i].0).value)
      && (forall i :: 0 <= i < |fields| && LastField(fields, i) && ModelFieldName(fields[i]) !in ExtraTargets(extras) ==>
            FieldStep(elem, fields[i], table).Ok? && rec[ModelFieldName(fields[i])] == FieldStep(elem, fields[i], table).value)
  {
  }

  /** A stored string under a field with a declared length never exceeds it, unless an
      extra mapping wrote it. */
  lemma BuildRecordWithinLength(elem: XmlElement, fields: seq<string>, extras: seq<ExtraMapping>, table: FieldTable, i: int)
    requires BuildRecord(elem, fields, extras, table).Ok?
    requires 0 <= i < |fields| && LastField(fields, i)
    requires ModelFieldName(fields[i]) !in ExtraTargets(extras)
    requires ModelFieldName(fields[i]) in table && table[ModelFieldName(fields[i])].Some?
    requires table[ModelFieldName(fields[i])].value > 0
    ensures var v := BuildRecord(elem, fields, extras, table).value[ModelFieldName(fields[i])];
            v.Str? ==> |v.s| <= table[ModelFieldName(fields[i])].value
  {
    BuildRecordContents(elem, fields, extras, table);
  }

  /** The test `findall` applies to each child of the root. */
  function TagIs(name: string): Node -> bool {
    (n: Node) => n.tag == name
  }

  /** The children of the root's elements with the entry tag, in document order
      (`xml.findall(entry_name)`): one element per node with the tag, taken from the
      positions of those nodes in order. */
  function Matching(doc: seq<Node>, entryName: string): (r: seq<XmlElement>)
    ensures |r| == |Indices(doc, TagIs(entryName))|
    ensures forall k :: 0 <= k < |r| ==> r[k] == doc[Indices(doc, TagIs(entryName))[k]].children
    decreases |doc|
  {
    if |doc| == 0 then []
    else
      var last := doc[|doc| - 1];
      var before := Matching(doc[..|doc| - 1], entryName);
      if last.tag == entryName then before + [last.children] else before
  }

  /** The records saved by one extraction call and, when the call raised, the error.
      Records are committed one by one, so a failure keeps the earlier ones. */
  datatype ExtractOutcome = ExtractOutcome(saved: seq<Record>, failure: Option<ExtractError>)

  /** The records saved from a sequence of per-element outcomes: every leading `Ok`,
      and the first error, if any, which stops the loop. */
  function SaveUntilError(results: seq<Result<Record, ExtractError>>): (r: ExtractOutcome)
    ensures r.failure.None? ==> |r.saved| == |results|
    ensures r.failure.Some? ==> |r.saved| < |results| && results[|r.saved|] == Err(r.failure.value)
    ensures forall i :: 0 <= i < |r.saved| ==> results[i] == Ok(r.saved[i])
    decreases |results|
  {
    if |results| == 0 then ExtractOutcome([], None)
    else
      match results[0]
      case Err(e) => ExtractOutcome([], Some(e))
      case Ok(rec) =>
        var rest := SaveUntilError(results[1..]);
        ExtractOutcome([rec] + rest.saved, rest.failure)
  }

  /** The loop over the matching elements: each element is built into a record and
      saved in document order until the first one that raises. */
  function ExtractElements(elems: seq<XmlElement>, fields: seq<string>, extras: seq<ExtraMapping>, table: FieldTable): (r: ExtractOutcome)
    ensures r.failure.None? ==> |r.saved| == |elems|
    ensures r.failure.Some? ==> (|r.saved| < |elems|
      && BuildRecord(elems[|r.saved|], fields, extras, table) == Err(r.failure.value))
    ensures forall i :: 0 <= i < |r.saved| ==> BuildRecord(elems[i], fields, extras, table) == Ok(r.saved[i])
  {
    SaveUntilError(seq(|elems|, i requires 0 <= i < |elems| => BuildRecord(elems[i], fields, extras, table)))
  }

  /** `read_xml_file`: exactly one record per matching element when nothing raises; on
      the first failing element the records before it stay saved and the error
      propagates. */
  function ReadXml(doc: seq<Node>, entryName: string, fields: seq<string>, extras: seq<ExtraMapping>, table: FieldTable): (r: ExtractOutcome)
    ensures var elems := Matching(doc, entryName);
      && (r.failure.None? ==> |r.saved| == |elems|)
      && (r.failure.Some? ==> (|r.saved| < |elems|
            && BuildRecord(elems[|r.saved|], fields, extras, table) == Err(r.failure.value)))
      && (forall i :: 0 <= i < |r.saved| ==> BuildRecord(elems[i], fields, extras, table) == Ok(r.saved[i]))
  {
    ExtractElements(Matching(doc, entryName), fields, extras, table)
  }

  /** An entry record's `entry_id` comes from the generic `id` element, not from
      `entry-id`, because the extra mapping is applied last. */
  lemma EntryIdFromIdElement(elem: XmlElement)
    requires BuildRecord(elem, EntryFields, EntryExtras, EntryTable).Ok?
    ensures GetVal(elem, "id").Ok?
    ensures BuildRecord(elem, EntryFields, EntryExtras, EntryTable).value["entry_id"] == GetVal(elem, "id").value
  {
    BuildRecordContents(elem, EntryFields, EntryExtras, EntryTable);
    assert LastExtra(EntryExtras, 0);
  }
}

=== FILE: identity.dfy ===
/** Identity reconciliation: choosing a free username (`get_unique_username`),
    creating a target user from a staged one (`create_askbot_user`), and the pass that
    bridges every staged user to a target user (`import_users`). The target user table
    is a sequence; a save that the database refuses is an oracle on the user being
    saved. */
module Identity {
  import opened Basics
  import opened Text
  import opened Staging

  // ---------------------------------------------------------------------------
  // Usernames (`get_unique_username`)
  // ---------------------------------------------------------------------------

  /** Some target user already holds `name`. */
  predicate Taken(users: seq<TargetUser>, name: string) {
    exists i :: 0 <= i < |users| && users[i].username == name
  }

  ghost function Usernames(users: seq<TargetUser>): set<string> {
    set i | 0 <= i < |users| :: users[i].username
  }

  /** The `k`-th attempt, `original_name + str(k)`. */
  function Candidate(seed: string, k: nat): string {
    seed + NatToString(k)
  }

  /** Different attempts try different names. */
  lemma CandidateInjective(seed: string, a: nat, b: nat)
    requires Candidate(seed, a) == Candidate(seed, b)
    ensures a == b
  {
    assert Candidate(seed, a)[|seed|..] == NatToString(a);
    assert Candidate(seed, b)[|seed|..] == NatToString(b);
    NatToStringInjective(a, b);
  }

  ghost function Attempts(seed: string, k: nat): set<string> {
    set j | 1 <= j < k :: Candidate(seed, j)
  }

  /** Each taken attempt removes a name from the finite set of taken names not yet
      tried, so the search ends. */
  lemma AttemptProgress(users: seq<TargetUser>, seed: string, k: nat)
    requires k >= 1 && Taken(users, Candidate(seed, k))
    ensures |Usernames(users) - Attempts(seed, k + 1)| < |Usernames(users) - Attempts(seed, k)|
  {
    var c := Candidate(seed, k);
    assert Attempts(seed, k + 1) == Attempts(seed, k) + {c};
    assert c !in Attempts(seed, k) by {
      forall j | 1 <= j < k ensures Candidate(seed, j) != c {
        if Candidate(seed, j) == c {
          CandidateInjective(seed, j, k);
        }
      }
    }
    var i :| 0 <= i < |users| && users[i].username == c;
    assert c in Usernames(users);
    assert Usernames(users) - Attempts(seed, k + 1) == (Usernames(users) - Attempts(seed, k)) - {c};
  }

  lemma TakenUpTo(users: seq<TargetUser>, seed: string, k: nat)
    requires forall j :: 1 <= j < k ==> Taken(users, Candidate(seed, j))
    requires Taken(users, Candidate(seed, k))
    ensures forall j :: 1 <= j < k + 1 ==> Taken(users, Candidate(seed, j))
  {
  }

  /** The loop from attempt `k` on, every earlier attempt having been taken: the first
      free attempt. */
  function FirstFreeAttempt(users: seq<TargetUser>, seed: string, k: nat): (r: nat)
    requires k >= 1
    requires forall j :: 1 <= j < k ==> Taken(users, Candidate(seed, j))
    ensures r >= k && !Taken(users, Candidate(seed, r))
    ensures forall j :: 1 <= j < r ==> Taken(users, Candidate(seed, j))
    decreases |Usernames(users) - Attempts(seed, k)|
  {
    if !Taken(users, Candidate(seed, k)) then k
    else
      AttemptProgress(users, seed, k);
      TakenUpTo(users, seed, k);
      FirstFreeAttempt(users, seed, k + 1)
  }

  /** `get_unique_username`: the seed when nobody holds it, otherwise the seed followed
      by the smallest `k >= 1` whose name nobody holds. The result is never taken. */
  function GetUniqueUsername(users: seq<TargetUser>, seed: string): (r: string)
    ensures !Taken(users, r)
    ensures !Taken(users, seed) ==> r == seed
    ensures Taken(users, seed) ==>
              exists k :: k >= 1 && r == Candidate(seed, k)
                && forall j :: 1 <= j < k ==> Taken(users, Candidate(seed, j))
  {
    if !Taken(users, seed) then seed
    else
      var k := FirstFreeAttempt(users, seed, 1);
      assert Candidate(seed, k) == Candidate(seed, k);
      Candidate(seed, k)
  }

  /** The search result is determined by which names are taken: the smallest free
      attempt is unique. */
  lemma UniqueUsernameMinimal(users: seq<TargetUser>, seed: string, k: nat)
    requires Taken(users, seed) && k >= 1
    requires !Taken(users, Candidate(seed, k))
    requires forall j :: 1 <= j < k ==> Taken(users, Candidate(seed, j))
    ensures GetUniqueUsername(users, seed) == Candidate(seed, k)
  {
    var r := GetUniqueUsername(users, seed);
    var k' :| k' >= 1 && r == Candidate(seed, k')
      && forall j :: 1 <= j < k' ==> Taken(users, Candidate(seed, j));
  }

  // ---------------------------------------------------------------------------
  // Creating a user (`create_askbot_user`)
  // ---------------------------------------------------------------------------

  /** Addresses at this domain are kept; all others are invalidated. */
  const KeptDomain: string := "shotgunsoftware.com"
  const MaskDomain: string := "@example.com"

  /** The address the created user gets: kept when it ends with the kept domain,
      otherwise the text before its first `@` at `example.com`. */
  function MaskEmail(e: string): (r: string)
    ensures EndsWith(e, KeptDomain) ==> r == e
    ensures !EndsWith(e, KeptDomain) ==>
              && EndsWith(r, MaskDomain)
              && |MaskDomain| <= |r| <= |e| + |MaskDomain|
              && '@' !in r[..|r| - |MaskDomain|]
              && r[..|r| - |MaskDomain|] == e[..|r| - |MaskDomain|]
              && (|r| - |MaskDomain| == |e| || e[|r| - |MaskDomain|] == '@')
  {
    if EndsWith(e, KeptDomain) then e
    else
      var local := BeforeFirst(e, '@');
      assert (local + MaskDomain)[..|local|] == local;
      local + MaskDomain
  }

  /** An invalidated address never equals the address it came from unless that
      address already had the masked form, so a later lookup by the original
      address cannot find the created user. */
  lemma MaskEmailChanges(e: string)
    requires !EndsWith(e, KeptDomain) && !EndsWith(e, MaskDomain)
    ensures MaskEmail(e) != e
  {
  }

  /** The username the search starts from: the email as given, or for a user without
      email the name with spaces turned into `_`, lower-cased. */
  function UsernameSeed(zd: StagedUser): (r: string)
    ensures zd.email.Some? ==> r == zd.email.value
    ensures zd.email.None? ==> |r| == |zd.name| && ' ' !in r
    ensures zd.email.None? ==> forall k :: 0 <= k < |r| && zd.name[k] == ' ' ==> r[k] == '_'
    ensures zd.email.None? ==> forall k :: 0 <= k < |r| ==> !('A' <= r[k] <= 'Z')
    ensures zd.email.None? ==> forall k :: 0 <= k < |r| && zd.name[k] != ' ' && !('A' <= zd.name[k] <= 'Z') ==> r[k] == zd.name[k]
  {
    match zd.email
    case Some(e) => e
    case None => Lower(ReplaceChar(zd.name, ' ', '_'))
  }

  /** The id the database gives the next row: one more than every id in use. */
  function FreshUserId(users: seq<TargetUser>): (r: int)
    ensures forall i :: 0 <= i < |users| ==> users[i].id < r
    decreases |users|
  {
    if |users| == 0 then 1
    else
      var rest := FreshUserId(users[..|users| - 1]);
      var last := users[|users| - 1].id;
      assert forall i :: 0 <= i < |users| - 1 ==> users[i] == users[..|users| - 1][i];
      if last < rest then rest else last + 1
  }

  datatype ImportError =
    | SaveFailed(username: string)
    | SeveralWithEmail(email: string)
    | NoneNotIterable

  /** The user `create_askbot_user` builds before saving it. */
  function NewTargetUser(users: seq<TargetUser>, zd: StagedUser): (u: TargetUser)
    ensures !Taken(users, u.username)
    ensures forall i :: 0 <= i < |users| ==> users[i].id < u.id
    ensures zd.email.None? ==> u.email == ""
    ensures zd.email.Some? ==> u.email == MaskEmail(zd.email.value)
    ensures u.emailIsValid == zd.isVerified && u.isActive == zd.isActive
    ensures u.dateJoined == zd.createdAt && u.lastSeen == zd.createdAt
    ensures u.username == GetUniqueUsername(users, UsernameSeed(zd))
  {
    var email := match zd.email case None => "" case Some(e) => MaskEmail(e);
    TargetUser(FreshUserId(users), GetUniqueUsername(users, UsernameSeed(zd)), email,
               zd.isVerified, zd.createdAt, zd.createdAt, zd.isActive)
  }

  /** `create_askbot_user`: the saved user, or the error the save raised. */
  function CreateAskbotUser(users: seq<TargetUser>, zd: StagedUser, saveFails: TargetUser -> bool): (r: Result<TargetUser, ImportError>)
    ensures r.Ok? ==> r.value == NewTargetUser(users, zd) && !saveFails(r.value)
    ensures r.Err? ==> saveFails(NewTargetUser(users, zd))
                       && r.error == SaveFailed(NewTargetUser(users, zd).username)
  {
    var u := NewTargetUser(users, zd);
    if saveFails(u) then Err(SaveFailed(u.username)) else Ok(u)
  }

  // ---------------------------------------------------------------------------
  // The user pass (`import_users`)
  // ---------------------------------------------------------------------------

  /** The staged users, the target users, and the `added_users` counter. */
  datatype IdState = IdState(staged: seq<StagedUser>, targets: seq<TargetUser>, added: nat)

  /** What the database guarantees of the target table: usernames and ids unique. */
  predicate TargetsValid(targets: seq<TargetUser>) {
    forall a, b :: 0 <= a < b < |targets| ==>
      targets[a].username != targets[b].username && targets[a].id != targets[b].id
  }

  /** Appending a created user keeps the table valid. */
  lemma AppendCreatedValid(targets: seq<TargetUser>, zd: StagedUser)
    requires TargetsValid(targets)
    ensures TargetsValid(targets + [NewTargetUser(targets, zd)])
  {
    var u := NewTargetUser(targets, zd);
    var t := targets + [u];
    forall a, b | 0 <= a < b < |t| ensures t[a].username != t[b].username && t[a].id != t[b].id {
      if b == |targets| {
        assert t[a] == targets[a];
      } else {
        assert t[a] == targets[a] && t[b] == targets[b];
      }
    }
  }

  /** `User.objects.get(email = ...)`. `email = None` matches no target user, whose
      addresses are never null. */
  datatype Lookup = NotFound | Found(id: int) | Several

  predicate HasEmail(targets: seq<TargetUser>, e: string, t: int) {
    0 <= t < |targets| && targets[t].email == e
  }

  /** Row `t` is the only target user with address `e`. */
  predicate OnlyWithEmail(targets: seq<TargetUser>, e: string, t: int) {
    HasEmail(targets, e, t) && forall u :: 0 <= u < |targets| && HasEmail(targets, e, u) ==> u == t
  }

  function LookupByEmail(targets: seq<TargetUser>, email: Option<string>): (r: Lookup)
    ensures r.NotFound? <==> email.None? || forall t :: 0 <= t < |targets| ==> targets[t].email != email.value
    ensures r.Found? ==> email.Some? && exists t :: OnlyWithEmail(targets, email.value, t) && targets[t].id == r.id
    ensures r.Several? <==> email.Some? && exists a, b :: a < b && HasEmail(targets, email.value, a) && HasEmail(targets, email.value, b)
  {
    match email
    case None => NotFound
    case Some(e) =>
      var ts := Indices(targets, (t: TargetUser) => t.email == e);
      if |ts| == 0 then NotFound
      else if |ts| > 1 then
        assert HasEmail(targets, e, ts[0]) && HasEmail(targets, e, ts[1]);
        Several
      else
        assert OnlyWithEmail(targets, e, ts[0]);
        Found(targets[ts[0]].id)
  }

  /** `zd_user.askbot_user_id = ab_user.id; zd_user.save()`. */
  function Bridge(st: IdState, i: nat, id: int): IdState
    requires i < |st.staged|
  {
    st.(staged := st.staged[i := st.staged[i].(askbotUserId := Some(id))])
  }

  /** What one loop iteration left, and the exception that ended the pass, if any.
      Every earlier write stays committed. */
  datatype StepOutcome = StepOutcome(state: IdState, failure: Option<ImportError>)

  /** The branch for a staged user whose email is not `''`: bridge to the one target
      user with that (unmasked) email, or create a user and count it. */
  function ImportByEmail(st: IdState, i: nat, saveFails: TargetUser -> bool): (r: StepOutcome)
    requires i < |st.staged|
    ensures r.failure.Some? ==> r.state == st
    ensures r.state.added == st.added + |r.state.targets| - |st.targets|
  {
    var zd := st.staged[i];
    match LookupByEmail(st.targets, zd.email)
    case Several => StepOutcome(st, Some(SeveralWithEmail(zd.email.value)))
    case Found(id) => StepOutcome(Bridge(st, i, id), None)
    case NotFound =>
      match CreateAskbotUser(st.targets, zd, saveFails)
      case Err(e) => StepOutcome(st, Some(e))
      case Ok(u) => StepOutcome(Bridge(st.(targets := st.targets + [u], added := st.added + 1), i, u.id), None)
  }

  /** The email branch adds at most the user it creates, and bridges to a user that
      exists. */
  lemma ImportByEmailCreates(st: IdState, i: nat, saveFails: TargetUser -> bool)
    requires i < |st.staged|
    ensures var r := ImportByEmail(st, i, saveFails);
      && (r.state.targets == st.targets || r.state.targets == st.targets + [NewTargetUser(st.targets, st.staged[i])])
      && (TargetsValid(st.targets) ==> TargetsValid(r.state.targets))
      && (r.failure.None? ==> exists t :: 0 <= t < |r.state.targets| && r.state.targets[t].id == r.state.staged[i].askbotUserId.value)
  {
    var zd := st.staged[i];
    var r := ImportByEmail(st, i, saveFails);
    match LookupByEmail(st.targets, zd.email)
    case Several =>
    case Found(id) =>
      var t :| OnlyWithEmail(st.targets, zd.email.value, t) && st.targets[t].id == id;
      assert r.state.targets[t].id == r.state.staged[i].askbotUserId.value;
    case NotFound =>
      if r.failure.None? {
        var u := NewTargetUser(st.targets, zd);
        assert r.state.targets == st.targets + [u];
        assert r.state.targets[|st.targets|] == u;
        if TargetsValid(st.targets) {
          AppendCreatedValid(st.targets, zd);
        }
      }
  }

  /** Appending the user created for an empty address keeps the table valid and
      the new user exists for the bridge. */
  lemma ImportEmptyCreates(st: IdState, i: nat, saveFails: TargetUser -> bool)
    requires i < |st.staged|
    ensures var u := NewTargetUser(st.targets, st.staged[i]);
      && (TargetsValid(st.targets) ==> TargetsValid(st.targets + [u]))
      && (st.targets + [u])[|st.targets|] == u
  {
    if TargetsValid(st.targets) {
      AppendCreatedValid(st.targets, st.staged[i]);
    }
  }

  /** One iteration as written: for an email of `''` the user is created and saved,
      then `ab_user in None` raises `TypeError`, which ends the pass. */
  function ImportUserAsWritten(st: IdState, i: nat, saveFails: TargetUser -> bool): (r: StepOutcome)
    requires i < |st.staged|
    ensures st.staged[i].email == Some("") ==> r.failure.Some? && r.state.staged == st.staged
  {
    if st.staged[i].email == Some("") then
      match CreateAskbotUser(st.targets, st.staged[i], saveFails)
      case Err(e) => StepOutcome(st, Some(e))
      case Ok(u) => StepOutcome(st.(targets := st.targets + [u]), Some(NoneNotIterable))
    else ImportByEmail(st, i, saveFails)
  }

  /** One iteration as intended (`ab_user is None`): for an email of `''` the created
      user is bridged, without counting it as added. */
  function ImportUser(st: IdState, i: nat, saveFails: TargetUser -> bool): (r: StepOutcome)
    requires i < |st.staged|
    ensures |r.state.staged| == |st.staged|
    ensures |st.targets| <= |r.state.targets| <= |st.targets| + 1
    ensures r.state.targets[..|st.targets|] == st.targets
    ensures TargetsValid(st.targets) ==> TargetsValid(r.state.targets)
    ensures forall j :: 0 <= j < |st.staged| && j != i ==> r.state.staged[j] == st.staged[j]
    ensures r.state.staged[i].(askbotUserId := st.staged[i].askbotUserId) == st.staged[i]
    ensures r.failure.Some? ==> r.state == st
    ensures r.failure.None? ==> (r.state.staged[i].askbotUserId.Some?
              && exists t :: 0 <= t < |r.state.targets| && r.state.targets[t].id == r.state.staged[i].askbotUserId.value)
    ensures r.state.added == st.added + (if st.staged[i].email != Some("") && |r.state.targets| > |st.targets| then 1 else 0)
  {
    var zd := st.staged[i];
    if zd.email == Some("") then
      match CreateAskbotUser(st.targets, zd, saveFails)
      case Err(e) => StepOutcome(st, Some(e))
      case Ok(u) =>
        ImportEmptyCreates(st, i, saveFails);
        StepOutcome(Bridge(st.(targets := st.targets + [u]), i, u.id), None)
    else
      ImportByEmailCreates(st, i, saveFails);
      ImportByEmail(st, i, saveFails)
  }

  /** The loop over the staged users from row `i` on, stopping at the first exception. */
  function ImportUsersFrom(st: IdState, i: nat, saveFails: TargetUser -> bool): (r: StepOutcome)
    requires i <= |st.staged|
    ensures |r.state.staged| == |st.staged|
    ensures |st.targets| <= |r.state.targets| && r.state.targets[..|st.targets|] == st.targets
    ensures TargetsValid(st.targets) ==> TargetsValid(r.state.targets)
    ensures forall j :: 0 <= j < i ==> r.state.staged[j] == st.staged[j]
    ensures forall j :: 0 <= j < |st.staged| ==>
              r.state.staged[j].(askbotUserId := st.staged[j].askbotUserId) == st.staged[j]
    ensures r.failure.None? ==> forall j :: i <= j < |st.staged| ==>
              r.state.staged[j].askbotUserId.Some?
              && exists t :: 0 <= t < |r.state.targets| && r.state.targets[t].id == r.state.staged[j].askbotUserId.value
    ensures st.added <= r.state.added <= st.added + (|r.state.targets| - |st.targets|)
    decreases |st.staged| - i
  {
    if i == |st.staged| then StepOutcome(st, None)
    else
      var step := ImportUser(st, i, saveFails);
      if step.failure.Some? then step
      else
        var r := ImportUsersFrom(step.state, i + 1, saveFails);
        var id := step.state.staged[i].askbotUserId.value;
        var t :| 0 <= t < |step.state.targets| && step.state.targets[t].id == id;
        assert r.state.targets[t] == step.state.targets[t];
        assert r.state.targets[..|st.targets|] == st.targets by {
          assert r.state.targets[..|st.targets|] == r.state.targets[..|step.state.targets|][..|st.targets|];
        }
        r
  }

  /** `import_users`: every staged user, in table order. When nothing raised, every
      staged user is bridged to an existing target user; only the bridges change in
      the staging table; target users are only added; usernames and ids stay unique;
      `added_users` counts at most the users created. */
  function ImportUsers(st: IdState, saveFails: TargetUser -> bool): (r: StepOutcome)
    ensures |r.state.staged| == |st.staged|
    ensures |st.targets| <= |r.state.targets| && r.state.targets[..|st.targets|] == st.targets
    ensures TargetsValid(st.targets) ==> TargetsValid(r.state.targets)
    ensures forall j :: 0 <= j < |st.staged| ==>
              r.state.staged[j].(askbotUserId := st.staged[j].askbotUserId) == st.staged[j]
    ensures r.failure.None? ==> forall j :: 0 <= j < |st.staged| ==>
              r.state.staged[j].askbotUserId.Some?
              && exists t :: 0 <= t < |r.state.targets| && r.state.targets[t].id == r.state.staged[j].askbotUserId.value
    ensures st.added <= r.state.added <= st.added + (|r.state.targets| - |st.targets|)
  {
    ImportUsersFrom(st, 0, saveFails)
  }

  /** After a pass that raised nothing, over a valid target table, every staged user
      whose Zendesk id is unique resolves as an author. */
  lemma ImportUsersMakesAuthors(st: IdState, saveFails: TargetUser -> bool, sourceId: int, i: int)
    requires TargetsValid(st.targets)
    requires ImportUsers(st, saveFails).failure.None?
    requires OnlyStagedUser(ImportUsers(st, saveFails).state.staged, sourceId, i)
    ensures ResolveAuthor(ImportUsers(st, saveFails).state.staged, ImportUsers(st, saveFails).state.targets, sourceId).Ok?
  {
    var r := ImportUsers(st, saveFails).state;
    var id := r.staged[i].askbotUserId.value;
    var t :| 0 <= t < |r.targets| && r.targets[t].id == id;
    forall u | 0 <= u < |r.targets| && r.targets[u].id == id ensures u == t {
    }
    assert OnlyTargetUser(r.targets, id);
  }

  // ---------------------------------------------------------------------------
  // Properties of the pass
  // ---------------------------------------------------------------------------

  /** The `ab_user in None` defect: for a staged user whose email is `''`, the code as
      written saves a new target user and then aborts the whole pass without bridging
      it, while the intended step bridges it and carries on. */
  lemma NoneMembershipAborts(st: IdState, i: nat, saveFails: TargetUser -> bool)
    requires i < |st.staged| && st.staged[i].email == Some("")
    requires !saveFails(NewTargetUser(st.targets, st.staged[i]))
    ensures var w := ImportUserAsWritten(st, i, saveFails);
      && w.failure == Some(NoneNotIterable)
      && w.state.targets == st.targets + [NewTargetUser(st.targets, st.staged[i])]
      && w.state.staged == st.staged
    ensures var c := ImportUser(st, i, saveFails);
      && c.failure.None?
      && c.state.targets == st.targets + [NewTargetUser(st.targets, st.staged[i])]
      && c.state.staged[i].askbotUserId == Some(NewTargetUser(st.targets, st.staged[i]).id)
  {
  }

  /** Apart from an email of `''`, the two versions agree. */
  lemma AsWrittenAgreesOtherwise(st: IdState, i: nat, saveFails: TargetUser -> bool)
    requires i < |st.staged| && st.staged[i].email != Some("")
    ensures ImportUserAsWritten(st, i, saveFails) == ImportUser(st, i, saveFails)
  {
  }

  /** Lookups use the unmasked address while created users carry the masked one: two
      staged users with the same ordinary address (or one staged user imported
      twice) each get a new target user, with distinct usernames. */
  lemma MaskedEmailDuplicates(st: IdState, i: nat, j: nat, e: string, saveFails: TargetUser -> bool)
    requires i < |st.staged| && j < |st.staged|
    requires st.staged[i].email == Some(e) && st.staged[j].email == Some(e) && e != ""
    requires !EndsWith(e, KeptDomain) && !EndsWith(e, MaskDomain)
    requires forall t :: 0 <= t < |st.targets| ==> st.targets[t].email != e
    requires !saveFails(NewTargetUser(st.targets, st.staged[i]))
    requires var s1 := ImportUser(st, i, saveFails).state;
             !saveFails(NewTargetUser(s1.targets, s1.staged[j]))
    ensures var s1 := ImportUser(st, i, saveFails);
      var s2 := ImportUser(s1.state, j, saveFails);
      && s1.failure.None? && s2.failure.None?
      && |s2.state.targets| == |st.targets| + 2
      && s2.state.targets[|st.targets|].email == MaskEmail(e)
      && s2.state.targets[|st.targets| + 1].email == MaskEmail(e)
      && s2.state.targets[|st.targets|].username != s2.state.targets[|st.targets| + 1].username
      && s2.state.added == st.added + 2
  {
    var u := NewTargetUser(st.targets, st.staged[i]);
    UnknownEmailCreates(st, i, saveFails);
    var s1 := ImportUser(st, i, saveFails).state;
    assert s1.staged[j].email == Some(e);
    assert forall t :: 0 <= t < |s1.targets| ==> s1.targets[t].email != e by {
      MaskEmailChanges(e);
      assert s1.targets == st.targets + [u];
    }
    var u2 := NewTargetUser(s1.targets, s1.staged[j]);
    UnknownEmailCreates(s1, j, saveFails);
    assert s1.targets[|st.targets|] == u;
  }

  /** A staged user whose non-empty address exactly one target user has is bridged to
      that user; nothing is created or counted. */
  lemma ExistingEmailBridges(st: IdState, i: nat, e: string, t: nat, saveFails: TargetUser -> bool)
    requires i < |st.staged| && st.staged[i].email == Some(e) && e != ""
    requires OnlyWithEmail(st.targets, e, t)
    ensures ImportUser(st, i, saveFails) == StepOutcome(Bridge(st, i, st.targets[t].id), None)
  {
    assert LookupByEmail(st.targets, Some(e)) == Found(st.targets[t].id);
  }

  /** When several target users have the address, `get` raises and the pass ends with
      nothing changed by this row. */
  lemma SeveralEmailsAbort(st: IdState, i: nat, e: string, a: nat, b: nat, saveFails: TargetUser -> bool)
    requires i < |st.staged| && st.staged[i].email == Some(e) && e != ""
    requires a < b && HasEmail(st.targets, e, a) && HasEmail(st.targets, e, b)
    ensures ImportUser(st, i, saveFails) == StepOutcome(st, Some(SeveralWithEmail(e)))
  {
    assert LookupByEmail(st.targets, Some(e)) == Several;
  }

  /** A staged user without an address, or with a non-empty address no target user
      has, is created and counted; without an address the new user's email is `''`. */
  lemma UnknownEmailCreates(st: IdState, i: nat, saveFails: TargetUser -> bool)
    requires i < |st.staged| && st.staged[i].email != Some("")
    requires forall t :: 0 <= t < |st.targets| && st.staged[i].email.Some? ==> st.targets[t].email != st.staged[i].email.value
    requires !saveFails(NewTargetUser(st.targets, st.staged[i]))
    ensures var u := NewTargetUser(st.targets, st.staged[i]);
      var r := ImportUser(st, i, saveFails);
      && r.failure.None?
      && r.state.targets == st.targets + [u]
      && r.state.added == st.added + 1
      && r.state.staged == st.staged[i := st.staged[i].(askbotUserId := Some(u.id))]
      && (st.staged[i].email.None? ==> u.email == "")
  {
    var u := NewTargetUser(st.targets, st.staged[i]);
    assert LookupByEmail(st.targets, st.staged[i].email) == NotFound;
    assert CreateAskbotUser(st.targets, st.staged[i], saveFails) == Ok(u);
  }

  /** Addresses at the kept domain are stored unmasked, so the second staged user
      with the same such address is bridged to the user the first one created. */
  lemma KeptEmailMerges(st: IdState, i: nat, j: nat, e: string, saveFails: TargetUser -> bool)
    requires i < |st.staged| && j < |st.staged|
    requires st.staged[i].email == Some(e) && st.staged[j].email == Some(e)
    requires EndsWith(e, KeptDomain)
    requires forall t :: 0 <= t < |st.targets| ==> st.targets[t].email != e
    requires !saveFails(NewTargetUser(st.targets, st.staged[i]))
    ensures var s1 := ImportUser(st, i, saveFails);
      var s2 := ImportUser(s1.state, j, saveFails);
      && s2.failure.None?
      && s2.state.targets == s1.state.targets
      && s2.state.staged[j].askbotUserId == s1.state.staged[i].askbotUserId
      && s2.state.added == st.added + 1
  {
    var s1 := ImportUser(st, i, saveFails).state;
    var u := NewTargetUser(st.targets, st.staged[i]);
    assert s1.targets == st.targets + [u];
    assert u.email == e;
    assert e != "" by {
      assert |KeptDomain| > 0;
    }
    assert s1.staged[j].email == Some(e);
    assert forall t :: 0 <= t < |st.targets| ==> s1.targets[t] == st.targets[t];
    assert OnlyWithEmail(s1.targets, e, |st.targets|);
    assert LookupByEmail(s1.targets, Some(e)) == Found(u.id);
  }
}

=== FILE: schema.dfy ===
/** The staging tables' field descriptors and the field lists the four readers pass to
    the extractor. A descriptor maps a model field name to its declared `max_length`;
    `None` is a field without one (text, integer, boolean and datetime fields, and the
    implicit `id`). The default lengths of `EmailField` and `URLField` come from the
    framework and are parameters here. */
module Schema {
  import opened Basics
  import opened Text

  /** Model field name to declared `max_length`. */
  type FieldTable = map<string, Option<nat>>

  /** A pair (exported field name, model field name) copied without truncation. */
  type ExtraMapping = (string, string)

  const Unbounded: Option<nat> := None

  const EntryTable: FieldTable := map[
    "id" := Unbounded, "body" := Unbounded, "created_at" := Unbounded,
    "tags" := Some(255), "flag_type_id" := Unbounded, "forum_id" := Unbounded,
    "hits" := Unbounded, "entry_id" := Unbounded, "is_highlighted" := Unbounded,
    "is_locked" := Unbounded, "is_pinned" := Unbounded, "is_public" := Unbounded,
    "organization_id" := Unbounded, "position" := Unbounded, "posts_count" := Unbounded,
    "submitter_id" := Unbounded, "title" := Some(300), "updated_at" := Unbounded,
    "votes_count" := Unbounded, "ab_id" := Unbounded]

  const PostTable: FieldTable := map[
    "id" := Unbounded, "body" := Unbounded, "created_at" := Unbounded,
    "updated_at" := Unbounded, "entry_id" := Unbounded, "post_id" := Unbounded,
    "forum_id" := Unbounded, "user_id" := Unbounded, "is_informative" := Unbounded,
    "ab_id" := Unbounded]

  function UserTable(emailMax: nat, urlMax: nat): FieldTable {
    map[
      "id" := Unbounded, "user_id" := Unbounded, "askbot_user_id" := Unbounded,
      "created_at" := Unbounded, "is_active" := Unbounded, "last_login" := Unbounded,
      "name" := Some(255), "openid_url" := Some(urlMax), "organization_id" := Unbounded,
      "phone" := Some(32), "restriction_id" := Unbounded, "roles" := Unbounded,
      "time_zone" := Some(255), "updated_at" := Unbounded,
      "uses_12_hour_clock" := Unbounded, "email" := Some(emailMax),
      "is_verified" := Unbounded, "photo_url" := Some(urlMax)]
  }

  const ForumTable: FieldTable := map[
    "id" := Unbounded, "description" := Some(255), "display_type_id" := Unbounded,
    "entries_count" := Unbounded, "forum_id" := Unbounded, "is_locked" := Unbounded,
    "name" := Some(255), "organization_id" := Unbounded, "position" := Unbounded,
    "updated_at" := Unbounded, "translation_locale_id" := Unbounded,
    "use_for_suggestions" := Unbounded, "visibility_restriction_id" := Unbounded,
    "is_public" := Unbounded]

  const UserFields: seq<string> := [
    "created-at", "is-active", "last-login", "name",
    "openid-url", "organization-id", "phone", "restriction-id",
    "roles", "time-zone", "updated-at", "uses-12-hour-clock",
    "email", "is-verified", "photo-url"]
  const UserExtras: seq<ExtraMapping> := [("id", "user_id")]

  const EntryFields: seq<string> := [
    "body", "created-at", "tags", "flag-type-id", "forum-id",
    "hits", "entry-id", "is-highlighted", "is-locked", "is-pinned",
    "is-public", "organization-id", "position", "posts-count",
    "submitter-id", "title", "updated-at", "votes-count"]
  const EntryExtras: seq<ExtraMapping> := [("id", "entry_id")]

  const PostFields: seq<string> := [
    "body", "created-at", "updated-at", "entry-id",
    "forum-id", "user-id", "is-informative"]
  const PostExtras: seq<ExtraMapping> := [("id", "post_id")]

  const ForumFields: seq<string> := [
    "description", "display-type-id",
    "entries-count", "is-locked",
    "name", "organization-id",
    "position", "updated-at",
    "translation-locale-id",
    "use-for-suggestions",
    "visibility-restriction-id",
    "is-public"]
  const ForumExtras: seq<ExtraMapping> := [("id", "forum_id")]

  /** The model field a listed exported field is stored under. */
  function ModelFieldName(f: string): (r: string)
    ensures |r| == |f| && '-' !in r
    ensures forall i :: 0 <= i < |f| ==> r[i] == if f[i] == '-' then '_' else f[i]
    decreases |f|
  {
    if |f| == 0 then [] else [if f[0] == '-' then '_' else f[0]] + ModelFieldName(f[1..])
  }

  /** The renaming is Python's `field.replace('-', '_')`. */
  lemma ModelFieldNameIsReplace(f: string)
    ensures ModelFieldName(f) == ReplaceChar(f, '-', '_')
  {
  }

  /** An exported name without `_` can be read back from its model field name. */
  lemma ModelFieldNameRoundTrip(f: string)
    requires '_' !in f
    ensures ReplaceChar(ModelFieldName(f), '_', '-') == f
  {
  }
}

=== FILE: staging.dfy ===
/** The staging tables the extractor fills (`User`, `Forum`, `Entry`, `Post`), the
    target site's user table, and the helpers the staged models offer to the import
    pass: author resolution through the `askbot_user_id` bridge, the memoised body
    text, and the forum-name tag with its module-wide cache. */
module Staging {
  import opened Basics
  import opened Text

  /** A staged Zendesk user. `askbotUserId` is the bridge to the target user table,
      empty until the user has been imported. */
  datatype StagedUser = StagedUser(
    userId: int,
    askbotUserId: Option<int>,
    name: string,
    email: Option<string>,
    isVerified: bool,
    isActive: bool,
    createdAt: int,
    openidUrl: Option<string>)

  /** A staged forum; the fields other than `forumId` and `name` only feed the
      visibility predicate. */
  datatype StagedForum = StagedForum(
    forumId: int,
    name: string,
    description: Option<string>,
    isLocked: bool,
    isPublic: bool,
    organizationId: Option<int>,
    visibilityRestrictionId: int)

  /** A staged top-level topic; `abId` is the id of the question it became. */
  datatype StagedEntry = StagedEntry(
    entryId: int,
    forumId: int,
    submitterId: int,
    title: string,
    body: string,
    tags: Option<string>,
    hits: int,
    isLocked: bool,
    createdAt: int,
    abId: Option<int>)

  /** A staged follow-up post; `abId` is the id of the answer it became. */
  datatype StagedPost = StagedPost(
    postId: int,
    entryId: int,
    userId: int,
    body: string,
    isInformative: bool,
    createdAt: int,
    abId: Option<int>)

  /** A user of the target site. */
  datatype TargetUser = TargetUser(
    id: int,
    username: string,
    email: string,
    emailIsValid: bool,
    dateJoined: int,
    lastSeen: int,
    isActive: bool)

  // ---------------------------------------------------------------------------
  // Author resolution (`Entry.get_author`, `Post.get_author`)
  // ---------------------------------------------------------------------------

  /** Why `get_author` raised: `.get()` found no row or several. A staged user whose
      bridge is empty is looked up as `id = None`, which finds nothing. */
  datatype AuthorError = NoStagedUser | ManyStagedUsers | NotBridged | NoTargetUser | ManyTargetUsers

  /** Row `i` is the only staged user with that Zendesk id. */
  predicate OnlyStagedUser(users: seq<StagedUser>, sourceId: int, i: int) {
    && 0 <= i < |users| && users[i].userId == sourceId
    && forall j :: 0 <= j < |users| && users[j].userId == sourceId ==> j == i
  }

  /** Exactly one target user has that id. */
  predicate OnlyTargetUser(targets: seq<TargetUser>, id: int) {
    exists t :: 0 <= t < |targets| && targets[t].id == id
      && forall u :: 0 <= u < |targets| && targets[u].id == id ==> u == t
  }

  /** `User.objects.get(user_id = ...)` followed by `DjangoUser.objects.get(id =
      zendesk_user.askbot_user_id)`. It succeeds exactly when one staged user has the
      Zendesk id, that user is bridged, and one target user has the bridged id; the
      result is that target id. */
  function ResolveAuthor(users: seq<StagedUser>, targets: seq<TargetUser>, sourceId: int): (r: Result<int, AuthorError>)
    ensures r.Ok? <==> exists i :: OnlyStagedUser(users, sourceId, i)
                         && users[i].askbotUserId.Some?
                         && OnlyTargetUser(targets, users[i].askbotUserId.value)
    ensures r.Ok? ==> exists i :: OnlyStagedUser(users, sourceId, i) && users[i].askbotUserId == Some(r.value)
    ensures (forall i :: 0 <= i < |users| ==> users[i].userId != sourceId) <==> r == Err(NoStagedUser)
  {
    var su := Indices(users, (u: StagedUser) => u.userId == sourceId);
    if |su| == 0 then Err(NoStagedUser)
    else if |su| > 1 then
      assert forall i :: !OnlyStagedUser(users, sourceId, i) by {
        forall i | 0 <= i < |users| ensures !OnlyStagedUser(users, sourceId, i) {
          assert su[0] != su[1];
          assert users[su[0]].userId == sourceId && users[su[1]].userId == sourceId;
        }
      }
      assert users[su[0]].userId == sourceId;
      Err(ManyStagedUsers)
    else
      var i := su[0];
      assert OnlyStagedUser(users, sourceId, i);
      match users[i].askbotUserId
      case None => Err(NotBridged)
      case Some(id) =>
        var tu := Indices(targets, (t: TargetUser) => t.id == id);
        if |tu| == 0 then Err(NoTargetUser)
        else if |tu| > 1 then
          assert !OnlyTargetUser(targets, id) by {
            assert tu[0] != tu[1];
          }
          Err(ManyTargetUsers)
        else
          assert OnlyTargetUser(targets, id) by {
            assert forall u :: 0 <= u < |targets| && targets[u].id == id ==> u == tu[0];
          }
          Ok(id)
  }

  /** Resolution reads only the staged user's bridge: re-bridging other staged users
      or adding target users with other ids does not change an author. */
  lemma ResolveAuthorAfterNewTarget(users: seq<StagedUser>, targets: seq<TargetUser>, t: TargetUser, sourceId: int)
    requires ResolveAuthor(users, targets, sourceId).Ok?
    requires t.id != ResolveAuthor(users, targets, sourceId).value
    ensures ResolveAuthor(users, targets + [t], sourceId) == ResolveAuthor(users, targets, sourceId)
  {
    var id := ResolveAuthor(users, targets, sourceId).value;
    var i :| OnlyStagedUser(users, sourceId, i) && users[i].askbotUserId == Some(id);
    var tt :| 0 <= tt < |targets| && targets[tt].id == id
      && forall u :: 0 <= u < |targets| && targets[u].id == id ==> u == tt;
    assert (targets + [t])[tt] == targets[tt];
    forall u | 0 <= u < |targets + [t]| && (targets + [t])[u].id == id ensures u == tt {
      if u < |targets| {
        assert (targets + [t])[u] == targets[u];
      }
    }
    assert OnlyTargetUser(targets + [t], id);
    var r' := ResolveAuthor(users, targets + [t], sourceId);
    if r'.Ok? {
      var i' :| OnlyStagedUser(users, sourceId, i') && users[i'].askbotUserId == Some(r'.value);
      assert i' == i;
    }
  }

  // ---------------------------------------------------------------------------
  // Body text (`get_body_text`)
  // ---------------------------------------------------------------------------

  /** The per-object `_body_text` attribute, and how many times `unescape` ran to
      fill it. */
  datatype BodyMemo = BodyMemo(cached: Option<string>, applications: nat)

  /** A model instance fresh from a query has no `_body_text`. */
  const FreshMemo: BodyMemo := BodyMemo(None, 0)

  /** `get_body_text`: the first call unescapes the body and keeps the result; a later
      call returns what was kept without unescaping again. */
  function GetBodyText(body: string, memo: BodyMemo, unescape: string -> string): (r: (string, BodyMemo))
    ensures r.1.cached == Some(r.0)
    ensures memo.cached.Some? ==> r.0 == memo.cached.value && r.1 == memo
    ensures memo.cached.None? ==> r.0 == unescape(body) && r.1.applications == memo.applications + 1
  {
    match memo.cached
    case Some(text) => (text, memo)
    case None =>
      var text := unescape(body);
      (text, BodyMemo(Some(text), memo.applications + 1))
  }

  /** The texts `n` successive calls return, and the memo they leave. */
  function BodyTexts(body: string, memo: BodyMemo, unescape: string -> string, n: nat): (r: (seq<string>, BodyMemo))
    ensures |r.0| == n
    decreases n
  {
    if n == 0 then ([], memo)
    else
      var (text, memo') := GetBodyText(body, memo, unescape);
      var (rest, last) := BodyTexts(body, memo', unescape, n - 1);
      ([text] + rest, last)
  }

  /** However many times a fresh object is asked, every call returns the first
      unescaped text and `unescape` has run exactly once. */
  lemma {:induction false} BodyTextMemoised(body: string, unescape: string -> string, n: nat)
    requires n >= 1
    ensures var (texts, memo) := BodyTexts(body, FreshMemo, unescape, n);
      && (forall k :: 0 <= k < n ==> texts[k] == unescape(body))
      && memo == BodyMemo(Some(unescape(body)), 1)
  {
    var filled := BodyMemo(Some(unescape(body)), 1);
    BodyTextsFilled(body, filled, unescape, n - 1);
    var (rest, last) := BodyTexts(body, filled, unescape, n - 1);
    assert BodyTexts(body, FreshMemo, unescape, n) == ([unescape(body)] + rest, last);
  }

  lemma {:induction false} BodyTextsFilled(body: string, memo: BodyMemo, unescape: string -> string, n: nat)
    requires memo.cached.Some?
    ensures var (texts, last) := BodyTexts(body, memo, unescape, n);
      && (forall k :: 0 <= k < n ==> texts[k] == memo.cached.value)
      && last == memo
    decreases n
  {
    if n > 0 {
      BodyTextsFilled(body, memo, unescape, n - 1);
    }
  }

  // ---------------------------------------------------------------------------
  // Tags (`get_tag_names` and the module-wide `TAGS` cache)
  // ---------------------------------------------------------------------------

  /** `TAGS`: forum id to the tag derived from the forum's name. */
  type TagCache = map<int, string>

  /** `re.sub(r'\s+', '-', forum.name.lower())`: the forum name lower-cased, every
      maximal whitespace run replaced by one `-`. */
  function ForumTag(name: string): (r: string)
    ensures NoSpace(r)
    ensures |r| <= |name|
  {
    CollapseSpaces(Lower(name))
  }

  /** A forum name that is one lower-case word is its own tag. */
  lemma ForumTagOfWord(name: string)
    requires NoSpace(name)
    requires forall i :: 0 <= i < |name| ==> !('A' <= name[i] <= 'Z')
    ensures ForumTag(name) == name
  {
    assert Lower(name) == name;
    CollapseSpacesIdentity(name);
  }

  /** The forum tag, followed by the entry's own tags when it has any. */
  function WithEntryTags(tag: string, tags: Option<string>): string {
    if tags.Some? && |tags.value| > 0 then tag + " " + tags.value else tag
  }

  /** The forum tag can be read back from the tag string: it is everything before the
      first space, and the entry's tags are everything after it. */
  lemma WithEntryTagsSplit(tag: string, tags: Option<string>)
    requires NoSpace(tag)
    ensures BeforeFirst(WithEntryTags(tag, tags), ' ') == tag
    ensures tags.Some? && |tags.value| > 0 ==> WithEntryTags(tag, tags)[|tag| + 1..] == tags.value
    ensures !(tags.Some? && |tags.value| > 0) ==> NoSpace(WithEntryTags(tag, tags))
  {
    assert ' ' !in tag by {
      assert IsSpace(' ');
    }
    if tags.Some? && |tags.value| > 0 {
      BeforeFirstSplit(tag, ' ', tags.value);
      assert tag + " " + tags.value == tag + [' '] + tags.value;
    } else {
      BeforeFirstAbsent(tag, ' ');
    }
  }

  datatype TagError = NoForum | ManyForums

  /** Exactly one staged forum has that id. */
  predicate OnlyForum(forums: seq<StagedForum>, forumId: int, i: int) {
    && 0 <= i < |forums| && forums[i].forumId == forumId
    && forall j :: 0 <= j < |forums| && forums[j].forumId == forumId ==> j == i
  }

  /** `get_tag_names` for an entry of forum `forumId` with tags `tags`, given the cache
      as it stands; the result carries the cache as it is left. A hit consults no
      forum; a miss looks the forum up (which raises unless exactly one staged forum
      has the id) and stores the tag. No cached tag is ever replaced. */
  function GetTagNames(cache: TagCache, forums: seq<StagedForum>, forumId: int, tags: Option<string>): (r: Result<(string, TagCache), TagError>)
    ensures r.Ok? ==> forumId in r.value.1 && r.value.0 == WithEntryTags(r.value.1[forumId], tags)
    ensures r.Ok? ==> r.value.1.Keys == cache.Keys + {forumId}
    ensures r.Ok? ==> forall k :: k in cache ==> r.value.1[k] == cache[k]
    ensures forumId in cache ==> r.Ok? && r.value.1 == cache
    ensures forumId !in cache ==> (r.Ok? <==> exists i :: OnlyForum(forums, forumId, i))
    ensures forumId !in cache && r.Ok? ==>
              exists i :: OnlyForum(forums, forumId, i) && r.value.1[forumId] == ForumTag(forums[i].name)
  {
    if forumId in cache then Ok((WithEntryTags(cache[forumId], tags), cache))
    else
      var fs := Indices(forums, (f: StagedForum) => f.forumId == forumId);
      if |fs| == 0 then Err(NoForum)
      else if |fs| > 1 then
        assert forall i :: !OnlyForum(forums, forumId, i) by {
          forall i | 0 <= i < |forums| ensures !OnlyForum(forums, forumId, i) {
            assert fs[0] != fs[1];
            assert forums[fs[0]].forumId == forumId && forums[fs[1]].forumId == forumId;
          }
        }
        Err(ManyForums)
      else
        assert OnlyForum(forums, forumId, fs[0]);
        var tag := ForumTag(forums[fs[0]].name);
        Ok((WithEntryTags(tag, tags), cache[forumId := tag]))
  }

  /** A cache hit answers without the forum table: any two forum tables give the same
      result. */
  lemma GetTagNamesHit(cache: TagCache, forums: seq<StagedForum>, others: seq<StagedForum>, forumId: int, tags: Option<string>)
    requires forumId in cache
    ensures GetTagNames(cache, forums, forumId, tags) == GetTagNames(cache, others, forumId, tags)
  {
  }

  /** Every cached tag is the tag of the one forum with that id. */
  ghost predicate CacheSound(cache: TagCache, forums: seq<StagedForum>) {
    forall k :: k in cache ==> exists i :: OnlyForum(forums, k, i) && cache[k] == ForumTag(forums[i].name)
  }

  /** The cache stays sound, and a sound cache is invisible: the tag string is the one
      computed from the forum table with an empty cache. */
  lemma GetTagNamesSound(cache: TagCache, forums: seq<StagedForum>, forumId: int, tags: Option<string>)
    requires CacheSound(cache, forums)
    ensures var r := GetTagNames(cache, forums, forumId, tags);
      && (r.Ok? ==> CacheSound(r.value.1, forums))
      && (r.Ok? <==> GetTagNames(map[], forums, forumId, tags).Ok?)
      && (r.Ok? ==> r.value.0 == GetTagNames(map[], forums, forumId, tags).value.0)
  {
    var r := GetTagNames(cache, forums, forumId, tags);
    var r0 := GetTagNames(map[], forums, forumId, tags);
    if forumId in cache {
      var i :| OnlyForum(forums, forumId, i) && cache[forumId] == ForumTag(forums[i].name);
      var i0 :| OnlyForum(forums, forumId, i0) && r0.value.1[forumId] == ForumTag(forums[i0].name);
      assert i0 == i;
    } else if r.Ok? {
      var i :| OnlyForum(forums, forumId, i) && r.value.1[forumId] == ForumTag(forums[i].name);
      var i0 :| OnlyForum(forums, forumId, i0) && r0.value.1[forumId] == ForumTag(forums[i0].name);
      assert i0 == i;
      forall k | k in r.value.1
        ensures exists j :: OnlyForum(forums, k, j) && r.value.1[k] == ForumTag(forums[j].name)
      {
        if k == forumId {
          assert OnlyForum(forums, k, i);
        }
      }
    }
  }

  /** Soundness of the cache as an invariant of every call. */
  lemma GetTagNamesKeepsSound(cache: TagCache, forums: seq<StagedForum>, forumId: int, tags: Option<string>)
    ensures var r := GetTagNames(cache, forums, forumId, tags);
      CacheSound(cache, forums) && r.Ok? ==> CacheSound(r.value.1, forums)
  {
    if CacheSound(cache, forums) {
      GetTagNamesSound(cache, forums, forumId, tags);
    }
  }
}

=== FILE: text.dfy ===
/** String helpers with Python's meaning: `str(n)`, `int(s)`, `s.lower()`,
    `s.replace(a, b)`, `s.endswith(x)`, `s.split(c)[0]` and `re.sub(r'\s+', '-', s)`.
    Only ASCII letters, digits and whitespace are given their Python meaning. */
module Text {
  import opened Basics

  predicate IsDigit(c: char) {
    '0' <= c <= '9'
  }

  function DigitValue(c: char): nat
    requires IsDigit(c)
  {
    (c as int) - ('0' as int)
  }

  function DigitChar(d: nat): char
    requires d < 10
  {
    (('0' as int) + d) as char
  }

  /** The characters `\s` matches in a Python 2 pattern compiled without the UNICODE flag. */
  predicate IsSpace(c: char) {
    c == ' ' || c == '\t' || c == '\n' || c == '\r' || c == '\U{000B}' || c == '\U{000C}'
  }

  predicate AllDigits(s: string) {
    forall i :: 0 <= i < |s| ==> IsDigit(s[i])
  }

  predicate NoSpace(s: string) {
    forall i :: 0 <= i < |s| ==> !IsSpace(s[i])
  }

  /** Value of a non-empty or empty run of decimal digits, most significant digit first. */
  function DigitsValue(s: string): nat
    requires AllDigits(s)
    decreases |s|
  {
    if |s| == 0 then 0 else 10 * DigitsValue(s[..|s| - 1]) + DigitValue(s[|s| - 1])
  }

  /** Python's `str(n)` for a non-negative integer. */
  function NatToString(n: nat): (r: string)
    ensures 1 <= |r| && AllDigits(r)
    decreases n
  {
    if n < 10 then [DigitChar(n)] else NatToString(n / 10) + [DigitChar(n % 10)]
  }

  /** Reading back what `str(n)` printed gives `n`. */
  lemma {:induction false} NatToStringRoundTrip(n: nat)
    ensures DigitsValue(NatToString(n)) == n
    decreases n
  {
    if n >= 10 {
      NatToStringRoundTrip(n / 10);
      var s := NatToString(n);
      assert s[..|s| - 1] == NatToString(n / 10);
    }
  }

  /** Distinct numbers print as distinct strings. */
  lemma NatToStringInjective(a: nat, b: nat)
    requires NatToString(a) == NatToString(b)
    ensures a == b
  {
    NatToStringRoundTrip(a);
    NatToStringRoundTrip(b);
  }

  /** Python's `str(i)` for any integer. */
  function IntToString(i: int): string {
    if i < 0 then "-" + NatToString(-i) else NatToString(i)
  }

  function StripLeft(s: string): (r: string)
    ensures |r| <= |s| && r == s[|s| - |r|..]
    ensures |r| == 0 || !IsSpace(r[0])
    decreases |s|
  {
    if |s| > 0 && IsSpace(s[0]) then StripLeft(s[1..]) else s
  }

  function StripRight(s: string): (r: string)
    ensures |r| <= |s| && r == s[..|r|]
    ensures |r| == 0 || !IsSpace(r[|r| - 1])
    decreases |s|
  {
    if |s| > 0 && IsSpace(s[|s| - 1]) then StripRight(s[..|s| - 1]) else s
  }

  /** Python's `s.strip()` restricted to ASCII whitespace. */
  function Strip(s: string): string {
    StripRight(StripLeft(s))
  }

  /** `t` is an optional sign, whitespace after a sign, and then the digits from offset
      `j` to the end: the shape `int` accepts once surrounding whitespace is stripped. */
  predicate SignSpacesDigits(t: string, j: nat) {
    && j < |t| && AllDigits(t[j..])
    && (j == 0 || ((t[0] == '-' || t[0] == '+') && forall k :: 1 <= k < j ==> IsSpace(t[k])))
  }

  /** The number text of that shape spells: its digits, negated after a minus sign. */
  function SignedValue(t: string, j: nat): int
    requires SignSpacesDigits(t, j)
  {
    if t[0] == '-' then -(DigitsValue(t[j..]) as int) else DigitsValue(t[j..])
  }

  /** Python 2's `int(s)` in base 10: surrounding whitespace, an optional sign, which
      whitespace may follow, and at least one digit; anything else raises, modelled as
      `None`. A number is only read where the text has a digit, and a negative one only
      where it has a minus sign. */
  function ParseInteger(s: string): (r: Option<int>)
    ensures r.Some? ==> exists k :: 0 <= k < |s| && IsDigit(s[k])
    ensures r.Some? && r.value < 0 ==> exists k :: 0 <= k < |s| && s[k] == '-'
    ensures Unpadded(s) ==> r == ParseStripped(s)
  {
    StripUnpadded(s);
    var r := ParseStripped(Strip(s));
    if r.Some? then
      StripChar(s, 0);
      StripChar(s, |Strip(s)| - 1);
      r
    else r
  }

  /** `int(s)` accepts exactly the text that is, once stripped, an optional sign,
      whitespace after a sign and digits, and reads it as the number it spells: so
      `int('1.5')` and `int('1 5')` raise. */
  lemma ParseIntegerShape(s: string)
    ensures ParseInteger(s).Some? <==> exists j :: SignSpacesDigits(Strip(s), j)
    ensures forall j :: SignSpacesDigits(Strip(s), j) ==> ParseInteger(s) == Some(SignedValue(Strip(s), j))
  {
    StrippedShape(Strip(s));
  }

  /** `int` once the surrounding whitespace is gone: the text ends in a digit and a
      negative number starts with its sign. */
  function ParseStripped(t: string): (r: Option<int>)
    ensures r.Some? ==> |t| > 0 && IsDigit(t[|t| - 1])
    ensures r.Some? && r.value < 0 ==> t[0] == '-'
  {
    if |t| > 0 && (t[0] == '-' || t[0] == '+') then
      match ParseDigits(StripLeft(t[1..]))
      case Some(v) =>
        var n: int := v;
        Some(if t[0] == '-' then -n else n)
      case None => None
    else
      match ParseDigits(t)
      case Some(v) => Some(v)
      case None => None
  }

  /** A non-empty run of digits and its value. */
  function ParseDigits(d: string): (r: Option<nat>)
    ensures r.Some? ==> |d| > 0 && IsDigit(d[|d| - 1])
  {
    if |d| > 0 && AllDigits(d) then Some(DigitsValue(d)) else None
  }

  /** `int` accepts exactly the text of sign, whitespace, digits shape, and reads it as
      the number it spells. */
  lemma StrippedShape(t: string)
    ensures ParseStripped(t).Some? <==> exists j :: SignSpacesDigits(t, j)
    ensures forall j :: SignSpacesDigits(t, j) ==> ParseStripped(t) == Some(SignedValue(t, j))
  {
    if ParseStripped(t).Some? {
      StrippedAccepted(t);
    }
    forall j | SignSpacesDigits(t, j) ensures ParseStripped(t) == Some(SignedValue(t, j)) {
      StrippedReads(t, j);
    }
  }

  /** Accepted text has the shape, with the digits where the whitespace after the sign
      ends. */
  lemma StrippedAccepted(t: string)
    requires ParseStripped(t).Some?
    ensures exists j :: SignSpacesDigits(t, j)
  {
    if t[0] == '-' || t[0] == '+' {
      var j := |t| - |StripLeft(t[1..])|;
      StripLeftSpaces(t[1..]);
      assert t[j..] == StripLeft(t[1..]);
      assert forall k :: 1 <= k < j ==> t[k] == t[1..][k - 1];
      assert SignSpacesDigits(t, j);
    } else {
      assert t[0..] == t;
      assert SignSpacesDigits(t, 0);
    }
  }

  /** Text of the shape reads as the number it spells. */
  lemma StrippedReads(t: string, j: nat)
    requires SignSpacesDigits(t, j)
    ensures ParseStripped(t) == Some(SignedValue(t, j))
  {
    var v := DigitsValue(t[j..]);
    if j == 0 {
      assert t[0..] == t;
      UnsignedReads(t, v);
    } else {
      SignedReads(t, j, v);
    }
  }

  lemma UnsignedReads(t: string, v: nat)
    requires |t| > 0 && AllDigits(t) && DigitsValue(t) == v
    ensures ParseStripped(t) == Some(v as int)
  {
    UnsignedDigits(t);
    DigitsParse(t);
  }

  lemma SignedReads(t: string, j: nat, v: nat)
    requires SignSpacesDigits(t, j) && 0 < j && DigitsValue(t[j..]) == v
    ensures ParseStripped(t) == Some(if t[0] == '-' then -(v as int) else v as int)
  {
    assert IsDigit(t[j..][0]);
    StripFrom(t, 1, j);
    DigitsParse(t[j..]);
  }

  /** What `StripLeft` drops is whitespace. */
  lemma StripLeftSpaces(s: string)
    ensures forall k :: 0 <= k < |s| - |StripLeft(s)| ==> IsSpace(s[k])
  {
    forall k | 0 <= k < |s| - |StripLeft(s)| ensures IsSpace(s[k]) {
      StripLeftSpaceAt(s, k);
    }
  }

  lemma {:induction false} StripLeftSpaceAt(s: string, k: nat)
    requires k < |s| - |StripLeft(s)|
    ensures IsSpace(s[k])
    decreases k
  {
    if k > 0 {
      assert IsSpace(s[0]);
      StripLeftSpaceAt(s[1..], k - 1);
    }
  }

  /** Stripping keeps the characters in between at their offset. */
  lemma StripChar(s: string, j: int)
    requires 0 <= j < |Strip(s)|
    ensures |s| - |StripLeft(s)| + j < |s|
    ensures Strip(s)[j] == s[|s| - |StripLeft(s)| + j]
  {
  }

  /** Text that neither starts nor ends with whitespace. */
  predicate Unpadded(s: string) {
    |s| > 0 && !IsSpace(s[0]) && !IsSpace(s[|s| - 1])
  }

  /** Stripping leaves unpadded text as it is. */
  lemma StripUnpadded(s: string)
    ensures Unpadded(s) ==> Strip(s) == s
  {
  }

  /** Unsigned text is read as its digits. */
  lemma UnsignedDigits(t: string)
    requires |t| > 0 && t[0] != '-' && t[0] != '+'
    ensures ParseStripped(t) == ParseDigits(t)
  {
  }

  /** `t` is a minus sign, then whitespace up to offset `j`, then digits. */
  predicate MinusSpacesDigits(t: string, j: nat) {
    && 1 <= j < |t| && t[0] == '-'
    && (forall k :: 1 <= k < j ==> IsSpace(t[k]))
    && AllDigits(t[j..])
  }

  /** Whitespace after a minus sign is skipped, as Python 2 does: `int('- 5') == -5`.
      Text that is `-`, then whitespace, then digits of value `v` reads as `-v`. */
  lemma ParseNegative(t: string, j: nat, v: nat)
    requires MinusSpacesDigits(t, j) && DigitsValue(t[j..]) == v
    ensures ParseInteger(t) == Some(-(v as int))
  {
    NegativeStrippedAt(t, j, v);
    ParseViaStripped(t, -(v as int));
  }

  lemma NegativeStrippedAt(t: string, j: nat, v: nat)
    requires MinusSpacesDigits(t, j) && DigitsValue(t[j..]) == v
    ensures ParseStripped(t) == Some(-(v as int))
  {
    SignThenDigits(t, j);
    NegativeAt(t, t[j..], v);
  }

  /** Once past the sign and the whitespace after it, the digits are read. */
  lemma NegativeAt(t: string, d: string, v: nat)
    requires |t| > 0 && t[0] == '-' && StripLeft(t[1..]) == d
    requires |d| > 0 && AllDigits(d) && DigitsValue(d) == v
    ensures ParseStripped(t) == Some(-(v as int))
  {
    DigitsParse(d);
    SignedDigits(t, d, v);
  }

  lemma SignThenDigits(t: string, j: nat)
    requires MinusSpacesDigits(t, j)
    ensures StripLeft(t[1..]) == t[j..]
  {
    assert IsDigit(t[j..][0]);
    StripFrom(t, 1, j);
  }

  /** Leading whitespace is dropped up to the first other character. */
  lemma {:induction false} StripFrom(s: string, i: nat, j: nat)
    requires i <= j < |s| && !IsSpace(s[j])
    requires forall k :: i <= k < j ==> IsSpace(s[k])
    ensures StripLeft(s[i..]) == s[j..]
    decreases j - i
  {
    if i < j {
      assert s[i..][1..] == s[i + 1..];
      StripFrom(s, i + 1, j);
    }
  }

  lemma DigitsParse(p: string)
    requires |p| > 0 && AllDigits(p)
    ensures ParseDigits(p) == Some(DigitsValue(p))
  {
  }

  /** A sign followed by digits reads as the signed value of the digits. */
  lemma SignedDigits(t: string, d: string, v: nat)
    requires |t| > 0 && t[0] == '-'
    requires StripLeft(t[1..]) == d && ParseDigits(d) == Some(v)
    ensures ParseStripped(t) == Some(-(v as int))
  {
  }

  /** `int(str(i)) == i`: parsing inverts printing. */
  lemma ParseIntegerRoundTrip(i: int)
    ensures ParseInteger(IntToString(i)) == Some(i)
  {
    StrippedRoundTrip(i);
    ParseViaStripped(IntToString(i), i);
  }

  /** Text that starts with no whitespace and reads as a number once stripped reads as
      that number. */
  lemma ParseViaStripped(t: string, v: int)
    requires |t| > 0 && !IsSpace(t[0]) && ParseStripped(t) == Some(v)
    ensures ParseInteger(t) == Some(v)
  {
    assert Unpadded(t);
  }

  lemma StrippedRoundTrip(i: int)
    ensures |IntToString(i)| > 0 && !IsSpace(IntToString(i)[0])
    ensures ParseStripped(IntToString(i)) == Some(i)
  {
    if i < 0 {
      StrippedNegative(i);
    } else {
      NatToStringRoundTrip(i);
      PlainStripped(NatToString(i), i);
    }
  }

  lemma StrippedNegative(i: int)
    requires i < 0
    ensures |IntToString(i)| > 0 && !IsSpace(IntToString(i)[0])
    ensures ParseStripped(IntToString(i)) == Some(i)
  {
    var n: nat := -i;
    NatToStringRoundTrip(n);
    MinusText(IntToString(i), NatToString(n));
    NegativeDigits(IntToString(i), NatToString(n), n);
  }

  lemma NegativeDigits(t: string, p: string, n: nat)
    requires |t| > 0 && t[0] == '-' && t[1..] == p
    requires |p| > 0 && AllDigits(p) && DigitsValue(p) == n
    ensures ParseStripped(t) == Some(-(n as int))
  {
    NegativeStrippedAt(t, 1, n);
  }

  lemma PlainStripped(p: string, n: nat)
    requires |p| > 0 && AllDigits(p) && DigitsValue(p) == n
    ensures !IsSpace(p[0]) && ParseStripped(p) == Some(n)
  {
    UnsignedDigits(p);
    DigitsParse(p);
  }

  lemma MinusText(t: string, p: string)
    requires t == "-" + p
    ensures |t| > 0 && t[0] == '-' && t[1..] == p
  {
    assert t[1..] == p;
  }

  function LowerChar(c: char): char {
    if 'A' <= c <= 'Z' then ((c as int) + 32) as char else c
  }

  /** Python's `s.lower()` on ASCII letters; other characters are kept. */
  function Lower(s: string): string {
    seq(|s|, i requires 0 <= i < |s| => LowerChar(s[i]))
  }

  /** Python's `s.replace(a, b)` for single characters. */
  function ReplaceChar(s: string, a: char, b: char): string {
    seq(|s|, i requires 0 <= i < |s| => if s[i] == a then b else s[i])
  }

  predicate EndsWith(s: string, suffix: string) {
    |suffix| <= |s| && s[|s| - |suffix|..] == suffix
  }

  /** Python's `s.split(c)[0]`: the text before the first `c`, or all of `s`. */
  function BeforeFirst(s: string, c: char): (r: string)
    ensures |r| <= |s| && r == s[..|r|]
    ensures c !in r
    ensures |r| < |s| ==> s[|r|] == c
    decreases |s|
  {
    if |s| == 0 || s[0] == c then [] else [s[0]] + BeforeFirst(s[1..], c)
  }

  /** The text before the first `c` of `x`, `c`, `y` is `x` when `x` has no `c`. */
  lemma {:induction false} BeforeFirstSplit(x: string, c: char, y: string)
    requires c !in x
    ensures BeforeFirst(x + [c] + y, c) == x
    decreases |x|
  {
    if |x| > 0 {
      assert (x + [c] + y)[1..] == x[1..] + [c] + y;
      BeforeFirstSplit(x[1..], c, y);
    }
  }

  /** Splitting text without `c` at `c` gives the whole text. */
  lemma {:induction false} BeforeFirstAbsent(x: string, c: char)
    requires c !in x
    ensures BeforeFirst(x, c) == x
    decreases |x|
  {
    if |x| > 0 {
      BeforeFirstAbsent(x[1..], c);
    }
  }

  lemma ConcatAssoc(x: string, y: string, z: string)
    ensures x + (y + z) == (x + y) + z
  {
  }

  /** Drops the leading run of whitespace. */
  function DropSpaces(s: string): (r: string)
    ensures |r| <= |s| && r == s[|s| - |r|..]
    ensures |r| == 0 || !IsSpace(r[0])
    ensures forall i :: 0 <= i < |s| - |r| ==> IsSpace(s[i])
    decreases |s|
  {
    if |s| > 0 && IsSpace(s[0]) then DropSpaces(s[1..]) else s
  }

  /** Python's `re.sub(r'\s+', '-', s)`: every maximal run of whitespace becomes one `-`. */
  function CollapseSpaces(s: string): (r: string)
    ensures NoSpace(r)
    ensures |r| <= |s|
    decreases |s|
  {
    if |s| == 0 then []
    else if IsSpace(s[0]) then "-" + CollapseSpaces(DropSpaces(s[1..]))
    else [s[0]] + CollapseSpaces(s[1..])
  }

  /** Text without whitespace is left unchanged. */
  lemma {:induction false} CollapseSpacesIdentity(s: string)
    requires NoSpace(s)
    ensures CollapseSpaces(s) == s
    decreases |s|
  {
    if |s| > 0 {
      CollapseSpacesIdentity(s[1..]);
    }
  }

  /** Collapsing twice is collapsing once. */
  lemma CollapseSpacesIdempotent(s: string)
    ensures CollapseSpaces(CollapseSpaces(s)) == CollapseSpaces(s)
  {
    CollapseSpacesIdentity(CollapseSpaces(s));
  }

  lemma {:induction false} DropSpacesAppend(x: string, y: string)
    requires exists i :: 0 <= i < |x| && !IsSpace(x[i])
    ensures DropSpaces(x + y) == DropSpaces(x) + y
    decreases |x|
  {
    if IsSpace(x[0]) {
      assert (x + y)[1..] == x[1..] + y;
      var i :| 0 <= i < |x| && !IsSpace(x[i]);
      assert i > 0 && !IsSpace(x[1..][i - 1]);
      DropSpacesAppend(x[1..], y);
    }
  }

  lemma {:induction false} DropSpacesOfRun(r: string, b: string)
    requires forall i :: 0 <= i < |r| ==> IsSpace(r[i])
    requires |b| == 0 || !IsSpace(b[0])
    ensures DropSpaces(r + b) == b
    decreases |r|
  {
    if |r| == 0 {
      assert r + b == b;
    } else {
      assert (r + b)[1..] == r[1..] + b;
      DropSpacesOfRun(r[1..], b);
    }
  }

  /** A leading whitespace run becomes one `-`. */
  lemma {:induction false} CollapseSpacesLeadingRun(r: string, b: string)
    requires |r| > 0 && forall i :: 0 <= i < |r| ==> IsSpace(r[i])
    requires |b| == 0 || !IsSpace(b[0])
    ensures CollapseSpaces(r + b) == "-" + CollapseSpaces(b)
  {
    var s := r + b;
    assert s[0] == r[0];
    assert s[1..] == r[1..] + b;
    DropSpacesOfRun(r[1..], b);
    assert CollapseSpaces(s) == "-" + CollapseSpaces(DropSpaces(s[1..]));
  }

  /** One maximal whitespace run between two pieces becomes exactly one `-`
      and the pieces are collapsed independently. */
  lemma {:induction false} CollapseSpacesRun(a: string, r: string, b: string)
    requires |r| > 0 && forall i :: 0 <= i < |r| ==> IsSpace(r[i])
    requires |a| == 0 || !IsSpace(a[|a| - 1])
    requires |b| == 0 || !IsSpace(b[0])
    ensures CollapseSpaces(a + r + b) == CollapseSpaces(a) + "-" + CollapseSpaces(b)
    decreases |a|
  {
    if |a| == 0 {
      assert a + r + b == r + b;
      CollapseSpacesLeadingRun(r, b);
    } else if IsSpace(a[0]) {
      CollapseSpacesSpaceHead(a, r, b);
    } else {
      CollapseSpacesRun(a[1..], r, b);
      CollapseSpacesWordHead(a, r, b);
    }
  }

  lemma CollapseSpacesCons(c: char, t: string)
    requires !IsSpace(c)
    ensures CollapseSpaces([c] + t) == [c] + CollapseSpaces(t)
  {
    assert ([c] + t)[1..] == t;
  }

  /** A leading non-whitespace character is kept in front of the rest, so the run
      property of `a[1..]` carries over to `a`. */
  lemma CollapseSpacesWordHead(a: string, r: string, b: string)
    requires |a| > 0 && !IsSpace(a[0])
    requires CollapseSpaces(a[1..] + r + b) == CollapseSpaces(a[1..]) + "-" + CollapseSpaces(b)
    ensures CollapseSpaces(a + r + b) == CollapseSpaces(a) + "-" + CollapseSpaces(b)
  {
    var c, t := a[0], a[1..];
    assert a == [c] + t;
    ConcatAssoc([c], t, r);
    ConcatAssoc([c], t + r, b);
    CollapseSpacesCons(c, t + r + b);
    CollapseSpacesCons(c, t);
    ConcatAssoc([a[0]], CollapseSpaces(a[1..]) + "-", CollapseSpaces(b));
    ConcatAssoc([a[0]], CollapseSpaces(a[1..]), "-");
  }

  lemma {:induction false} CollapseSpacesSpaceHead(a: string, r: string, b: string)
    requires |r| > 0 && forall i :: 0 <= i < |r| ==> IsSpace(r[i])
    requires |a| > 0 && IsSpace(a[0]) && !IsSpace(a[|a| - 1])
    requires |b| == 0 || !IsSpace(b[0])
    ensures CollapseSpaces(a + r + b) == CollapseSpaces(a) + "-" + CollapseSpaces(b)
    decreases |a|, 0
  {
    var d := DropSpaces(a[1..]);
    SkipLeadingRun(a, r + b);
    ConcatAssoc(a, r, b);
    ConcatAssoc(d, r, b);
    CollapseSpacesRun(d, r, b);
    ConcatAssoc("-", CollapseSpaces(d) + "-", CollapseSpaces(b));
    ConcatAssoc("-", CollapseSpaces(d), "-");
  }

  /** When `a` starts with whitespace and ends without, the leading run of `a + t`
      is the leading run of `a`. */
  lemma SkipLeadingRun(a: string, t: string)
    requires |a| > 0 && IsSpace(a[0]) && !IsSpace(a[|a| - 1])
    ensures |DropSpaces(a[1..])| > 0 && !IsSpace(DropSpaces(a[1..])[|DropSpaces(a[1..])| - 1])
    ensures |DropSpaces(a[1..])| < |a|
    ensures CollapseSpaces(a + t) == "-" + CollapseSpaces(DropSpaces(a[1..]) + t)
    ensures CollapseSpaces(a) == "-" + CollapseSpaces(DropSpaces(a[1..]))
  {
    var rest := a[1..];
    assert (a + t)[1..] == rest + t;
    assert !IsSpace(rest[|rest| - 1]);
    DropSpacesAppend(rest, t);
    var d := DropSpaces(rest);
    assert |d| > 0 && d[|d| - 1] == rest[|rest| - 1];
  }
}

=== FILE: timestamps.dfy ===
/** Naive timestamps as the importer reads them: `strptime` with the pattern
    `%Y-%m-%dT%H:%M:%S`, a `%H:%M` offset, and `datetime` plus or minus a
    `timedelta`. A timestamp is a whole number of seconds since
    0001-01-01T00:00:00 in the proleptic Gregorian calendar, so shifting it by
    an offset is integer arithmetic. */
module Timestamps {
  import opened Basics
  import opened Text

  datatype DateTime = DateTime(year: int, month: int, day: int, hour: int, minute: int, second: int)

  predicate IsLeap(y: int) {
    y % 4 == 0 && (y % 100 != 0 || y % 400 == 0)
  }

  function DaysInMonth(y: int, m: int): int
    requires 1 <= m <= 12
  {
    if m == 2 then (if IsLeap(y) then 29 else 28)
    else if m == 4 || m == 6 || m == 9 || m == 11 then 30
    else 31
  }

  /** What the `datetime` constructor accepts: years 1 to 9999, real calendar
      days, and no leap seconds. */
  predicate Valid(dt: DateTime) {
    && 1 <= dt.year <= 9999
    && 1 <= dt.month <= 12
    && 1 <= dt.day <= DaysInMonth(dt.year, dt.month)
    && 0 <= dt.hour < 24
    && 0 <= dt.minute < 60
    && 0 <= dt.second < 60
  }

  function DaysBeforeYear(y: int): int
    requires y >= 1
  {
    var p := y - 1;
    p * 365 + p / 4 - p / 100 + p / 400
  }

  function DaysBeforeMonth(y: int, m: int): int
    requires 1 <= m <= 12
    decreases m
  {
    if m == 1 then 0 else DaysBeforeMonth(y, m - 1) + DaysInMonth(y, m - 1)
  }

  /** Seconds since 0001-01-01T00:00:00. */
  function ToSeconds(dt: DateTime): int
    requires Valid(dt)
  {
    var days := DaysBeforeYear(dt.year) + DaysBeforeMonth(dt.year, dt.month) + dt.day - 1;
    days * 86400 + dt.hour * 3600 + dt.minute * 60 + dt.second
  }

  /** `datetime.max`, 9999-12-31T23:59:59, in seconds. */
  const MaxSeconds: int := 315537897599

  lemma MaxSecondsIsLastSecond()
    ensures ToSeconds(DateTime(9999, 12, 31, 23, 59, 59)) == MaxSeconds
  {
    assert DaysBeforeMonth(9999, 12) == 334;
  }

  lemma DaysBeforeMonthBound(y: int, m: int)
    requires 1 <= m <= 12
    ensures 0 <= DaysBeforeMonth(y, m) && DaysBeforeMonth(y, m) + DaysInMonth(y, m) <= 365 + (if IsLeap(y) then 1 else 0)
  {
  }

  lemma DivStep(p: int)
    requires p >= 0
    ensures (p + 1) / 4 == p / 4 + (if (p + 1) % 4 == 0 then 1 else 0)
    ensures (p + 1) / 100 == p / 100 + (if (p + 1) % 100 == 0 then 1 else 0)
    ensures (p + 1) / 400 == p / 400 + (if (p + 1) % 400 == 0 then 1 else 0)
  {
  }

  lemma DaysBeforeYearStep(y: int)
    requires y >= 1
    ensures DaysBeforeYear(y + 1) == DaysBeforeYear(y) + 365 + (if IsLeap(y) then 1 else 0)
  {
    DivStep(y - 1);
    LeapDivisors(y);
  }

  lemma LeapDivisors(y: int)
    ensures y % 400 == 0 ==> y % 100 == 0
    ensures y % 100 == 0 ==> y % 4 == 0
  {
    if y % 400 == 0 {
      Div400(y / 400);
    }
    if y % 100 == 0 {
      Div100(y / 100);
    }
  }

  lemma Div400(k: int)
    ensures (400 * k) % 100 == 0
  {
  }

  lemma Div100(k: int)
    ensures (100 * k) % 4 == 0
  {
  }

  lemma {:induction false} DaysBeforeYearMonotone(y: int, z: int)
    requires 1 <= y <= z
    ensures DaysBeforeYear(y) + 365 * (z - y) <= DaysBeforeYear(z)
    decreases z - y
  {
    if y < z {
      DaysBeforeYearStep(y);
      DaysBeforeYearMonotone(y + 1, z);
    }
  }

  /** Every valid timestamp lies between `datetime.min` (0) and `datetime.max`. */
  lemma ToSecondsInRange(dt: DateTime)
    requires Valid(dt)
    ensures 0 <= ToSeconds(dt) <= MaxSeconds
  {
    DayNumberInRange(dt);
    var days := DaysBeforeYear(dt.year) + DaysBeforeMonth(dt.year, dt.month) + dt.day - 1;
    assert ToSeconds(dt) == days * 86400 + dt.hour * 3600 + dt.minute * 60 + dt.second;
  }

  /** The day number of a valid timestamp falls before the day number of 10000-01-01. */
  lemma DayNumberInRange(dt: DateTime)
    requires Valid(dt)
    ensures 0 <= DaysBeforeYear(dt.year) + DaysBeforeMonth(dt.year, dt.month) + dt.day - 1 < 3652059
  {
    DaysBeforeMonthBound(dt.year, dt.month);
    DaysBeforeYearStep(dt.year);
    DaysBeforeYearMonotone(dt.year + 1, 10000);
    assert DaysBeforeYear(10000) == 3652059;
  }

  function YearLength(y: int): int {
    if IsLeap(y) then 366 else 365
  }

  lemma MonthsFillYear(y: int)
    ensures DaysBeforeMonth(y, 12) + DaysInMonth(y, 12) == YearLength(y)
  {
  }

  /** The year holding day number `d` counted from the first day of year `y`,
      and the day's offset within that year. */
  function SplitYear(d: int, y: int): (r: (int, int))
    requires d >= 0 && y >= 1
    ensures r.0 >= y && 0 <= r.1 < YearLength(r.0)
    ensures DaysBeforeYear(r.0) + r.1 == DaysBeforeYear(y) + d
    decreases d
  {
    DaysBeforeYearStep(y);
    if d < YearLength(y) then (y, d) else SplitYear(d - YearLength(y), y + 1)
  }

  /** The month holding day `d` of year `y`, counted from the first day of month `m`,
      and the day of that month (from 1). */
  function SplitMonth(d: int, y: int, m: int): (r: (int, int))
    requires 1 <= m <= 12 && 0 <= d && DaysBeforeMonth(y, m) + d < YearLength(y)
    ensures m <= r.0 <= 12 && 1 <= r.1 <= DaysInMonth(y, r.0)
    ensures DaysBeforeMonth(y, r.0) + r.1 - 1 == DaysBeforeMonth(y, m) + d
    decreases 12 - m
  {
    MonthsFillYear(y);
    if d < DaysInMonth(y, m) then (m, d + 1) else SplitMonth(d - DaysInMonth(y, m), y, m + 1)
  }

  /** The inverse of `ToSeconds` on the range of `datetime`. */
  function FromSeconds(t: int): (dt: DateTime)
    requires 0 <= t <= MaxSeconds
    ensures Valid(dt) && ToSeconds(dt) == t
  {
    var days := t / 86400;
    var rem := t % 86400;
    var (y, doy) := SplitYear(days, 1);
    YearBound(y, doy, days);
    var (m, d) := SplitMonth(doy, y, 1);
    DateTime(y, m, d, rem / 3600, rem % 3600 / 60, rem % 60)
  }

  lemma YearBound(y: int, doy: int, days: int)
    requires y >= 1 && 0 <= doy && days <= MaxSeconds / 86400
    requires DaysBeforeYear(y) + doy == DaysBeforeYear(1) + days
    ensures y <= 9999
  {
    if y > 9999 {
      DaysBeforeYearMonotone(10000, y);
    }
  }

  lemma {:induction false} SplitYearUnique(d: int, y: int, year: int, k: int)
    requires d >= 0 && 1 <= y <= year && 0 <= k < YearLength(year)
    requires DaysBeforeYear(y) + d == DaysBeforeYear(year) + k
    ensures SplitYear(d, y) == (year, k)
    decreases d
  {
    DaysBeforeYearStep(y);
    if y < year {
      DaysBeforeYearMonotone(y + 1, year);
      assert d >= YearLength(y);
      SplitYearUnique(d - YearLength(y), y + 1, year, k);
    }
  }

  /** A day of the year names one month and one day of it. */
  lemma MonthDayUnique(y: int, m1: int, d1: int, m2: int, d2: int)
    requires 1 <= m1 <= 12 && 1 <= d1 <= DaysInMonth(y, m1)
    requires 1 <= m2 <= 12 && 1 <= d2 <= DaysInMonth(y, m2)
    requires DaysBeforeMonth(y, m1) + d1 == DaysBeforeMonth(y, m2) + d2
    ensures m1 == m2 && d1 == d2
  {
    if m1 < m2 {
      MonthStartsAfter(y, m1, m2);
    } else if m2 < m1 {
      MonthStartsAfter(y, m2, m1);
    }
  }

  /** A later month starts after an earlier month has ended. */
  lemma MonthStartsAfter(y: int, a: int, b: int)
    requires 1 <= a < b <= 12
    ensures DaysBeforeMonth(y, a) + DaysInMonth(y, a) <= DaysBeforeMonth(y, b)
  {
    DaysBeforeMonthMonotone(y, a + 1, b);
  }

  lemma {:induction false} DaysBeforeMonthMonotone(y: int, m: int, n: int)
    requires 1 <= m <= n <= 12
    ensures DaysBeforeMonth(y, m) <= DaysBeforeMonth(y, n)
    decreases n - m
  {
    if m < n {
      DaysBeforeMonthMonotone(y, m, n - 1);
    }
  }

  lemma DayAndTime(days: int, tod: int)
    requires 0 <= tod < 86400
    ensures (days * 86400 + tod) / 86400 == days && (days * 86400 + tod) % 86400 == tod
  {
  }

  /** Reading a timestamp's seconds back gives the timestamp: `ToSeconds` is one-to-one. */
  lemma FromToSeconds(dt: DateTime)
    requires Valid(dt)
    ensures 0 <= ToSeconds(dt) <= MaxSeconds
    ensures FromSeconds(ToSeconds(dt)) == dt
  {
    ToSecondsInRange(dt);
    var t := ToSeconds(dt);
    var doy := DaysBeforeMonth(dt.year, dt.month) + dt.day - 1;
    var days := DaysBeforeYear(dt.year) + doy;
    var tod := dt.hour * 3600 + dt.minute * 60 + dt.second;
    DayAndTime(days, tod);
    DaysBeforeMonthBound(dt.year, dt.month);
    SplitYearUnique(days, 1, dt.year, doy);
    var (m, d) := SplitMonth(doy, dt.year, 1);
    MonthDayUnique(dt.year, m, d, dt.month, dt.day);
    TimeOfDay(dt.hour, dt.minute, dt.second);
    FromSecondsParts(t, days, tod, dt.year, doy, dt.month, dt.day);
  }

  /** `FromSeconds` once the day number has been split into year, month and day. */
  lemma FromSecondsParts(t: int, days: int, tod: int, y: int, doy: int, m: int, d: int)
    requires 0 <= t <= MaxSeconds && t / 86400 == days && t % 86400 == tod
    requires SplitYear(days, 1) == (y, doy) && SplitMonth(doy, y, 1) == (m, d)
    ensures FromSeconds(t) == DateTime(y, m, d, tod / 3600, tod % 3600 / 60, tod % 60)
  {
  }

  lemma TimeOfDay(h: int, m: int, s: int)
    requires 0 <= h < 24 && 0 <= m < 60 && 0 <= s < 60
    ensures var tod := h * 3600 + m * 60 + s;
      tod / 3600 == h && tod % 3600 / 60 == m && tod % 60 == s
  {
    var tod := h * 3600 + m * 60 + s;
    assert tod % 3600 == m * 60 + s;
    assert tod % 60 == s;
  }

  function TwoDigitValue(s: string): Option<nat> {
    if |s| == 2 && AllDigits(s) then Some(DigitsValue(s)) else None
  }

  /** A two-character field in `lo..hi`, as the `%m`, `%H`, `%M` and `%S`
      patterns match it when the whole field is two characters wide. */
  function Field2(s: string, lo: nat, hi: nat): Option<nat> {
    match TwoDigitValue(s)
    case Some(v) => if lo <= v <= hi then Some(v) else None
    case None => None
  }

  /** `%d` also matches a space followed by a digit 1 to 9. */
  function DayField(s: string): Option<nat> {
    if |s| == 2 && s[0] == ' ' && IsDigit(s[1]) && s[1] != '0' then Some(DigitValue(s[1]))
    else Field2(s, 1, 31)
  }

  /** `datetime.strptime(s, '%Y-%m-%dT%H:%M:%S')`. With nineteen characters every field is
      two characters wide (four for the year); the literal `T` matches in either case
      because the pattern is compiled case-insensitively. `None` stands for `ValueError`. */
  function ParseNaive(s: string): (r: Option<DateTime>)
    ensures r.Some? ==> Valid(r.value)
    ensures r.Some? ==> SpellsNaive(s, r.value)
    ensures forall dt :: Valid(dt) && SpellsNaive(s, dt) ==> r == Some(dt)
  {
    NaiveFields(s);
    if |s| != 19 || !AllDigits(s[..4]) || s[4] != '-' || s[7] != '-'
       || (s[10] != 'T' && s[10] != 't') || s[13] != ':' || s[16] != ':' then None
    else
      var year := DigitsValue(s[..4]);
      match (Field2(s[5..7], 1, 12), DayField(s[8..10]), Field2(s[11..13], 0, 23),
             Field2(s[14..16], 0, 59), Field2(s[17..19], 0, 59))
      case (Some(mo), Some(d), Some(h), Some(mi), Some(sec)) =>
        var dt := DateTime(year, mo, d, h, mi, sec);
        if Valid(dt) then
          NaiveSpelled(s, dt);
          Some(dt)
        else None
      case _ => None
  }

  /** `s` spells `dt` as `%Y-%m-%dT%H:%M:%S` matches it: the zero-padded fields of the
      ISO form, except that the `T` may be lower case and a one-digit day may be
      padded with a space. */
  predicate SpellsNaive(s: string, dt: DateTime)
    requires Valid(dt)
  {
    && |s| == 19 && s[..4] == Pad4(dt.year) && s[4] == '-' && s[5..7] == Pad2(dt.month) && s[7] == '-'
    && (s[8..10] == Pad2(dt.day) || (dt.day < 10 && s[8..10] == [' ', DigitChar(dt.day)]))
    && (s[10] == 'T' || s[10] == 't') && s[11..13] == Pad2(dt.hour) && s[13] == ':'
    && s[14..16] == Pad2(dt.minute) && s[16] == ':' && s[17..19] == Pad2(dt.second)
  }

  /** Text whose fields read as the parts of a valid timestamp spells it. */
  lemma NaiveSpelled(s: string, dt: DateTime)
    requires Valid(dt) && |s| == 19 && AllDigits(s[..4]) && DigitsValue(s[..4]) == dt.year
    requires s[4] == '-' && s[7] == '-' && (s[10] == 'T' || s[10] == 't') && s[13] == ':' && s[16] == ':'
    requires Field2(s[5..7], 1, 12) == Some(dt.month) && DayField(s[8..10]) == Some(dt.day)
    requires Field2(s[11..13], 0, 23) == Some(dt.hour) && Field2(s[14..16], 0, 59) == Some(dt.minute)
    requires Field2(s[17..19], 0, 59) == Some(dt.second)
    ensures SpellsNaive(s, dt)
  {
    Pad4Digits(s[..4]);
    Field2Digits(s[5..7], 1, 12);
    DayDigits(s[8..10]);
    Field2Digits(s[11..13], 0, 23);
    Field2Digits(s[14..16], 0, 59);
    Field2Digits(s[17..19], 0, 59);
  }

  /** The fields of a text that spells a valid timestamp read as its parts. */
  lemma NaiveFields(s: string)
    ensures forall dt :: Valid(dt) && SpellsNaive(s, dt) ==>
      && AllDigits(s[..4]) && DigitsValue(s[..4]) == dt.year
      && Field2(s[5..7], 1, 12) == Some(dt.month) && DayField(s[8..10]) == Some(dt.day)
      && Field2(s[11..13], 0, 23) == Some(dt.hour) && Field2(s[14..16], 0, 59) == Some(dt.minute)
      && Field2(s[17..19], 0, 59) == Some(dt.second)
  {
    forall dt | Valid(dt) && SpellsNaive(s, dt)
      ensures && AllDigits(s[..4]) && DigitsValue(s[..4]) == dt.year
              && Field2(s[5..7], 1, 12) == Some(dt.month) && DayField(s[8..10]) == Some(dt.day)
              && Field2(s[11..13], 0, 23) == Some(dt.hour) && Field2(s[14..16], 0, 59) == Some(dt.minute)
              && Field2(s[17..19], 0, 59) == Some(dt.second)
    {
      Pad4Value(dt.year);
      Pad2Value(dt.month);
      Pad2Value(dt.hour);
      Pad2Value(dt.minute);
      Pad2Value(dt.second);
      DayReads(s[8..10], dt.day);
    }
  }

  /** A day written either way reads as itself. */
  lemma DayReads(f: string, d: nat)
    requires 1 <= d <= 31
    requires f == Pad2(d) || (d < 10 && f == [' ', DigitChar(d)])
    ensures DayField(f) == Some(d)
  {
    Pad2Value(d);
    if d < 10 {
      assert DigitValue(DigitChar(d)) == d;
      assert Pad2(d)[0] == '0';
    }
  }

  /** A two-digit field is the padded form of its value. */
  lemma Field2Digits(f: string, lo: nat, hi: nat)
    ensures Field2(f, lo, hi).Some? ==> Field2(f, lo, hi).value < 100 && f == Pad2(Field2(f, lo, hi).value)
  {
    if Field2(f, lo, hi).Some? {
      Pad2Digits(f);
    }
  }

  /** A day field is the padded form of its value, or a space and a digit. */
  lemma DayDigits(f: string)
    ensures DayField(f).Some? ==>
      && DayField(f).value < 100
      && (f == Pad2(DayField(f).value) || (DayField(f).value < 10 && f == [' ', DigitChar(DayField(f).value)]))
  {
    if |f| == 2 && f[0] == ' ' && IsDigit(f[1]) && f[1] != '0' {
      assert DigitChar(DigitValue(f[1])) == f[1];
    } else {
      Field2Digits(f, 1, 31);
    }
  }

  lemma Pad2Digits(f: string)
    requires |f| == 2 && AllDigits(f)
    ensures DigitsValue(f) < 100 && f == Pad2(DigitsValue(f))
  {
    var a, b := DigitValue(f[0]), DigitValue(f[1]);
    TwoDigits(f);
    assert DigitChar(a) == f[0] && DigitChar(b) == f[1];
  }

  lemma TwoDigits(f: string)
    requires |f| == 2 && AllDigits(f)
    ensures DigitsValue(f) == 10 * DigitValue(f[0]) + DigitValue(f[1])
  {
    assert f[..1][..0] == [] && f[..1][0] == f[0];
    assert DigitsValue(f[..1]) == DigitValue(f[0]);
  }

  lemma Pad4Digits(f: string)
    requires |f| == 4 && AllDigits(f)
    ensures DigitsValue(f) < 10000 && f == Pad4(DigitsValue(f))
  {
    var hi, lo := f[..2], f[2..];
    Pad2Digits(hi);
    Pad2Digits(lo);
    var h, l := DigitsValue(hi), DigitsValue(lo);
    FourDigits(f, h, l);
    HundredsSplit(h, l);
    assert f == Pad2(h) + Pad2(l);
  }

  lemma HundredsSplit(h: nat, l: nat)
    requires h < 100 && l < 100
    ensures (100 * h + l) / 100 == h && (100 * h + l) % 100 == l
  {
  }

  lemma FourDigits(f: string, h: nat, l: nat)
    requires |f| == 4 && AllDigits(f)
    requires DigitsValue(f[..2]) == h && DigitsValue(f[2..]) == l && l < 100
    ensures DigitsValue(f) == 100 * h + l
  {
    TwoDigits(f[2..]);
    assert f[..3][..2] == f[..2];
    assert DigitsValue(f[..3]) == 10 * h + DigitValue(f[2]);
  }

  /** `datetime.strptime(s, '%H:%M') - datetime.strptime('00:00', '%H:%M')` in seconds:
      one or two digits for hours up to 23, a colon, one or two digits for minutes
      up to 59, and nothing else. */
  function ParseOffset(s: string): (r: Option<int>)
    ensures r.Some? ==> 0 <= r.value <= 23 * 3600 + 59 * 60 && r.value % 60 == 0
    ensures r.Some? ==> exists j: nat :: OffsetText(s, j) && r.value == OffsetValue(s, j)
    ensures forall j: nat :: OffsetText(s, j) && DigitsValue(s[..j]) <= 23 && DigitsValue(s[j + 1..]) <= 59 ==>
      r == Some(OffsetValue(s, j))
  {
    var h := BeforeFirst(s, ':');
    OffsetColon(s);
    if |h| == |s| then None
    else
      var m := s[|h| + 1..];
      if 1 <= |h| <= 2 && AllDigits(h) && 1 <= |m| <= 2 && AllDigits(m)
         && DigitsValue(h) <= 23 && DigitsValue(m) <= 59
      then
        assert OffsetText(s, |h|);
        Some(DigitsValue(h) * 3600 + DigitsValue(m) * 60)
      else None
  }

  /** `s` is one or two digits, a colon at offset `j`, and one or two digits. */
  predicate OffsetText(s: string, j: nat) {
    && 1 <= j <= 2 && j + 2 <= |s| <= j + 3 && s[j] == ':'
    && AllDigits(s[..j]) && AllDigits(s[j + 1..])
  }

  /** The seconds an `H:M` text spells. */
  function OffsetValue(s: string, j: nat): nat
    requires OffsetText(s, j)
  {
    DigitsValue(s[..j]) * 3600 + DigitsValue(s[j + 1..]) * 60
  }

  /** In offset text the hours end at the only colon. */
  lemma OffsetColon(s: string)
    ensures forall j: nat :: OffsetText(s, j) ==> BeforeFirst(s, ':') == s[..j]
  {
  }

  datatype TimeError = TooShort | BadDateTime | BadOffset | OutOfRange

  /** The datetime branch of the field coercer: characters 0..19 are the naive time,
      character 19 the sign, the rest the offset. A `-` sign subtracts the offset and
      every other character adds it; a result outside `datetime`'s range is the
      `OverflowError` of `datetime` arithmetic. */
  function ParseZoned(raw: string): (r: Result<int, TimeError>)
    ensures r.Ok? ==> 0 <= r.value <= MaxSeconds
    ensures |raw| < 20 ==> r == Err(TooShort)
    ensures r.Ok? ==> ParseNaive(raw[..19]).Some? && ParseOffset(raw[20..]).Some?
  {
    if |raw| < 20 then Err(TooShort)
    else
      match ParseNaive(raw[..19])
      case None => Err(BadDateTime)
      case Some(dt) =>
        match ParseOffset(raw[20..])
        case None => Err(BadOffset)
        case Some(off) =>
          var t := if raw[19] == '-' then ToSeconds(dt) - off else ToSeconds(dt) + off;
          if 0 <= t <= MaxSeconds then Ok(t) else Err(OutOfRange)
  }

  // Printing, the partner of parsing.

  function Pad2(n: nat): string
    requires n < 100
  {
    [DigitChar(n / 10), DigitChar(n % 10)]
  }

  function Pad4(n: nat): string
    requires n < 10000
  {
    Pad2(n / 100) + Pad2(n % 100)
  }

  /** `dt.strftime('%Y-%m-%dT%H:%M:%S')`. */
  function FormatNaive(dt: DateTime): (s: string)
    requires Valid(dt)
    ensures |s| == 19
  {
    Pad4(dt.year) + "-" + Pad2(dt.month) + "-" + Pad2(dt.day) + "T"
    + Pad2(dt.hour) + ":" + Pad2(dt.minute) + ":" + Pad2(dt.second)
  }

  /** `HH:MM`. */
  function FormatOffset(h: nat, m: nat): string
    requires h <= 23 && m <= 59
  {
    Pad2(h) + ":" + Pad2(m)
  }

  lemma Pad2Value(n: nat)
    requires n < 100
    ensures AllDigits(Pad2(n)) && DigitsValue(Pad2(n)) == n
  {
    var s := Pad2(n);
    assert DigitValue(DigitChar(n / 10)) == n / 10;
    assert DigitValue(DigitChar(n % 10)) == n % 10;
    assert s[..1] == [DigitChar(n / 10)];
    assert s[..1][..0] == [];
    assert DigitsValue(s[..1]) == n / 10;
  }

  lemma Pad4Value(n: nat)
    requires n < 10000
    ensures AllDigits(Pad4(n)) && DigitsValue(Pad4(n)) == n
  {
    var s := Pad4(n);
    var hi, lo := Pad2(n / 100), Pad2(n % 100);
    Pad2Value(n / 100);
    Pad2Value(n % 100);
    assert s[..3] == hi + [lo[0]];
    assert s[..3][..2] == hi;
    assert s[..2] == hi;
    assert DigitsValue(s[..3]) == 10 * DigitsValue(hi) + DigitValue(lo[0]);
    assert lo[..1] == [lo[0]];
  }

  /** Parsing what was printed gives the timestamp back. */
  lemma ParseFormatNaive(dt: DateTime)
    requires Valid(dt)
    ensures ParseNaive(FormatNaive(dt)) == Some(dt)
  {
    var s := FormatNaive(dt);
    assert |s| == 19;
    Pad4Value(dt.year);
    Pad2Value(dt.month);
    Pad2Value(dt.day);
    Pad2Value(dt.hour);
    Pad2Value(dt.minute);
    Pad2Value(dt.second);
    assert s[..4] == Pad4(dt.year);
    assert s[5..7] == Pad2(dt.month);
    assert s[8..10] == Pad2(dt.day);
    assert s[11..13] == Pad2(dt.hour);
    assert s[14..16] == Pad2(dt.minute);
    assert s[17..19] == Pad2(dt.second);
  }

  /** Parsing a printed `HH:MM` offset gives its length in seconds. */
  lemma ParseFormatOffset(h: nat, m: nat)
    requires h <= 23 && m <= 59
    ensures ParseOffset(FormatOffset(h, m)) == Some(h * 3600 + m * 60)
  {
    var s := FormatOffset(h, m);
    Pad2Value(h);
    Pad2Value(m);
    assert s[..2] == Pad2(h) && s[2] == ':';
    assert BeforeFirst(s, ':') == Pad2(h);
    assert s[3..] == Pad2(m);
  }

  /** The round trip through the zoned form: a printed timestamp, a sign and a printed
      offset read back as the timestamp shifted by the offset, in the direction the
      importer shifts it. */
  lemma ParseZonedFormat(dt: DateTime, sign: char, h: nat, m: nat)
    requires Valid(dt) && h <= 23 && m <= 59
    ensures var t := if sign == '-' then ToSeconds(dt) - (h * 3600 + m * 60)
                     else ToSeconds(dt) + (h * 3600 + m * 60);
            ParseZoned(FormatNaive(dt) + [sign] + FormatOffset(h, m))
            == if 0 <= t <= MaxSeconds then Ok(t) else Err(OutOfRange)
  {
    var raw := FormatNaive(dt) + [sign] + FormatOffset(h, m);
    SplitAtSign(FormatNaive(dt), sign, FormatOffset(h, m));
    ParseFormatNaive(dt);
    ParseFormatOffset(h, m);
    ParseZonedParts(raw, dt, h * 3600 + m * 60);
  }

  /** `ParseZoned` on a string whose two halves parse. */
  lemma ParseZonedParts(raw: string, dt: DateTime, off: int)
    requires |raw| >= 20 && ParseNaive(raw[..19]) == Some(dt) && ParseOffset(raw[20..]) == Some(off)
    ensures var t := if raw[19] == '-' then ToSeconds(dt) - off else ToSeconds(dt) + off;
            ParseZoned(raw) == if 0 <= t <= MaxSeconds then Ok(t) else Err(OutOfRange)
  {
  }

  lemma SplitAtSign(a: string, c: char, b: string)
    requires |a| == 19
    ensures |a + [c] + b| >= 20
    ensures (a + [c] + b)[..19] == a && (a + [c] + b)[19] == c && (a + [c] + b)[20..] == b
  {
  }

  /** A `+00:00` offset never leaves the range of `datetime`. */
  lemma ZeroOffsetInRange(dt: DateTime, sign: char)
    requires Valid(dt)
    ensures ParseZoned(FormatNaive(dt) + [sign] + FormatOffset(0, 0)) == Ok(ToSeconds(dt))
  {
    ToSecondsInRange(dt);
    ParseZonedFormat(dt, sign, 0, 0);
  }

  /** `2009-04-03T16:15:27+01:00` reads as 17:15:27 on the same day. */
  lemma ExamplePlusOneHour()
    ensures ParseZoned("2009-04-03T16:15:27+01:00") == Ok(ToSeconds(DateTime(2009, 4, 3, 17, 15, 27)))
  {
    var dt := DateTime(2009, 4, 3, 16, 15, 27);
    assert FormatNaive(dt) + ['+'] + FormatOffset(1, 0) == "2009-04-03T16:15:27+01:00";
    ToSecondsInRange(DateTime(2009, 4, 3, 17, 15, 27));
    ParseZonedFormat(dt, '+', 1, 0);
  }
}
